=== FILE: README.md ===
# Stock dashboard core, modelled in Dafny

This project models the stock-watchlist part of the portfolio front end. It covers:

- **Dashboard.** The live ticker store keeps one snapshot per symbol. It merges price and trade events from the price feed into those snapshots and derives each ticker's position fields from its selected broker. It plays an alert chime when the price crosses a threshold, and that chime re-arms once the price moves back. The store also applies threshold edits optimistically and rolls them back when the save fails. The ticker list is filtered and sorted for display, and a capped "favorable" list is kept.
- **Threshold rules.** A ticker's four alert thresholds (green, cyan, orange, red) are validated against ordering rules and a floor for red.
- **Favorability.** A classifier ranks tickers that sit in a sell zone or a buy zone.
- **Trade form.** The quick-trade form shows a preview of the new quantity, the new average cost and the profit. It also has a submit guard.
- **Chart wall.** It splits the selected symbols into tabs and rotates through them. It keeps a registry of live-price and series subscribers. It fetches only the series that are missing, and never fetches the same symbol twice in parallel. It reads its settings from the page URL and writes them back. It also prunes the selection to the tickers the dropdown offers.
- **Small helpers.** The chart grid layout, the "time ago" label and the e-mail validator.

Code that works by changing state is imperative Dafny:

- The dashboard's ticker store is the class `Dashboard.TickerStore`. Its fields are the snapshot map and the three per-symbol side tables behind the chime logic: last price, "already seen" and the arm flags.
- The chart wall's refs and its loaded-day state are the class `ChartWall.ChartWallStore`.
- Chime playback and callback delivery are ghost logs (`chimeLog`, `deliveries`), so the model can state which chimes play and which subscribers hear of an update.
- Every handler is proved against a specification function (`DashboardSpec.PriceEvent`, `TradeEvent`, `SetThresholdById`, `ChartWall.Add`/`Remove`/`MissingSymbols`/`StoreSeries`, …). The properties are then proved about those functions.
- The loops of the source are methods with invariants: the load loop, the threshold loops, `validateThresholds`, `chunk`, the fetch loop and the callback fan-out.

The pure utilities are functions with lemmas: sorting, favorability, filtering, URL parsing, grid layout, "time ago" and e-mail validation.

Modules follow the source files:

| file | module | source |
|---|---|---|
| `wrappers.dfy`, `sequences.dfy`, `strings.dfy` | `Wrappers`, `Sequences`, `Strings` | `Option`, array `filter`/`sort`/`slice`, and the JavaScript string methods the core uses |
| `ticker_types.dfy` | `TickerTypes` | the ticker and price-event records |
| `stock_ui.dfy` | `StockUI` | `src/constants/stockUI.ts` |
| `favorability.dfy` | `Favorability` | `src/utils/stock/favorability.ts` |
| `ticker_sorting.dfy` | `TickerSorting` | `src/utils/stock/tickerSorting.ts` |
| `dashboard_util.dfy` | `DashboardUtil` | `src/utils/stock/DashboardUtil.ts` |
| `threshold_validation.dfy` | `ThresholdValidation` | `src/utils/stock/thresholdValidation.ts` |
| `filter.dfy` | `TickerFilter` | `src/utils/stock/filter.ts` |
| `chimes.dfy` | `Chimes` | the crossing rule in `src/pages/stock/Dashboard.tsx` |
| `dashboard_store.dfy` | `DashboardSpec` | the state transitions of `src/pages/stock/Dashboard.tsx`, as functions |
| `dashboard.dfy` | `Dashboard` | the handlers of `src/pages/stock/Dashboard.tsx`, as a class |
| `trade.dfy` | `TradePreview` | `src/pages/stock/Trade.tsx` |
| `chartwall_tabs.dfy` | `ChartWallTabs` | tabs and rotation in `src/pages/stock/ChartWall.tsx` |
| `chartwall.dfy` | `ChartWall` | refs, subscriptions, fetching and pruning in `src/pages/stock/ChartWall.tsx` |
| `chartwall_url.dfy` | `ChartWallUrl` | `src/utils/stock/chartwallUrl.ts` |
| `chart_grid.dfy` | `ChartGrid` | `src/components/stock/chartwall/ChartGrid.tsx` |
| `time_ago.dfy` | `TimeAgo` | `src/components/stock/shared/TimeAgo.tsx` |
| `validation.dfy` | `EmailValidation` | `src/utils/common/validation.ts` |

How the JavaScript semantics are represented:

- Prices are `real`. A field that may be `null`/`undefined` is an `Option`.
- A JavaScript `Map` or object keyed by insertion order is a `seq` of entries, so "first with qty > 0" keeps its meaning.
- `localeCompare` is code-point lexicographic order.
- `Array.prototype.sort` is a stable insertion sort.
- `%` is written out with the sign of the dividend (`JsRemainder`).
- The current time, the audio unlock and the server's answers are parameters.

## Model

| member | source | states |
|---|---|---|
| StockUI.GetThresholdColor | src/constants/stockUI.ts:3-12 | each threshold key has its own colour from the colour table, and no two keys share one |
| StockUI.IsThresholdKey | src/constants/stockUI.ts:14-21 | true exactly for the names of the four threshold keys |
| StockUI.LabelSide | src/constants/stockUI.ts:24-33 | labels sit left on the even rungs of the green-cyan-orange-red ladder, right on the odd ones |
| StockUI.NeighboursAlternate | src/constants/stockUI.ts:24-33 | neighbouring thresholds on the ladder always put their labels on opposite sides |
| Favorability.FavorabilityScore | src/utils/stock/favorability.ts:3-9 | core scores 100, watch 70, once 40, and any other or missing bucket 0; the score is 0 exactly when the bucket is "avoid" or unknown |
| Favorability.ScoreAntitoneInBucketRank | src/utils/stock/favorability.ts:6-7 | a better-ranked bucket never scores lower |
| Favorability.ScoreDependsOnlyOnBucket | src/utils/stock/favorability.ts:3-9 | two tickers with the same bucket score the same |
| TickerSorting.BucketRank | src/utils/stock/tickerSorting.ts:3-17 | core ranks 0, watch 1, once 2, avoid 3, and any other or missing bucket 99; no other rank occurs |
| TickerSorting.BucketRankOfBuckets | src/utils/stock/tickerSorting.ts:3-17 | every named bucket ranks within 0-3, below any unknown one, and two named buckets share a rank only when they are the same |
| TickerSorting.FavRank | src/utils/stock/tickerSorting.ts:28-39 | the ladder: held green 0, held cyan 1, quantity-0 red 2, held red 3, held orange 4, quantity-0 orange 5, none 99; every favorable state ranks at most 5 |
| TickerSorting.FavRankLadder | src/utils/stock/tickerSorting.ts:28-39 | the rank of each state, and a state ranks before "none" exactly when it is favorable |
| TickerSorting.FavRankInjective | src/utils/stock/tickerSorting.ts:28-39 | no two states share a rank, so the precedence ladder is a strict order |
| TickerSorting.GetFavState | src/utils/stock/tickerSorting.ts:45-73 | a returned state's zone condition holds, and it is the best-ranked of all states whose condition holds |
| TickerSorting.IsFavorable | src/utils/stock/tickerSorting.ts:118-123 | favorable exactly when some sell-zone or buy-zone condition holds |
| TickerSorting.SilenceMutesOnlyBuyZone | src/utils/stock/tickerSorting.ts:61-72 | silencing keeps the sell-zone states and turns only the buy-zone states into "none" |
| TickerSorting.NotHeldNeverSellZone | src/utils/stock/tickerSorting.ts:69-72 | a ticker with no holding is only ever in a buy-zone state or "none" |
| TickerSorting.LocaleCompare | src/utils/stock/tickerSorting.ts:83 | the result is -1, 0 or 1, and 0 exactly for equal strings |
| TickerSorting.LocaleCompareAntisymmetric | src/utils/stock/tickerSorting.ts:83 | swapping the operands negates the result |
| TickerSorting.LexCompareAntisymmetric | src/utils/stock/tickerSorting.ts:88-114 | the rank-by-rank comparison with a symbol tie-break flips sign when the operands swap |
| TickerSorting.SortKey | src/utils/stock/tickerSorting.ts:81-114 | az/za compare no ranks, bucket mode one, favorability mode two (ladder rank, then bucket rank) |
| TickerSorting.CompareBySort | src/utils/stock/tickerSorting.ts:75-116 | the comparator's sign equals the sign of a lexicographic comparison of the mode's ranks with the symbol order as tie-break |
| TickerSorting.CompareBySortAntisymmetric | src/utils/stock/tickerSorting.ts:75-116 | compare(b, a) has the opposite sign of compare(a, b) in every mode |
| TickerSorting.ComparatorAntisymmetric | src/utils/stock/tickerSorting.ts:75-116 | the comparator handed to the sort is antisymmetric |
| TickerSorting.Comparator | src/pages/stock/Dashboard.tsx:278-280 | the sort mode's comparison as the function handed to the sort; ComparatorAntisymmetric states it |
| TickerSorting.FavorableFirst | src/utils/stock/tickerSorting.ts:99-103 | in favorability order a favorable ticker sorts before a non-favorable one |
| TickerSorting.ZaReversesAz | src/utils/stock/tickerSorting.ts:82-86 | Z-A ordering is A-Z ordering with the operands swapped |
| TickerSorting.SortByModeSorted | src/utils/stock/tickerSorting.ts:75-116 | sorting by any mode yields a list ordered by that comparator that is a permutation of the input |
| Sequences.Sort | src/pages/stock/Dashboard.tsx:278-280 | the sort returns a permutation of its input |
| Sequences.SortSorted | src/pages/stock/Dashboard.tsx:278-280 | under an antisymmetric comparator the sort's output is ordered |
| Sequences.Filter | src/utils/stock/filter.ts:22-31 | keeps every passing element exactly as often as it occurs and drops every failing one, so the result holds only passing elements and misses none |
| Sequences.FilterIdempotent | src/utils/stock/filter.ts:22-31 | filtering twice by the same predicate is filtering once |
| Sequences.Take | src/pages/stock/Dashboard.tsx:320 | exactly min(n, length) elements: the whole list when it is short, otherwise its first n |
| TickerTypes.Lookup | src/utils/stock/DashboardUtil.ts:3-6 | a broker's position is found exactly when that broker has an entry, and the value found is that entry's |
| TickerTypes.Put | src/pages/stock/Dashboard.tsx:253-256 | writing one broker's position grows the map by at most one entry; PutLookup and PutBrokers state the contents and the order |
| TickerTypes.PutLookup | src/pages/stock/Dashboard.tsx:253-256 | after writing a broker's position, that broker reads the new position and every other broker reads what it did before |
| TickerTypes.PutBrokers | src/pages/stock/Dashboard.tsx:253-256 | writing keeps the broker order and appends a broker that was not there yet |
| TickerTypes.WithThreshold | src/pages/stock/Dashboard.tsx:387 | the edited key reads the new value; every other threshold and every other field is unchanged |
| DashboardUtil.GetBrokerQty | src/utils/stock/DashboardUtil.ts:3-6 | the quantity of the broker's entry when it has a number, otherwise 0 |
| DashboardUtil.FirstHolding | src/utils/stock/DashboardUtil.ts:12-15 | none exactly when no broker holds a positive quantity; otherwise the earliest broker in key order that does |
| DashboardUtil.PickDefaultBroker | src/utils/stock/DashboardUtil.ts:8-17 | the fallback when it holds shares; otherwise, if any broker holds shares, the first in key order that does; otherwise the fallback |
| DashboardUtil.DeriveFrom | src/utils/stock/DashboardUtil.ts:19-32 | from a position (or none) and a last price: no position gives null cost, null quantity and return 0; otherwise cost and quantity are the position's, and the return is last·qty − avg·qty exactly when avg, qty > 0 and last > 0 are present, else 0 |
| DashboardUtil.DerivePositionFields | src/utils/stock/DashboardUtil.ts:19-32 | average cost and quantity mirror the selected broker's numbers; the return is (last − avg)·qty when avg, qty > 0 and last > 0 are all present, else 0 |
| DashboardUtil.DeriveIsLocal | src/utils/stock/DashboardUtil.ts:19-32 | derived fields depend only on the last price and that broker's position |
| ThresholdValidation.BaseError | src/utils/stock/thresholdValidation.ts:27-42 | there is no base error exactly when the value is present and strictly positive |
| ThresholdValidation.SetIfAbsent | src/utils/stock/thresholdValidation.ts:52-61 | an existing message wins over the ordering message; other keys are untouched |
| ThresholdValidation.BaseRules | src/utils/stock/thresholdValidation.ts:26-42 | the loop reports, for exactly the keys that fail, the required / zero / negative message |
| ThresholdValidation.BaseErrorsStep | src/utils/stock/thresholdValidation.ts:26-42 | one more key in the scan adds exactly that key's base-rule message, if it has one, and changes no other entry |
| ThresholdValidation.OrderingRules | src/utils/stock/thresholdValidation.ts:49-67 | over the base-rule errors of four numbers, the three pairwise rules and the red floor leave exactly the specified message on every key |
| ThresholdValidation.ValidateThresholds | src/utils/stock/thresholdValidation.ts:16-71 | the returned errors are the specified per-key errors, and ok holds exactly when there are none |
| ThresholdValidation.SameErrors | src/utils/stock/thresholdValidation.ts:44-70 | the imperative base-rules-then-ordering sequence yields the specified error map |
| ThresholdValidation.ValidIffOrdered | src/utils/stock/thresholdValidation.ts:44-70 | no errors exactly when all four are present and green > cyan > orange > red ≥ 0.01 |
| ThresholdValidation.RedFloorOverrides | src/utils/stock/thresholdValidation.ts:64-67 | when all are numbers and red < 0.01, red's message is the floor message whatever came before |
| ThresholdValidation.NonFiniteReportsBaseOnly | src/utils/stock/thresholdValidation.ts:44-49 | with a value missing, only the base rules speak |
| ThresholdValidation.Edited | src/utils/stock/thresholdValidation.ts:78 | the edit replaces exactly one key |
| ThresholdValidation.ValidateThresholdEdit | src/utils/stock/thresholdValidation.ts:73-79 | validating an edit is validating the edited set |
| ThresholdValidation.EditIgnoresReplacedValue | src/utils/stock/thresholdValidation.ts:73-79 | the outcome does not depend on the value being replaced |
| TickerFilter.KeepIffMatches | src/utils/stock/filter.ts:19-31 | a ticker is kept exactly when market, class and the trimmed lower-cased search all match |
| TickerFilter.ApplyFilters | src/utils/stock/filter.ts:19-32 | only matching tickers are returned, every matching ticker is returned as often as it occurs, and nothing is added |
| TickerFilter.ApplyFiltersSubsequence | src/utils/stock/filter.ts:22 | the result keeps the input order |
| TickerFilter.ApplyFiltersIdempotent | src/utils/stock/filter.ts:19-32 | applying the same filters twice changes nothing more |
| TickerFilter.DefaultFiltersKeepAll | src/utils/stock/filter.ts:12-17 | the default filters keep every ticker |
| Strings.Trim | src/utils/stock/filter.ts:20 | the result neither starts nor ends with white space, is empty exactly when the input is all white space, and is the leading-space strip followed by the trailing-space strip, each pinned by its own contract |
| Strings.TrimDropsOnlyEnds | src/utils/stock/filter.ts:20 | the trimmed string is a contiguous slice of the input with only white space before and after it |
| Strings.ToLower | src/utils/stock/filter.ts:20 | same length, each character lower-cased |
| Strings.Contains | src/utils/stock/filter.ts:28 | true exactly when the needle occurs at some offset |
| Strings.Split | src/utils/stock/chartwallUrl.ts:6 | no piece contains the separator |
| Strings.SplitJoin | src/utils/stock/chartwallUrl.ts:6 | splitting the joined list gives back the list when no element contains the separator |
| Strings.ParseIntToString | src/utils/stock/chartwallUrl.ts:38-44 | reading a printed integer gives back that integer |
| Strings.ParseNumber | src/utils/stock/chartwallUrl.ts:38-43 | `Number` on a parameter, for blank and signed decimal digit strings; ParseIntToString states that it reads back printed integers |
| Chimes.SellSide | src/pages/stock/Dashboard.tsx:178-197 | the green/cyan half of a tick; ChimeConditions and ArmsAfterStep state it |
| Chimes.BuySide | src/pages/stock/Dashboard.tsx:199-218 | the red/orange half of a tick; ChimeConditions and ArmsAfterStep state it |
| Chimes.ChimeStep | src/pages/stock/Dashboard.tsx:176-218 | one tick, sell side then buy side; ChimeConditions, AtMostOneChime and StepIsEdgeDetection state it |
| Chimes.ChimeConditions | src/pages/stock/Dashboard.tsx:179-214 | green plays on an upward cross of an unarmed green; cyan only without green; red and orange likewise downwards |
| Chimes.AtMostOneChime | src/pages/stock/Dashboard.tsx:186-214 | one tick plays at most one chime: a sell chime needs a rise and a buy chime a fall |
| Chimes.ArmsAfterStep | src/pages/stock/Dashboard.tsx:186-218 | a ringing green (red) is armed together with cyan (orange) unless the price is already back past it; every level the price has gone back across is re-armed |
| Chimes.StepIsEdgeDetection | src/pages/stock/Dashboard.tsx:160-219 | flags kept consistent with the last price make the engine play exactly the crossings between the two prices |
| Chimes.TrackEvent | src/pages/stock/Dashboard.tsx:162-224 | every numeric price marks the symbol seen and stores the price; chimes are evaluated only with sound on and a previous price |
| Chimes.Feed | src/pages/stock/Dashboard.tsx:162-224 | after a stream of prices the tracker holds the last one |
| Chimes.SilentWhenSoundOff | src/pages/stock/Dashboard.tsx:170 | with sound off no stream of prices plays a chime |
| Chimes.FirstObservationSilent | src/pages/stock/Dashboard.tsx:167-170 | the first price ever seen for a symbol plays nothing |
| Chimes.FeedIsEdgeDetection | src/pages/stock/Dashboard.tsx:160-224 | with sound on, a stream plays exactly the ideal crossing sequence of its consecutive prices |
| Chimes.FreshFeedIsEdgeDetection | src/pages/stock/Dashboard.tsx:160-224 | from a fresh symbol, the first price is silent and the rest play their crossings |
| Chimes.RingsTwiceOnTwoCrossings | src/pages/stock/Dashboard.tsx:195-197 | the alert re-arms: crossing green, falling back and crossing again rings twice |
| Chimes.RingsOnceOnOneCrossing | src/pages/stock/Dashboard.tsx:179-188 | prices 10, 10, 12 against green 11: a move that stays below the level rings nothing, and the one crossing rings once |
| Chimes.RingsOnceOnReachingLevel | src/pages/stock/Dashboard.tsx:179-180 | prices 10, 11, 11, 12 against green 11: reaching the level rings, and sitting on it or moving on up does not ring again |
| Chimes.CapturedFlagNeverRings | src/pages/stock/Dashboard.tsx:170 | with the flag the handler actually sees, the same two crossings ring nothing |
| DashboardSpec.ToIso | src/pages/stock/Dashboard.tsx:27-28 | an absent or empty timestamp becomes null; any other is kept |
| DashboardSpec.Reconcile | src/pages/stock/Dashboard.tsx:116-123 | the result's derived fields follow its selected broker, an existing selection is kept, a missing one becomes the default broker, and nothing else changes |
| DashboardSpec.ReconcileIdempotent | src/pages/stock/Dashboard.tsx:156-158 | reconciling a reconciled snapshot changes nothing |
| DashboardSpec.Normalize | src/pages/stock/Dashboard.tsx:109-114 | one fetched row with both timestamps passed through `toIso`; LoadTickersLastRows states its use |
| DashboardSpec.PriceMerge | src/pages/stock/Dashboard.tsx:144-153 | the partial merge of a price event; PriceMergeFields states it field by field |
| DashboardSpec.PriceMergeFields | src/pages/stock/Dashboard.tsx:144-153 | each price field takes the event's value when present and keeps the old one otherwise; both timestamps take the event's trade time |
| DashboardSpec.PatchField | src/pages/stock/Dashboard.tsx:247-248 | an undefined patch field keeps the value, a null one clears it, a number sets it |
| DashboardSpec.ApplyPatch | src/pages/stock/Dashboard.tsx:244-249 | both patch fields applied to the previous position; PatchField states each |
| DashboardSpec.TradeUpdate | src/pages/stock/Dashboard.tsx:240-265 | only the patched broker's position changes, keeping the broker order and appending a new broker; every non-derived field is kept; an existing selection is kept and a missing one becomes the default pick for the new positions; the derived fields follow the selection |
| DashboardSpec.SelectBroker | src/pages/stock/Dashboard.tsx:354-358 | the chosen broker becomes the selection and the derived fields follow it |
| DashboardSpec.FindSymbol | src/pages/stock/Dashboard.tsx:141-142 | finds a snapshot with that symbol, and none exactly when no snapshot has it |
| DashboardSpec.SetBySymbol | src/pages/stock/Dashboard.tsx:119-123 | `Map.set`: overwrites the entry for the symbol or appends one, keeping keys unique and every other entry |
| DashboardSpec.FindAfterWrite | src/pages/stock/Dashboard.tsx:227-228 | replacing a snapshot by one with the same symbol keeps every lookup |
| DashboardSpec.FindAfterAppend | src/pages/stock/Dashboard.tsx:119-123 | an appended symbol is found at the end and other lookups are unchanged |
| DashboardSpec.LoadTickers | src/pages/stock/Dashboard.tsx:106-126 | the rows written into a fresh map one by one: no more snapshots than rows; LoadTickersLastRows states the contents |
| DashboardSpec.LoadTickersLastRows | src/pages/stock/Dashboard.tsx:106-126 | the loaded map holds exactly the rows' symbols, each with the normalised, reconciled copy of the last row carrying it |
| DashboardSpec.LoadTickersValid | src/pages/stock/Dashboard.tsx:106-126 | the loaded map has unique symbols, every snapshot is reconciled, and every row's symbol is present |
| DashboardSpec.LoadLastRowWins | src/pages/stock/Dashboard.tsx:119-123 | for every row that no later row shares its symbol with, the map holds that row's data for the symbol |
| DashboardSpec.PriceEvent | src/pages/stock/Dashboard.tsx:139-230 | the price handler as a function of the store; PriceEventUnknownSymbol, PriceEventSnapshot, PriceEventTrackers and PriceEventKeepsValid state it |
| DashboardSpec.PriceEventUnknownSymbol | src/pages/stock/Dashboard.tsx:141-142 | an event for a symbol not in the map changes nothing and plays nothing |
| DashboardSpec.PriceEventSnapshot | src/pages/stock/Dashboard.tsx:144-158 | only the event's snapshot changes: merged, reconciled, with an existing selection kept |
| DashboardSpec.PriceEventTrackers | src/pages/stock/Dashboard.tsx:160-224 | the event's side tables advance by one tracked event when the merged price is numeric and stay put otherwise; other symbols' tables never change |
| DashboardSpec.TradeEvent | src/pages/stock/Dashboard.tsx:233-270 | an unknown symbol leaves the map; a known one gets the trade update and nothing else changes |
| DashboardSpec.SelectEvent | src/pages/stock/Dashboard.tsx:348-363 | an unknown symbol leaves the map; a known one gets the selected broker and nothing else changes |
| DashboardSpec.WriteKeepsValid | src/pages/stock/Dashboard.tsx:227-229 | writing a reconciled snapshot over one with the same symbol keeps the map valid |
| DashboardSpec.PriceEventKeepsValid | src/pages/stock/Dashboard.tsx:139-230 | a price event keeps symbols unique and every snapshot reconciled |
| DashboardSpec.TradeKeepsValid | src/pages/stock/Dashboard.tsx:233-270 | a trade event keeps symbols unique and every snapshot reconciled |
| DashboardSpec.SelectKeepsValid | src/pages/stock/Dashboard.tsx:348-363 | a broker-selection event keeps symbols unique and every snapshot reconciled |
| DashboardSpec.FindId | src/pages/stock/Dashboard.tsx:384-390 | the first snapshot with that id, or none when there is no such snapshot |
| DashboardSpec.SetThresholdById | src/pages/stock/Dashboard.tsx:380-393 | only the first snapshot with that id changes, and only in that key |
| DashboardSpec.SetThresholdKeepsValid | src/pages/stock/Dashboard.tsx:380-393 | a threshold edit keeps the map valid |
| DashboardSpec.RollbackRestores | src/pages/stock/Dashboard.tsx:400-411 | writing a value and then writing back the previous one restores the map exactly |
| DashboardSpec.RollbackTouchesOnlyTheKey | src/pages/stock/Dashboard.tsx:400-411 | the rollback changes nothing but the edited key of the first snapshot with that id |
| DashboardSpec.FiltersChange | src/pages/stock/Dashboard.tsx:323-331 | a market or class change clears the symbol selection; otherwise the new filters are taken as they are |
| DashboardSpec.ToggleSilenced | src/pages/stock/Dashboard.tsx:283-285 | flips silence for that ticker only |
| DashboardSpec.ToggleTwice | src/pages/stock/Dashboard.tsx:283-285 | toggling twice restores every ticker's silence |
| DashboardSpec.VisibleTickers | src/pages/stock/Dashboard.tsx:276-281 | the visible list is a sorted permutation of the filtered tickers |
| DashboardSpec.FavorableTickers | src/pages/stock/Dashboard.tsx:314-321 | exactly min(20, number of favorable tickers) entries: the first ones of the favorable tickers sorted in favorability order; all of them when there are at most 20 |
| DashboardSpec.FavorablePool | src/pages/stock/Dashboard.tsx:315-316 | the favorable tickers of the list, each as often as it occurs, and no other |
| Dashboard.TickerStore.constructor | src/pages/stock/Dashboard.tsx:40-58 | the store starts empty, silent and valid |
| Dashboard.TickerStore.Load | src/pages/stock/Dashboard.tsx:99-132 | the map becomes the loaded rows and stays valid; the side tables, sound flag and chimes are untouched |
| Dashboard.LoadMap | src/pages/stock/Dashboard.tsx:107-124 | the loop writing the fetched rows into a fresh map yields the specified loaded map |
| Dashboard.ReconcileRow | src/pages/stock/Dashboard.tsx:116-123 | the kept or default-picked broker becomes the selection and the derived fields follow it |
| Dashboard.TickerStore.ApplyPrice | src/pages/stock/Dashboard.tsx:139-230 | the new state and the chimes played are those of the price event; validity is kept |
| Dashboard.TickerStore.Track | src/pages/stock/Dashboard.tsx:160-224 | the crossing rule runs only with sound on and a previous price from an earlier event, its chimes go to the log, and the symbol is then marked seen at the new price |
| Dashboard.TickerStore.RingSell | src/pages/stock/Dashboard.tsx:178-197 | plays and re-arms the sell side as specified, touching nothing else |
| Dashboard.TickerStore.RingBuy | src/pages/stock/Dashboard.tsx:199-218 | plays and re-arms the buy side as specified, touching nothing else |
| Dashboard.TickerStore.OnPriceUpdateAsWritten | src/pages/stock/Dashboard.tsx:135-274 | the handler as subscribed updates the state but never plays a chime |
| Dashboard.TickerStore.OnPriceUpdate | src/pages/stock/Dashboard.tsx:139-230 | the handler with the current sound flag plays the price event's chimes |
| Dashboard.TickerStore.OnTrade | src/pages/stock/Dashboard.tsx:233-270 | the map becomes the trade event's and everything else stays |
| Dashboard.TickerStore.OnSelectBroker | src/pages/stock/Dashboard.tsx:348-363 | the map becomes the selection event's and everything else stays |
| Dashboard.TickerStore.ToggleSound | src/pages/stock/Dashboard.tsx:297-312 | on turns off silently; off turns on with a cyan chime only when the unlock succeeds |
| Dashboard.TickerStore.ApplyOptimistic | src/pages/stock/Dashboard.tsx:376-393 | returns the replaced value and writes the new one into the first snapshot with that id |
| Dashboard.TickerStore.Rollback | src/pages/stock/Dashboard.tsx:400-411 | writes the remembered value back into the first snapshot with that id |
| Dashboard.SaveFailsRightAway | src/pages/stock/Dashboard.tsx:376-416 | a failed save straight after the optimistic write leaves the map, the price refs, the arms, the sound flag and the chime log as they were |
| TradePreview.CalcPreview | src/pages/stock/Trade.tsx:40-64 | a non-positive quantity or rate changes nothing; a buy adds the quantity and makes the new average the weighted mean; a sell clamps the quantity at zero, books (rate − avg)·qty and resets the average only when nothing remains |
| TradePreview.BuyAverageBetween | src/pages/stock/Trade.tsx:53-56 | buying into a non-negative holding puts the new average between the old average and the rate |
| TradePreview.AcceptedTradePreview | src/pages/stock/Trade.tsx:140-146 | a trade the form accepts is never a no-op preview, and an accepted sell is never clamped |
| TradePreview.RefusedTrades | src/pages/stock/Trade.tsx:140-146 | a missing ticker, a non-positive rate or quantity, or a sell above the holding is refused |
| TradePreview.CanSubmit | src/pages/stock/Trade.tsx:140-146 | the submit guard; its behaviour is stated by AcceptedTradePreview and RefusedTrades |
| ChartWallTabs.Chunks | src/pages/stock/ChartWall.tsx:20-25 | the chunking as a function; ChunksConcat and ChunksSizes state it |
| ChartWallTabs.Chunk | src/pages/stock/ChartWall.tsx:20-25 | the loop produces the specified chunking; a non-positive size gives one chunk holding everything |
| ChartWallTabs.ChunksConcat | src/pages/stock/ChartWall.tsx:20-25 | concatenating the chunks gives back the input |
| ChartWallTabs.ChunksSizes | src/pages/stock/ChartWall.tsx:20-25 | no chunks exactly for no symbols; every chunk but the last is full, and every chunk is non-empty and at most the size |
| ChartWallTabs.VisibleTabFits | src/pages/stock/ChartWall.tsx:248-249 | the visible tab has at most perTab symbols, all of them selected |
| ChartWallTabs.Clamp | src/pages/stock/ChartWall.tsx:27-29 | the result lies in the range, equals the input inside it, and is the nearer bound outside it |
| ChartWallTabs.ActiveTab | src/pages/stock/ChartWall.tsx:252-258 | 0 with no tabs; otherwise the tab clamped into range: an index in range is kept, any index at or past the end becomes the last tab, a negative one the first |
| ChartWallTabs.JsRemainder | src/pages/stock/ChartWall.tsx:267 | the remainder has the sign of the dividend, is smaller than the divisor in magnitude, and completes the truncated quotient: dividend = divisor × trunc(dividend / divisor) + remainder |
| ChartWallTabs.Rotate | src/pages/stock/ChartWall.tsx:261-271 | one rotation step moves to the next tab and wraps from the last to the first |
| ChartWallTabs.AfterRotationPeriod | src/pages/stock/ChartWall.tsx:261-271 | when rotation is off, the period is not positive or there is at most one tab, no interval runs and the tab stays; otherwise one period advances a tab in range to the next, wrapping from the last to the first |
| ChartWallTabs.RotationCycles | src/pages/stock/ChartWall.tsx:261-271 | k steps from tab t land on t + k, wrapped once |
| ChartWallTabs.FullRotationReturns | src/pages/stock/ChartWall.tsx:261-271 | as many steps as there are tabs return to the starting tab |
| ChartWall.LivePrice | src/pages/stock/ChartWall.tsx:154-155 | the last price, else the bid, else the ask; none only when all three are missing |
| ChartWall.Add | src/pages/stock/ChartWall.tsx:171-177 | the symbol's set gains the callback at the end (or is unchanged when it already holds it), other symbols are untouched, and sets stay non-empty and duplicate-free |
| ChartWall.Without | src/pages/stock/ChartWall.tsx:185 | `Set.delete`: exactly the callback is removed, the rest keep their insertion order, and duplicates never appear |
| ChartWall.Remove | src/pages/stock/ChartWall.tsx:182-187 | the callback is removed, an emptied set is dropped, other symbols are untouched, and the registry stays well formed |
| ChartWall.SubscribeUnsubscribe | src/pages/stock/ChartWall.tsx:171-188 | unsubscribing a new subscription restores the registry exactly |
| ChartWall.MissingSymbols | src/pages/stock/ChartWall.tsx:286-288 | exactly the requested symbols neither cached nor in flight, in request order |
| ChartWall.StoreSeriesCaches | src/pages/stock/ChartWall.tsx:299-300 | every returned symbol is cached with its last row's data and nothing else changes |
| ChartWall.ChartWallStore.constructor | src/pages/stock/ChartWall.tsx:41-70 | the series, latest-price and subscriber maps, the in-flight set, the two day refs and the displayed loaded day and time zone all start empty |
| ChartWall.ChartWallStore.OnPriceUpdate | src/pages/stock/ChartWall.tsx:153-162 | without a price nothing happens; otherwise the latest entry is stored and every subscriber of the symbol receives it |
| ChartWall.ChartWallStore.SubscribeLatest | src/pages/stock/ChartWall.tsx:171-181 | the callback is registered and immediately receives the stored latest entry, if any |
| ChartWall.ChartWallStore.UnsubscribeLatest | src/pages/stock/ChartWall.tsx:182-187 | the callback is unregistered and an emptied set is dropped |
| ChartWall.ChartWallStore.SubscribeSeries | src/pages/stock/ChartWall.tsx:190-196 | the callback is registered for series notices |
| ChartWall.ChartWallStore.UnsubscribeSeries | src/pages/stock/ChartWall.tsx:197-202 | the callback is unregistered and an emptied set is dropped |
| ChartWall.ChartWallStore.BeginFetch | src/pages/stock/ChartWall.tsx:286-291 | returns the missing symbols and marks exactly them in flight |
| ChartWall.ChartWallStore.Receive | src/pages/stock/ChartWall.tsx:296-304 | records the day and time zone, caches each returned series and notifies that symbol's series subscribers |
| ChartWall.ChartWallStore.ClearMarks | src/pages/stock/ChartWall.tsx:305-307 | the requested symbols are no longer in flight |
| ChartWall.ChartWallStore.Settle | src/pages/stock/ChartWall.tsx:293-307 | on success the response is stored and notified, on failure nothing is; either way the in-flight marks are cleared |
| ChartWall.ChartWallStore.FetchMissing | src/pages/stock/ChartWall.tsx:284-310 | requests exactly the symbols neither cached nor in flight, and leaves the in-flight set as it found it |
| ChartWall.ChartWallStore.ClearOnMarketChange | src/pages/stock/ChartWall.tsx:273-281 | after hydration the series cache, the in-flight set and the two day refs are cleared while the displayed loaded day and time zone keep the previous market's values; before hydration nothing changes |
| ChartWall.OverlappingFetches | src/pages/stock/ChartWall.tsx:284-291 | a second fetch started while the first is in flight never requests a symbol the first requested |
| ChartWall.KeptTickers | src/pages/stock/ChartWall.tsx:214-219 | the tickers in the market, class and buckets, in list order, each as often as it occurs |
| ChartWall.FilteredTickers | src/pages/stock/ChartWall.tsx:213-221 | one option per kept ticker, in the kept order; the options are exactly the tickers of the market, class and buckets |
| ChartWall.Prune | src/pages/stock/ChartWall.tsx:223-235 | skipped before hydration, while loading, with no tickers or no options; otherwise keeps exactly the selected symbols the dropdown offers, each as often as it was selected, in order |
| ChartWall.PruneIdempotent | src/pages/stock/ChartWall.tsx:223-235 | pruning twice with the same options prunes nothing more |
| ChartWallUrl.ParseCsv | src/utils/stock/chartwallUrl.ts:4-7 | a missing or empty parameter gives no entries; otherwise the result is the comma-split parts, each trimmed, with the empty ones dropped, in order; every entry is non-empty, trimmed and comma-free |
| ChartWallUrl.EmptySplitDropped | src/utils/stock/chartwallUrl.ts:4-7 | the empty string splits into one empty part, which the filter drops, so the split-trim-filter reading also gives no entries |
| ChartWallUrl.TrimIdempotent | src/utils/stock/chartwallUrl.ts:6 | trimming an entry again changes nothing |
| ChartWallUrl.ParseCsvJoin | src/utils/stock/chartwallUrl.ts:4-7 | parsing the comma-joined list of valid entries gives back the list |
| ChartWallUrl.ParseMarket | src/utils/stock/chartwallUrl.ts:19-23 | a market is read exactly from its own name |
| ChartWallUrl.ParseStockClass | src/utils/stock/chartwallUrl.ts:25-29 | a class is read exactly from its own name |
| ChartWallUrl.ParseBucket | src/utils/stock/chartwallUrl.ts:32-34 | a bucket is read exactly from its own name |
| ChartWallUrl.ValidBucketsMembers | src/utils/stock/chartwallUrl.ts:32-34 | the kept buckets are exactly those whose names occur among the entries |
| ChartWallUrl.ValidBucketsNames | src/utils/stock/chartwallUrl.ts:32-34 | the kept buckets name exactly the entries that are bucket names, in their order and with their repeats |
| ChartWallUrl.AsPerTab | src/utils/stock/chartwallUrl.ts:9-11 | accepts exactly 1, 2, 4, 6 and 9 |
| ChartWallUrl.AsRotate | src/utils/stock/chartwallUrl.ts:12-14 | accepts exactly 10, 20, 30, 40 and 50 |
| ChartWallUrl.ReadMarket | src/utils/stock/chartwallUrl.ts:19-23 | a valid market name is taken, anything else falls back to the default |
| ChartWallUrl.ReadStockClass | src/utils/stock/chartwallUrl.ts:25-29 | a valid class name is taken, anything else falls back to the default |
| ChartWallUrl.ReadBuckets | src/utils/stock/chartwallUrl.ts:31-35 | when some entry names a bucket, the result is exactly the bucket-naming entries in their order; otherwise it is the default |
| ChartWallUrl.ReadPerTab | src/utils/stock/chartwallUrl.ts:38 | a valid tab size is taken, and any other value (NaN, a non-listed number, a missing parameter) gives exactly the default |
| ChartWallUrl.ReadRotate | src/utils/stock/chartwallUrl.ts:40 | a valid interval is taken, and any other value gives exactly the default |
| ChartWallUrl.ReadRotateOn | src/utils/stock/chartwallUrl.ts:41 | on when the parameter is "1" or the default is on |
| ChartWallUrl.ReadTab | src/utils/stock/chartwallUrl.ts:43-44 | an absent tab reads as 0 (`Number(null)`); a non-negative number is taken; NaN or a negative number falls back to the default |
| ChartWallUrl.ReadQuery | src/utils/stock/chartwallUrl.ts:16-56 | every field read on its own with its own fallback; ReadBuildRoundTrip states the round trip |
| ChartWallUrl.BuildQuery | src/utils/stock/chartwallUrl.ts:58-69 | every setting is written, symbols only when there are some, and rotateOn as "1" exactly when on |
| ChartWallUrl.BucketNamesValid | src/utils/stock/chartwallUrl.ts:31-35 | reading back written bucket names gives the buckets |
| ChartWallUrl.BucketsRoundTrip | src/utils/stock/chartwallUrl.ts:31-35 | a written non-empty bucket list is read back unchanged |
| ChartWallUrl.NumbersRoundTrip | src/utils/stock/chartwallUrl.ts:38-44 | written tab size, interval, rotation flag and tab read back unchanged |
| ChartWallUrl.ListsRoundTrip | src/utils/stock/chartwallUrl.ts:31-37 | written buckets and symbols read back unchanged |
| ChartWallUrl.ReadBuildRoundTrip | src/utils/stock/chartwallUrl.ts:16-69 | reading the query built from a state gives back that state |
| ChartGrid.GridSpec | src/components/stock/chartwall/ChartGrid.tsx:12-18 | for a valid tab size rows × cols equals the size with rows ≤ cols ≤ rows + 1, which fixes 1×1, 1×2, 2×2, 2×3 and 3×3; anything else is 3×3 |
| ChartGrid.Tiles | src/components/stock/chartwall/ChartGrid.tsx:31 | one tile per symbol, in order |
| ChartGrid.ActiveTabFitsGrid | src/components/stock/chartwall/ChartGrid.tsx:12-31 | the active tab's tiles always fit its grid |
| TimeAgo.ElapsedSeconds | src/components/stock/shared/TimeAgo.tsx:4-5 | whole seconds elapsed, floored, and 0 for a future or sub-second time |
| TimeAgo.UnitOf | src/components/stock/shared/TimeAgo.tsx:6-13 | just now below 10 s, seconds below 1 min, minutes below 1 h, hours below 1 day, days after that |
| TimeAgo.FormatTimeAgo | src/components/stock/shared/TimeAgo.tsx:3-14 | the label is "just now" or the floored count of the unit with its suffix |
| TimeAgo.FutureIsJustNow | src/components/stock/shared/TimeAgo.tsx:4-6 | a future timestamp reads "just now" |
| TimeAgo.UnitMonotone | src/components/stock/shared/TimeAgo.tsx:3-14 | as time passes a label only moves to the same or a coarser unit |
| EmailValidation.IndexOf | src/utils/common/validation.ts:2 | the first occurrence, or none exactly when absent |
| EmailValidation.ValidateEmail | src/utils/common/validation.ts:1-3 | the e-mail check; ValidateEmailIsPattern states that it accepts exactly the pattern |
| EmailValidation.ValidateEmailIsPattern | src/utils/common/validation.ts:1-3 | the check accepts exactly the strings of the form run@run.run over non-space, non-@ characters |
| EmailValidation.AcceptedShape | src/utils/common/validation.ts:2 | an accepted address has no white space and exactly one '@', not at the start |
| EmailValidation.AcceptsExample | src/utils/common/validation.ts:2 | "a@b.c" is accepted |
| EmailValidation.RejectsNoDot | src/utils/common/validation.ts:2 | "a@b" is refused: the domain has no dot |
| EmailValidation.RejectsLeadingDot | src/utils/common/validation.ts:2 | "a@.c" is refused: nothing between '@' and the dot |
| EmailValidation.RejectsTrailingDot | src/utils/common/validation.ts:2 | "a@b." is refused: nothing after the dot |
| EmailValidation.RejectsSpace | src/utils/common/validation.ts:2 | "a b@c.d" is refused: white space in the user part |

## Left out

- The WebSocket and REST transports are left out. Events and server answers are parameters of the handlers. A fetch that fails is a `None` response.
- Audio is left out. `playChime` appends to the ghost `chimeLog`, and the outcome of the audio unlock is the `unlocked` parameter of `ToggleSound`.
- The effects' `cancelled`/`alive` flags are left out, and so is React's scheduling of state updates and effects. Each handler is modelled as one atomic update.
- Another fetch, or a market change, landing between `BeginFetch` and `Settle` is not modelled. `FetchMissing` runs both halves back to back. `OverlappingFetches` covers only two fetches started before either settles.
- The chart wall's delayed hydration (`setTimeout`) and its 250 ms lazy fetch of the other tabs are left out.
- A callback that subscribes or unsubscribes while a fan-out is running is not modelled. Callbacks are identities, and what they do is not modelled.
- The load effect leaves the chime side tables (last price, seen, arm flags) as they are. A change of market or class does not reset them. The model follows the code here, not the intent of resetting per reload.
- ToIso: date parsing and ISO reformatting are not modelled. An empty or missing timestamp becomes null and any other string is kept as it is. An unparsable date makes `toISOString` throw a RangeError, which abandons the whole load (the previous map stays) or the price update; the model has no such failure.
- Timestamps are integer milliseconds. `Date.now()` is the `now` parameter of `FormatTimeAgo`.
- Non-finite numbers (NaN, ±Infinity) are not modelled. The `num`/`isValidNumber` guards become "is a present `Option`".
- `Number()` on the `tab`, `perTab` and `rotate` parameters is modelled for blank strings and decimal digit strings with an optional sign only. Every other string reads as NaN, including strings `Number()` reads as integers ("2.0", "1e1", "0x10"), so such a parameter falls back to the default in the model.
- Percent-encoding and the order of query parameters are not modelled. The query is a map from name to value.
- `toLowerCase` folds ASCII letters only.
- `localeCompare` uses code-point order, not the locale's collation.
- `applyFilters` is called in the page with the dashboard's own ticker records. `VisibleTickers` takes the filter's verdict as a predicate instead of re-deriving it from a second record type.
- A snapshot without `positionsByBroker` is treated as one with no positions.
- The red-floor message is the constant text that `toFixed(2)` produces for 0.01, not a formatted number.
- Rounding and display formatting (`toFixed`, currency formatting) are left out.
- The `selectedTickers` memo (`ChartWall.tsx` lines 238-241) and `formatLoadedDay` are not part of this model.
- Persisting silences to `localStorage` is left out.
- The zoom, quick-trade dialog state and ticker options (`useTickerOptions`) are left out.
- The chart rendering (uPlot) is left out.
- The ThresholdMini editor that calls `validateThresholdEdit` is not part of this model.
- `Trade.tsx` beyond `calcPreview` and `canSubmit` is not part of this model: its loading, form state and submission.

## Findings

| source | as written | input that shows it | evidently intended | confidence | as-written member | corrected member |
|---|---|---|---|---|---|---|
| src/pages/stock/Dashboard.tsx:170 | the price handler tests `soundEnabled`, but it is created by an effect with an empty dependency list (line 274). It therefore keeps the value of the first render, `false`, and no threshold chime ever plays. | sound turned on, then prices 9, 12, 9, 12 against a green level of 11 | with sound on, the crossings ring: green twice | not executed | Dashboard.TickerStore.OnPriceUpdateAsWritten (with Chimes.CapturedFlagNeverRings) | Dashboard.TickerStore.OnPriceUpdate (with Chimes.RingsTwiceOnTwoCrossings) |

=== FILE: chart_grid.dfy ===
/** The chart wall grid: the rows × columns layout for a tab size, one tile per symbol. */
module ChartGrid {
  import opened ChartWallTabs
  import opened ChartWallUrl

  datatype Grid = Grid(rows: nat, cols: nat)

  /** `gridSpec`: 1 → 1×1, 2 → 1×2, 4 → 2×2, 6 → 2×3, anything else 3×3. */
  function GridSpec(perTab: int): (g: Grid)
    ensures ValidPerTab(perTab) ==> g.rows * g.cols == perTab
    ensures 1 <= g.rows <= g.cols && g.cols - g.rows <= 1
    ensures perTab != 1 && perTab != 2 && perTab != 4 && perTab != 6 ==> g == Grid(3, 3)
  {
    if perTab == 1 then Grid(1, 1)
    else if perTab == 2 then Grid(1, 2)
    else if perTab == 4 then Grid(2, 2)
    else if perTab == 6 then Grid(2, 3)
    else Grid(3, 3)
  }

  /** A chart tile, keyed by its symbol. */
  datatype Tile = Tile(symbol: string)

  /** The tiles of a tab: one per symbol, in the given order. */
  function Tiles(symbols: seq<string>): (r: seq<Tile>)
    ensures |r| == |symbols|
    ensures forall i :: 0 <= i < |r| ==> r[i].symbol == symbols[i]
  {
    if symbols == [] then [] else [Tile(symbols[0])] + Tiles(symbols[1..])
  }

  /** The tiles of the active tab always fit the grid of its tab size. */
  lemma ActiveTabFitsGrid(selected: seq<string>, perTab: int, activeTab: int)
    requires ValidPerTab(perTab)
    ensures var g := GridSpec(perTab);
      |Tiles(VisibleSymbols(Chunks(selected, perTab), activeTab))| <= g.rows * g.cols
  {
    VisibleTabFits(selected, perTab, activeTab);
  }
}

=== FILE: chartwall.dfy ===
/**
 * The chart wall page's live state: the latest price of every symbol and the
 * chart tiles subscribed to it, the cached intraday series with their own
 * subscribers and the symbols whose series are being fetched; plus the ticker
 * dropdown's filtering and the pruning of selections the filters exclude.
 */
module ChartWall {
  import opened Wrappers
  import opened TickerTypes
  import opened Sequences

  /** The identity of a subscriber callback (JavaScript compares functions by identity). */
  type CallbackId = nat

  /** `Latest`: the last live price of a symbol and its trade time. */
  datatype Latest = Latest(price: real, time: Option<string>)

  /** One callback invocation: a price to a price subscriber, or a "series ready" notice. */
  datatype Delivery =
    | PriceTo(cb: CallbackId, payload: Latest)
    | SeriesTo(cb: CallbackId, symbol: string)

  datatype Series = Series(t: seq<int>, v: seq<real>)

  datatype SeriesRow = SeriesRow(symbol: string, t: seq<int>, v: seq<real>)

  /** `ChartSeriesResponse`. */
  datatype SeriesResponse = SeriesResponse(day: string, timezone: string, intervalSec: int, series: seq<SeriesRow>)

  /** The price a live update carries: `last ?? bid ?? ask`. */
  function LivePrice(u: PriceUpdate): (r: Option<real>)
    ensures r.Some? <==> u.last.Some? || u.bid.Some? || u.ask.Some?
    ensures u.last.Some? ==> r == u.last
    ensures u.last.None? && u.bid.Some? ==> r == u.bid
    ensures u.last.None? && u.bid.None? ==> r == u.ask
  {
    u.last.OrElse(u.bid).OrElse(u.ask)
  }

  // ---------------------------------------------------------------------
  // Subscriber registries: `Map<symbol, Set<callback>>`
  // ---------------------------------------------------------------------

  /** A set of callbacks is a duplicate-free list in insertion (iteration) order. */
  type Registry = map<string, seq<CallbackId>>

  predicate Distinct(xs: seq<CallbackId>)
  {
    forall i, j :: 0 <= i < j < |xs| ==> xs[i] != xs[j]
  }

  /** No symbol keeps an empty set and no set holds a callback twice. */
  predicate WellFormed(reg: Registry)
  {
    forall s :: s in reg ==> reg[s] != [] && Distinct(reg[s])
  }

  /** The callbacks of a symbol, none when it has no entry. */
  function Subscribers(reg: Registry, sym: string): seq<CallbackId>
  {
    if sym in reg then reg[sym] else []
  }

  /** Subscribing: `set.add(cb)` on the symbol's set, created when missing. */
  function Add(reg: Registry, sym: string, cb: CallbackId): (r: Registry)
    ensures sym in r
    ensures forall c :: c in r[sym] <==> c in Subscribers(reg, sym) || c == cb
    ensures r[sym] == if cb in Subscribers(reg, sym) then Subscribers(reg, sym) else Subscribers(reg, sym) + [cb]
    ensures forall s :: s != sym ==> (s in r <==> s in reg) && (s in reg ==> r[s] == reg[s])
    ensures WellFormed(reg) ==> WellFormed(r)
  {
    var cur := Subscribers(reg, sym);
    reg[sym := if cb in cur then cur else cur + [cb]]
  }

  /** `set.delete(cb)`: the remaining callbacks keep their insertion order. */
  function Without(xs: seq<CallbackId>, cb: CallbackId): (r: seq<CallbackId>)
    ensures forall c :: c in r <==> c in xs && c != cb
    ensures Distinct(xs) ==> Distinct(r)
    ensures IsSubsequence(r, xs)
  {
    if xs == [] then []
    else if xs[0] == cb then
      var rest := Without(xs[1..], cb);
      assert rest != [] ==> IsSubsequence(rest, xs);
      rest
    else
      var rest := Without(xs[1..], cb);
      assert [xs[0]] + xs[1..] == xs;
      DistinctCons(xs[0], xs[1..]);
      DistinctCons(xs[0], rest);
      [xs[0]] + rest
  }

  /** A list with a head is duplicate-free when its tail is and does not hold the head. */
  lemma DistinctCons(x: CallbackId, xs: seq<CallbackId>)
    ensures Distinct([x] + xs) <==> x !in xs && Distinct(xs)
  {
    var ys := [x] + xs;
    if x !in xs && Distinct(xs) {
      forall i, j | 0 <= i < j < |ys|
        ensures ys[i] != ys[j]
      {
        if i > 0 {
          assert ys[i] == xs[i - 1] && ys[j] == xs[j - 1];
        } else {
          assert ys[j] == xs[j - 1];
        }
      }
    }
    if Distinct(ys) {
      forall i, j | 0 <= i < j < |xs|
        ensures xs[i] != xs[j]
      {
        assert ys[i + 1] == xs[i] && ys[j + 1] == xs[j];
      }
      forall k | 0 <= k < |xs|
        ensures xs[k] != x
      {
        assert ys[k + 1] == xs[k] && ys[0] == x;
      }
    }
  }

  /** Unsubscribing: the callback leaves the set, and a set left empty leaves the map. */
  function Remove(reg: Registry, sym: string, cb: CallbackId): (r: Registry)
    ensures sym in r ==> sym in reg && forall c :: c in r[sym] <==> c in reg[sym] && c != cb
    ensures sym in reg && (exists c :: c in reg[sym] && c != cb) ==> sym in r
    ensures sym in reg && (forall c :: c in reg[sym] ==> c == cb) ==> sym !in r
    ensures forall s :: s != sym ==> (s in r <==> s in reg) && (s in reg ==> r[s] == reg[s])
    ensures WellFormed(reg) ==> WellFormed(r)
  {
    if sym !in reg then reg
    else
      var rest := Without(reg[sym], cb);
      assert rest != [] ==> rest[0] in rest;
      if rest == [] then reg - {sym} else reg[sym := rest]
  }

  lemma {:induction false} WithoutAppended(xs: seq<CallbackId>, cb: CallbackId)
    requires cb !in xs
    ensures Without(xs + [cb], cb) == xs
  {
    if xs == [] {
      assert [cb][1..] == [];
    } else {
      WithoutAppended(xs[1..], cb);
      assert (xs + [cb])[1..] == xs[1..] + [cb];
      assert [xs[0]] + xs[1..] == xs;
    }
  }

  /** Calling the unsubscribe closure of a new subscription gives back the registry. */
  lemma SubscribeUnsubscribe(reg: Registry, sym: string, cb: CallbackId)
    requires WellFormed(reg) && cb !in Subscribers(reg, sym)
    ensures Remove(Add(reg, sym, cb), sym, cb) == reg
  {
    var cur := Subscribers(reg, sym);
    WithoutAppended(cur, cb);
    if sym in reg {
      assert reg[sym := cur] == reg;
    } else {
      assert reg[sym := [cb]] - {sym} == reg;
    }
  }

  /** Each callback of `cbs`, in order, called with `p`. */
  function PriceFanout(cbs: seq<CallbackId>, p: Latest): seq<Delivery>
  {
    seq(|cbs|, i requires 0 <= i < |cbs| => PriceTo(cbs[i], p))
  }

  function SeriesFanout(cbs: seq<CallbackId>, sym: string): seq<Delivery>
  {
    seq(|cbs|, i requires 0 <= i < |cbs| => SeriesTo(cbs[i], sym))
  }

  // ---------------------------------------------------------------------
  // Series cache
  // ---------------------------------------------------------------------

  function Elems(xs: seq<string>): set<string>
  {
    set x | x in xs
  }

  /** The symbols `fetchMissing` requests: neither cached nor in flight, in the given order. */
  function MissingSymbols(symbols: seq<string>, cached: set<string>, inFlight: set<string>): (r: seq<string>)
    ensures forall s :: s in r <==> s in symbols && s !in cached && s !in inFlight
    ensures IsSubsequence(r, symbols)
  {
    FilterIsSubsequence(symbols, s => s !in cached && s !in inFlight);
    Filter(symbols, s => s !in cached && s !in inFlight)
  }

  /** The cache after storing every row of a response in order. */
  function StoreSeries(m: map<string, Series>, rows: seq<SeriesRow>): map<string, Series>
  {
    if rows == [] then m
    else
      var last := rows[|rows| - 1];
      StoreSeries(m, rows[..|rows| - 1])[last.symbol := Series(last.t, last.v)]
  }

  /**
   * Storing a response caches every row's symbol, the last row winning, and
   * leaves the entries of other symbols as they were.
   */
  lemma {:induction false} StoreSeriesCaches(m: map<string, Series>, rows: seq<SeriesRow>)
    ensures var r := StoreSeries(m, rows);
      (forall s :: s in r <==> s in m || exists i :: 0 <= i < |rows| && rows[i].symbol == s) &&
      (forall s :: s in m && (forall i :: 0 <= i < |rows| ==> rows[i].symbol != s) ==> r[s] == m[s]) &&
      (|rows| > 0 ==> r[rows[|rows| - 1].symbol] == Series(rows[|rows| - 1].t, rows[|rows| - 1].v))
  {
    if rows != [] {
      var init := rows[..|rows| - 1];
      StoreSeriesCaches(m, init);
      assert forall i :: 0 <= i < |init| ==> init[i] == rows[i];
    }
  }

  /** The "series ready" notices a response triggers, row by row. */
  function Notices(reg: Registry, rows: seq<SeriesRow>): seq<Delivery>
  {
    if rows == [] then []
    else
      var last := rows[|rows| - 1];
      Notices(reg, rows[..|rows| - 1]) + SeriesFanout(Subscribers(reg, last.symbol), last.symbol)
  }

  /**
   * The page's refs (`latestRef`, `subsRef`, `seriesSubsRef`, `seriesRef`,
   * `inFlightRef`, `loadedDayRef`, `loadedTzRef`) and its `loadedDay` /
   * `loadedTz` state. The two day refs are written on a market change and
   * read nowhere; the displayed day is the state, set by each response.
   */
  class ChartWallStore {
    var latest: map<string, Latest>
    var subs: Registry
    var seriesSubs: Registry
    var series: map<string, Series>
    var inFlight: set<string>
    var loadedDay: string
    var loadedTz: string
    var dayRef: string
    var tzRef: string
    /** Every callback invocation, in order. */
    ghost var deliveries: seq<Delivery>

    ghost predicate Valid()
      reads this
    {
      WellFormed(subs) && WellFormed(seriesSubs)
    }

    constructor()
      ensures Valid()
      ensures latest == map[] && subs == map[] && seriesSubs == map[] && series == map[] && inFlight == {}
      ensures loadedDay == "" && loadedTz == "" && dayRef == "" && tzRef == "" && deliveries == []
    {
      latest := map[];
      subs := map[];
      seriesSubs := map[];
      series := map[];
      inFlight := {};
      loadedDay := "";
      loadedTz := "";
      dayRef := "";
      tzRef := "";
      deliveries := [];
    }

    /** The live price handler: store the latest price and call the symbol's subscribers. */
    method OnPriceUpdate(u: PriceUpdate)
      modifies this
      ensures subs == old(subs) && seriesSubs == old(seriesSubs) && series == old(series)
      ensures inFlight == old(inFlight) && loadedDay == old(loadedDay) && loadedTz == old(loadedTz)
      ensures dayRef == old(dayRef) && tzRef == old(tzRef)
      ensures LivePrice(u).None? ==> latest == old(latest) && deliveries == old(deliveries)
      ensures LivePrice(u).Some? ==>
        var payload := Latest(LivePrice(u).value, u.tradeDatetime);
        latest == old(latest)[u.symbol := payload] &&
        deliveries == old(deliveries) + PriceFanout(Subscribers(old(subs), u.symbol), payload)
    {
      var price := LivePrice(u);
      if price.None? {
        return;
      }
      var payload := Latest(price.value, u.tradeDatetime);
      latest := latest[u.symbol := payload];
      if u.symbol in subs {
        var cbs := subs[u.symbol];
        ghost var log := deliveries;
        for i := 0 to |cbs|
          invariant log == old(deliveries) + PriceFanout(cbs[..i], payload)
        {
          assert PriceFanout(cbs[..i + 1], payload) == PriceFanout(cbs[..i], payload) + [PriceTo(cbs[i], payload)];
          log := log + [PriceTo(cbs[i], payload)];
        }
        assert cbs[..|cbs|] == cbs;
        deliveries := log;
      }
    }

    /** `subscribeLatest`: register the callback and hand it the stored latest price at once. */
    method SubscribeLatest(sym: string, cb: CallbackId)
      requires Valid()
      modifies this
      ensures Valid()
      ensures subs == Add(old(subs), sym, cb)
      ensures deliveries == old(deliveries) + (if sym in latest then [PriceTo(cb, latest[sym])] else [])
      ensures latest == old(latest) && seriesSubs == old(seriesSubs) && series == old(series)
      ensures inFlight == old(inFlight) && loadedDay == old(loadedDay) && loadedTz == old(loadedTz)
      ensures dayRef == old(dayRef) && tzRef == old(tzRef)
    {
      var cbs: seq<CallbackId> := [];
      if sym in subs {
        cbs := subs[sym];
      }
      if cb !in cbs {
        cbs := cbs + [cb];
      }
      subs := subs[sym := cbs];
      if sym in latest {
        deliveries := deliveries + [PriceTo(cb, latest[sym])];
      }
    }

    /** The closure `subscribeLatest` returns. */
    method UnsubscribeLatest(sym: string, cb: CallbackId)
      requires Valid()
      modifies this
      ensures Valid()
      ensures subs == Remove(old(subs), sym, cb)
      ensures latest == old(latest) && seriesSubs == old(seriesSubs) && series == old(series)
      ensures inFlight == old(inFlight) && loadedDay == old(loadedDay) && loadedTz == old(loadedTz)
      ensures dayRef == old(dayRef) && tzRef == old(tzRef)
      ensures deliveries == old(deliveries)
    {
      if sym !in subs {
        return;
      }
      var rest := Without(subs[sym], cb);
      if rest == [] {
        subs := subs - {sym};
      } else {
        subs := subs[sym := rest];
      }
    }

    /** `subscribeSeries`: register the callback; nothing is delivered at once. */
    method SubscribeSeries(sym: string, cb: CallbackId)
      requires Valid()
      modifies this
      ensures Valid()
      ensures seriesSubs == Add(old(seriesSubs), sym, cb)
      ensures latest == old(latest) && subs == old(subs) && series == old(series)
      ensures inFlight == old(inFlight) && loadedDay == old(loadedDay) && loadedTz == old(loadedTz)
      ensures dayRef == old(dayRef) && tzRef == old(tzRef)
      ensures deliveries == old(deliveries)
    {
      var cbs: seq<CallbackId> := [];
      if sym in seriesSubs {
        cbs := seriesSubs[sym];
      }
      if cb !in cbs {
        cbs := cbs + [cb];
      }
      seriesSubs := seriesSubs[sym := cbs];
    }

    /** The closure `subscribeSeries` returns. */
    method UnsubscribeSeries(sym: string, cb: CallbackId)
      requires Valid()
      modifies this
      ensures Valid()
      ensures seriesSubs == Remove(old(seriesSubs), sym, cb)
      ensures latest == old(latest) && subs == old(subs) && series == old(series)
      ensures inFlight == old(inFlight) && loadedDay == old(loadedDay) && loadedTz == old(loadedTz)
      ensures dayRef == old(dayRef) && tzRef == old(tzRef)
      ensures deliveries == old(deliveries)
    {
      if sym !in seriesSubs {
        return;
      }
      var rest := Without(seriesSubs[sym], cb);
      if rest == [] {
        seriesSubs := seriesSubs - {sym};
      } else {
        seriesSubs := seriesSubs[sym := rest];
      }
    }

    /** The first half of `fetchMissing`: choose the symbols to request and mark them in flight. */
    method BeginFetch(symbolsToEnsure: seq<string>) returns (missing: seq<string>)
      modifies this
      ensures missing == MissingSymbols(symbolsToEnsure, series.Keys, old(inFlight))
      ensures inFlight == old(inFlight) + Elems(missing)
      ensures latest == old(latest) && subs == old(subs) && seriesSubs == old(seriesSubs) && series == old(series)
      ensures loadedDay == old(loadedDay) && loadedTz == old(loadedTz) && deliveries == old(deliveries)
      ensures dayRef == old(dayRef) && tzRef == old(tzRef)
    {
      missing := MissingSymbols(symbolsToEnsure, series.Keys, inFlight);
      if |missing| == 0 {
        return;
      }
      var marks := inFlight;
      for i := 0 to |missing|
        invariant marks == old(inFlight) + Elems(missing[..i])
      {
        assert Elems(missing[..i + 1]) == Elems(missing[..i]) + {missing[i]} by {
          assert missing[..i + 1] == missing[..i] + [missing[i]];
        }
        marks := marks + {missing[i]};
      }
      assert missing[..|missing|] == missing;
      inFlight := marks;
    }

    /** The success path of `fetchMissing`: record the loaded day, store and announce every row. */
    method Receive(res: SeriesResponse)
      modifies this
      ensures series == StoreSeries(old(series), res.series)
      ensures deliveries == old(deliveries) + Notices(seriesSubs, res.series)
      ensures loadedDay == res.day && loadedTz == res.timezone
      ensures latest == old(latest) && subs == old(subs) && seriesSubs == old(seriesSubs) && inFlight == old(inFlight)
      ensures dayRef == old(dayRef) && tzRef == old(tzRef)
    {
      loadedDay := res.day;
      loadedTz := res.timezone;
      var cache := series;
      ghost var log := deliveries;
      for i := 0 to |res.series|
        invariant cache == StoreSeries(old(series), res.series[..i])
        invariant log == old(deliveries) + Notices(seriesSubs, res.series[..i])
      {
        var row := res.series[i];
        assert res.series[..i + 1][..i] == res.series[..i];
        cache := cache[row.symbol := Series(row.t, row.v)];
        log := log + SeriesFanout(Subscribers(seriesSubs, row.symbol), row.symbol);
      }
      assert res.series[..|res.series|] == res.series;
      series := cache;
      deliveries := log;
    }

    /** The `finally` of `fetchMissing`: drop the in-flight mark of every requested symbol. */
    method ClearMarks(missing: seq<string>)
      modifies this
      ensures inFlight == old(inFlight) - Elems(missing)
      ensures latest == old(latest) && subs == old(subs) && seriesSubs == old(seriesSubs) && series == old(series)
      ensures loadedDay == old(loadedDay) && loadedTz == old(loadedTz) && deliveries == old(deliveries)
      ensures dayRef == old(dayRef) && tzRef == old(tzRef)
    {
      var marks := inFlight;
      for i := 0 to |missing|
        invariant marks == old(inFlight) - Elems(missing[..i])
      {
        assert Elems(missing[..i + 1]) == Elems(missing[..i]) + {missing[i]} by {
          assert missing[..i + 1] == missing[..i] + [missing[i]];
        }
        marks := marks - {missing[i]};
      }
      assert missing[..|missing|] == missing;
      inFlight := marks;
    }

    /**
     * The second half of `fetchMissing`: on a response, record its day and store
     * and announce every row; on success or failure, clear the marks of `missing`.
     */
    method Settle(missing: seq<string>, response: Option<SeriesResponse>)
      modifies this
      ensures inFlight == old(inFlight) - Elems(missing)
      ensures latest == old(latest) && subs == old(subs) && seriesSubs == old(seriesSubs)
      ensures dayRef == old(dayRef) && tzRef == old(tzRef)
      ensures response.None? ==>
        series == old(series) && deliveries == old(deliveries) &&
        loadedDay == old(loadedDay) && loadedTz == old(loadedTz)
      ensures response.Some? ==>
        series == StoreSeries(old(series), response.value.series) &&
        deliveries == old(deliveries) + Notices(seriesSubs, response.value.series) &&
        loadedDay == response.value.day && loadedTz == response.value.timezone
    {
      if response.Some? {
        Receive(response.value);
      }
      ClearMarks(missing);
    }

    /**
     * `fetchMissing` with the request's outcome as a parameter (`None` when it
     * fails): only symbols neither cached nor in flight are requested, and
     * their in-flight marks are gone again once it settles.
     */
    method FetchMissing(symbolsToEnsure: seq<string>, response: Option<SeriesResponse>)
      returns (requested: seq<string>)
      modifies this
      ensures forall s :: s in requested <==> s in symbolsToEnsure && s !in old(series) && s !in old(inFlight)
      ensures inFlight == old(inFlight)
      ensures latest == old(latest) && subs == old(subs) && seriesSubs == old(seriesSubs)
      ensures dayRef == old(dayRef) && tzRef == old(tzRef)
      ensures requested == [] || response.None? ==>
        series == old(series) && deliveries == old(deliveries) &&
        loadedDay == old(loadedDay) && loadedTz == old(loadedTz)
      ensures requested != [] && response.Some? ==>
        series == StoreSeries(old(series), response.value.series) &&
        deliveries == old(deliveries) + Notices(seriesSubs, response.value.series) &&
        loadedDay == response.value.day && loadedTz == response.value.timezone
    {
      requested := BeginFetch(symbolsToEnsure);
      if |requested| == 0 {
        return;
      }
      Settle(requested, response);
      assert inFlight == (old(inFlight) + Elems(requested)) - Elems(requested);
    }

    /**
     * The market-change effect: after hydration it drops the cached series,
     * the in-flight marks and the two day refs. The displayed loaded day is
     * state, not a ref, and keeps the previous market's value until the next
     * response arrives.
     */
    method ClearOnMarketChange(hydrated: bool)
      modifies this
      ensures latest == old(latest) && subs == old(subs) && seriesSubs == old(seriesSubs)
      ensures deliveries == old(deliveries)
      ensures loadedDay == old(loadedDay) && loadedTz == old(loadedTz)
      ensures !hydrated ==>
        series == old(series) && inFlight == old(inFlight) && dayRef == old(dayRef) && tzRef == old(tzRef)
      ensures hydrated ==> series == map[] && inFlight == {} && dayRef == "" && tzRef == ""
    {
      if !hydrated {
        return;
      }
      series := map[];
      inFlight := {};
      dayRef := "";
      tzRef := "";
    }
  }

  /**
   * Two fetches started before either settles never request the same symbol:
   * the second one sees the first one's marks.
   */
  method OverlappingFetches(store: ChartWallStore, first: seq<string>, second: seq<string>)
    returns (a: seq<string>, b: seq<string>)
    modifies store
    ensures forall s :: s in a ==> s !in b
    ensures forall s :: s in b ==> s in second && s !in a
  {
    a := store.BeginFetch(first);
    b := store.BeginFetch(second);
  }

  // ---------------------------------------------------------------------
  // Ticker dropdown and selection pruning
  // ---------------------------------------------------------------------

  /** The ticker fields the chart wall reads; the class list and bucket may be absent. */
  datatype WallTicker = WallTicker(
    id: string,
    symbol: string,
    companyName: string,
    market: Market,
    stockClasses: Option<seq<StockClass>>,
    bucket: Option<Bucket>)

  datatype TickerOption = TickerOption(id: string, symbol: string, companyName: string, bucket: Option<Bucket>)

  function ToOption(t: WallTicker): TickerOption
  {
    TickerOption(t.id, t.symbol, t.companyName, t.bucket)
  }

  /** The current market, the current class among its classes, and one of the chosen buckets. */
  predicate InFilter(t: WallTicker, market: Market, stockClass: StockClass, buckets: seq<Bucket>)
  {
    t.market == market &&
    t.stockClasses.Some? && stockClass in t.stockClasses.value &&
    t.bucket.Some? && t.bucket.value in buckets
  }

  /** The tickers `filteredTickers` keeps: a subsequence of the list, each kept one as often as it occurs. */
  function KeptTickers(all: seq<WallTicker>, market: Market, stockClass: StockClass, buckets: seq<Bucket>)
    : (r: seq<WallTicker>)
    ensures |r| <= |all| && IsSubsequence(r, all)
    ensures forall i :: 0 <= i < |r| ==> r[i] in all && InFilter(r[i], market, stockClass, buckets)
    ensures forall t :: t in all ==>
      multiset(r)[t] == if InFilter(t, market, stockClass, buckets) then multiset(all)[t] else 0
  {
    var p := t => InFilter(t, market, stockClass, buckets);
    FilterIsSubsequence(all, p);
    Filter(all, p)
  }

  /** `filteredTickers`: exactly the tickers in the filter, as options, in list order. */
  function FilteredTickers(all: seq<WallTicker>, market: Market, stockClass: StockClass, buckets: seq<Bucket>)
    : (r: seq<TickerOption>)
    ensures |r| <= |all|
    ensures forall o :: o in r ==> exists t :: t in all && InFilter(t, market, stockClass, buckets) && ToOption(t) == o
    ensures forall t :: t in all && InFilter(t, market, stockClass, buckets) ==> ToOption(t) in r
    ensures var kept := KeptTickers(all, market, stockClass, buckets);
      |r| == |kept| && forall i :: 0 <= i < |r| ==> r[i] == ToOption(kept[i])
  {
    var kept := KeptTickers(all, market, stockClass, buckets);
    var r := Options(kept);
    OptionsOfKept(all, market, stockClass, buckets, kept, r);
    r
  }

  function Options(kept: seq<WallTicker>): (r: seq<TickerOption>)
    ensures |r| == |kept| && forall i :: 0 <= i < |r| ==> r[i] == ToOption(kept[i])
  {
    seq(|kept|, i requires 0 <= i < |kept| => ToOption(kept[i]))
  }

  lemma OptionsOfKept(all: seq<WallTicker>, market: Market, stockClass: StockClass, buckets: seq<Bucket>,
                      kept: seq<WallTicker>, r: seq<TickerOption>)
    requires kept == KeptTickers(all, market, stockClass, buckets) && r == Options(kept)
    ensures |r| <= |all|
    ensures forall o :: o in r ==> exists t :: t in all && InFilter(t, market, stockClass, buckets) && ToOption(t) == o
    ensures forall t :: t in all && InFilter(t, market, stockClass, buckets) ==> ToOption(t) in r
  {
    forall o | o in r
      ensures exists t :: t in all && InFilter(t, market, stockClass, buckets) && ToOption(t) == o
    {
      var i :| 0 <= i < |r| && r[i] == o;
      assert kept[i] in all && ToOption(kept[i]) == o;
    }
    forall t | t in all && InFilter(t, market, stockClass, buckets)
      ensures ToOption(t) in r
    {
      assert t in multiset(kept);
      var i :| 0 <= i < |kept| && kept[i] == t;
      assert r[i] == ToOption(t);
    }
  }

  function Allowed(filtered: seq<TickerOption>): set<string>
  {
    set o | o in filtered :: o.symbol
  }

  /** Pruning waits for hydration and the ticker list, and never empties on an empty filter. */
  predicate PruneSkipped(hydrated: bool, loading: bool, allCount: nat, filtered: seq<TickerOption>)
  {
    !hydrated || loading || allCount == 0 || |filtered| == 0
  }

  /** The selection after the pruning effect. */
  function Prune(selected: seq<string>, filtered: seq<TickerOption>, hydrated: bool, loading: bool, allCount: nat)
    : (r: seq<string>)
    ensures PruneSkipped(hydrated, loading, allCount, filtered) ==> r == selected
    ensures !PruneSkipped(hydrated, loading, allCount, filtered) ==>
      forall s :: s in r <==> s in selected && s in Allowed(filtered)
    ensures !PruneSkipped(hydrated, loading, allCount, filtered) ==>
      forall s :: s in selected ==> multiset(r)[s] == if s in Allowed(filtered) then multiset(selected)[s] else 0
    ensures IsSubsequence(r, selected)
  {
    if PruneSkipped(hydrated, loading, allCount, filtered) then
      assert IsSubsequence(selected, selected) by { SubsequenceRefl(selected); }
      selected
    else
      var allowed := Allowed(filtered);
      FilterIsSubsequence(selected, s => s in allowed);
      Filter(selected, s => s in allowed)
  }

  lemma {:induction false} SubsequenceRefl<T>(s: seq<T>)
    ensures IsSubsequence(s, s)
  {
    if s != [] {
      SubsequenceRefl(s[1..]);
    }
  }

  /** Pruning again with the same options changes nothing. */
  lemma PruneIdempotent(selected: seq<string>, filtered: seq<TickerOption>, hydrated: bool, loading: bool, allCount: nat)
    ensures var once := Prune(selected, filtered, hydrated, loading, allCount);
      Prune(once, filtered, hydrated, loading, allCount) == once
  {
    if !PruneSkipped(hydrated, loading, allCount, filtered) {
      var allowed := Allowed(filtered);
      FilterIdempotent(selected, s => s in allowed);
    }
  }
}

=== FILE: chartwall_tabs.dfy ===
/**
 * Tab arithmetic of the chart wall: the selected symbols are cut into tabs of
 * `perTab` charts (`chunk`), the active tab is kept in range when the number of
 * tabs changes (`clamp`), and auto-rotation steps to the next tab.
 */
module ChartWallTabs {

  /** Concatenation of a list of chunks. */
  function Flatten<T>(css: seq<seq<T>>): seq<T>
  {
    if css == [] then [] else css[0] + Flatten(css[1..])
  }

  /**
   * The chunks `chunk(arr, size)` returns: `[arr]` for a non-positive size,
   * otherwise consecutive slices of `size` elements, the last one shorter
   * when `size` does not divide the length.
   */
  function Chunks<T>(arr: seq<T>, size: int): seq<seq<T>>
    decreases |arr|
  {
    if size <= 0 then [arr]
    else if |arr| == 0 then []
    else if |arr| <= size then [arr]
    else [arr[..size]] + Chunks(arr[size..], size)
  }

  /** `chunk`: pushes `arr.slice(i, i + size)` for i = 0, size, 2·size, … */
  method Chunk<T>(arr: seq<T>, size: int) returns (out: seq<seq<T>>)
    ensures out == Chunks(arr, size)
    ensures size <= 0 ==> out == [arr]
  {
    if size <= 0 {
      return [arr];
    }
    out := [];
    var i := 0;
    assert arr[0..] == arr;
    while i < |arr|
      invariant 0 <= i
      invariant i < |arr| ==> out + Chunks(arr[i..], size) == Chunks(arr, size)
      invariant i >= |arr| ==> out == Chunks(arr, size)
      decreases |arr| - i
    {
      // `slice` stops at the end of the array
      var end := if i + size < |arr| then i + size else |arr|;
      var rest := arr[i..];
      if |rest| <= size {
        assert Chunks(rest, size) == [rest];
        assert arr[i..end] == rest;
      } else {
        assert rest[..size] == arr[i..end];
        assert rest[size..] == arr[i + size..];
        assert Chunks(rest, size) == [arr[i..end]] + Chunks(arr[i + size..], size);
        assert out + Chunks(rest, size) == (out + [arr[i..end]]) + Chunks(arr[i + size..], size);
      }
      out := out + [arr[i..end]];
      i := i + size;
    }
  }

  /** Concatenating the chunks gives back the input. */
  lemma {:induction false} ChunksConcat<T>(arr: seq<T>, size: int)
    requires size > 0
    ensures Flatten(Chunks(arr, size)) == arr
    decreases |arr|
  {
    if |arr| == 0 {
    } else if |arr| <= size {
      assert Flatten([arr]) == arr + Flatten([]);
    } else {
      ChunksConcat(arr[size..], size);
      var c := Chunks(arr, size);
      assert c[0] == arr[..size] && c[1..] == Chunks(arr[size..], size);
      assert arr[..size] + arr[size..] == arr;
    }
  }

  /**
   * Every chunk but the last holds exactly `size` elements, the last one
   * between 1 and `size`; there are no chunks exactly when the input is empty.
   */
  lemma {:induction false} ChunksSizes<T>(arr: seq<T>, size: int)
    requires size > 0
    ensures var c := Chunks(arr, size);
      (c == [] <==> arr == []) &&
      (forall i :: 0 <= i < |c| - 1 ==> |c[i]| == size) &&
      (forall i :: 0 <= i < |c| ==> 1 <= |c[i]| <= size)
    decreases |arr|
  {
    if |arr| > size {
      ChunksSizes(arr[size..], size);
      var c := Chunks(arr, size);
      var tail := Chunks(arr[size..], size);
      assert c == [arr[..size]] + tail;
      forall i | 1 <= i < |c|
        ensures c[i] == tail[i - 1]
      {
      }
    }
  }

  lemma {:induction false} InFlatten<T>(css: seq<seq<T>>, i: int, x: T)
    requires 0 <= i < |css| && x in css[i]
    ensures x in Flatten(css)
  {
    if i > 0 {
      InFlatten(css[1..], i - 1, x);
    }
  }

  /** `tabs[activeTab] ?? []`: the symbols shown on the active tab. */
  function VisibleSymbols<T>(tabs: seq<seq<T>>, activeTab: int): seq<T>
  {
    if 0 <= activeTab < |tabs| then tabs[activeTab] else []
  }

  /** The active tab shows at most `perTab` of the selected symbols. */
  lemma VisibleTabFits<T>(selected: seq<T>, perTab: int, activeTab: int)
    requires perTab > 0
    ensures var v := VisibleSymbols(Chunks(selected, perTab), activeTab);
      |v| <= perTab && forall x :: x in v ==> x in selected
  {
    var tabs := Chunks(selected, perTab);
    ChunksSizes(selected, perTab);
    ChunksConcat(selected, perTab);
    if 0 <= activeTab < |tabs| {
      forall x | x in tabs[activeTab]
        ensures x in selected
      {
        InFlatten(tabs, activeTab, x);
      }
    }
  }

  /** `Math.max(lo, Math.min(hi, n))`. */
  function Clamp(n: int, lo: int, hi: int): (r: int)
    ensures lo <= r
    ensures lo <= hi ==> r <= hi
    ensures lo <= n <= hi ==> r == n
    ensures lo <= hi && n > hi ==> r == hi
    ensures n < lo ==> r == lo
  {
    var m := if hi < n then hi else n;
    if lo > m then lo else m
  }

  /** The active tab after the number of tabs changed. */
  function ActiveTab(t: int, tabCount: nat): (r: int)
    ensures tabCount == 0 ==> r == 0
    ensures tabCount > 0 ==> 0 <= r < tabCount
    ensures 0 <= t < tabCount ==> r == t
    ensures tabCount > 0 && t >= tabCount ==> r == tabCount - 1
    ensures t < 0 ==> r == 0
  {
    if tabCount == 0 then 0 else Clamp(t, 0, tabCount - 1)
  }

  /** JavaScript's `%`: the remainder takes the sign of the dividend. */
  function JsRemainder(a: int, b: int): (r: int)
    requires b > 0
    ensures a >= 0 ==> 0 <= r < b
    ensures a <= 0 ==> -b < r <= 0
    ensures a == b * TruncDiv(a, b) + r
  {
    if a >= 0 then a % b
    else
      var q := (-a) / b;
      assert -a == b * q + (-a) % b;
      assert b * (-q) == -(b * q);
      -((-a) % b)
  }

  /** JavaScript's `Math.trunc(a / b)`: the quotient rounded toward zero. */
  function TruncDiv(a: int, b: int): int
    requires b > 0
  {
    if a >= 0 then a / b else -((-a) / b)
  }

  /** Auto-rotation is scheduled only when on, with a positive period and at least two tabs. */
  predicate RotationScheduled(rotateOn: bool, rotateSec: int, tabCount: nat)
  {
    rotateOn && rotateSec > 0 && tabCount > 1
  }

  /**
   * The active tab after one period of the rotation interval: the tab moves
   * on only while rotation is scheduled, otherwise no interval runs and the
   * tab stays where it is.
   */
  function AfterRotationPeriod(t: int, rotateOn: bool, rotateSec: int, tabCount: nat): (r: int)
    ensures !rotateOn || rotateSec <= 0 || tabCount <= 1 ==> r == t
    ensures RotationScheduled(rotateOn, rotateSec, tabCount) && 0 <= t < tabCount ==>
      r == (if t + 1 == tabCount then 0 else t + 1)
    ensures RotationScheduled(rotateOn, rotateSec, tabCount) && t >= -1 ==> 0 <= r < tabCount
  {
    if RotationScheduled(rotateOn, rotateSec, tabCount) then Rotate(t, tabCount) else t
  }

  /** One rotation tick: `(t + 1) % tabs.length`. */
  function Rotate(t: int, tabCount: nat): (r: int)
    requires tabCount > 1
    ensures t >= -1 ==> 0 <= r < tabCount
    ensures 0 <= t < tabCount ==> r == (if t + 1 == tabCount then 0 else t + 1)
  {
    JsRemainder(t + 1, tabCount)
  }

  /** The tab reached after `k` rotation ticks. */
  function RotateTimes(t: int, tabCount: nat, k: nat): int
    requires tabCount > 1
  {
    if k == 0 then t else Rotate(RotateTimes(t, tabCount, k - 1), tabCount)
  }

  /**
   * From a tab in range, `k ≤ tabs` ticks advance `k` tabs modulo the count:
   * rotation visits every tab once and comes back after `tabs` ticks.
   */
  lemma {:induction false} RotationCycles(t: int, tabCount: nat, k: nat)
    requires tabCount > 1 && 0 <= t < tabCount && k <= tabCount
    ensures RotateTimes(t, tabCount, k) == (if t + k < tabCount then t + k else t + k - tabCount)
  {
    if k > 0 {
      RotationCycles(t, tabCount, k - 1);
    }
  }

  lemma FullRotationReturns(t: int, tabCount: nat)
    requires tabCount > 1 && 0 <= t < tabCount
    ensures RotateTimes(t, tabCount, tabCount) == t
  {
    RotationCycles(t, tabCount, tabCount);
  }
}

=== FILE: chartwall_url.dfy ===
/**
 * The chart wall's query-string state: reading it from the URL with per-field
 * fallbacks to defaults, and writing it back. The query is a key → value map
 * (what `URLSearchParams.get` sees after percent-decoding).
 */
module ChartWallUrl {
  import opened Wrappers
  import opened TickerTypes
  import opened Strings
  import opened Sequences

  type Query = map<string, string>

  /** `ChartWallQueryState`. */
  datatype QueryState = QueryState(
    market: Market,
    stockClass: StockClass,
    buckets: seq<Bucket>,
    symbols: seq<string>,
    perTab: int,
    rotateSec: int,
    rotateOn: bool,
    tab: int)

  /** `sp.get(key)`: `None` stands for `null`. */
  function Get(q: Query, key: string): Option<string>
  {
    if key in q then Some(q[key]) else None
  }

  /** `Number(sp.get(key))`: `Number(null)` is 0. */
  function NumberParam(q: Query, key: string): JsNumber
  {
    match Get(q, key)
    case None => Num(0)
    case Some(v) => ParseNumber(v)
  }

  /** A CSV entry as `parseCsv` returns it: non-empty, trimmed and free of commas. */
  predicate CsvEntry(s: string)
  {
    s != [] && ',' !in s && Trim(s) == s
  }

  predicate NonEmpty(s: string) { s != [] }

  /** `parts.map(s => s.trim())`. */
  function TrimAll(parts: seq<string>): (r: seq<string>)
    ensures |r| == |parts| && forall i :: 0 <= i < |parts| ==> r[i] == Trim(parts[i])
  {
    seq(|parts|, i requires 0 <= i < |parts| => Trim(parts[i]))
  }

  /** `parseCsv`: split on ',', trim every part, drop the empty ones; nothing for null or "". */
  function ParseCsv(v: Option<string>): (r: seq<string>)
    ensures v.None? || v == Some("") ==> r == []
    ensures forall i :: 0 <= i < |r| ==> CsvEntry(r[i])
    ensures v.Some? ==> r == Filter(TrimAll(Split(v.value, ',')), NonEmpty)
  {
    if v.None? then []
    else if v.value == "" then
      EmptySplitDropped(v);
      []
    else
      var parts := Split(v.value, ',');
      var trimmed := TrimAll(parts);
      var r := Filter(trimmed, NonEmpty);
      CsvEntries(parts, r);
      r
  }

  /** Splitting "" gives one empty part, which trimming keeps empty and the filter drops. */
  lemma EmptySplitDropped(v: Option<string>)
    requires v == Some("")
    ensures Filter(TrimAll(Split(v.value, ',')), NonEmpty) == []
  {
    var parts := Split("", ',');
    var trimmed := TrimAll(parts);
    assert |parts| == 1 && parts[0] == "";
    assert trimmed == [""];
    assert Filter(trimmed, NonEmpty) == Filter(trimmed[1..], NonEmpty);
  }

  /** The non-empty trimmed parts of a split are CSV entries. */
  lemma CsvEntries(parts: seq<string>, r: seq<string>)
    requires forall i :: 0 <= i < |parts| ==> ',' !in parts[i]
    requires r == Filter(TrimAll(parts), NonEmpty)
    ensures forall i :: 0 <= i < |r| ==> CsvEntry(r[i])
  {
    var trimmed := TrimAll(parts);
    forall k | 0 <= k < |trimmed| && NonEmpty(trimmed[k])
      ensures CsvEntry(trimmed[k])
    {
      TrimmedPartEntry(parts[k]);
    }
    FilterKeepsProperty(trimmed, NonEmpty, CsvEntry);
  }

  lemma TrimmedPartEntry(part: string)
    requires ',' !in part && Trim(part) != []
    ensures CsvEntry(Trim(part))
  {
    TrimSubset(part);
    TrimIdempotent(part);
  }

  lemma TrimSubset(s: string)
    ensures forall c :: c in Trim(s) ==> c in s
  {
    var t := TrimStart(s);
    var r := TrimEnd(t);
    forall c | c in r
      ensures c in s
    {
      var i :| 0 <= i < |r| && r[i] == c;
      assert t[i] == c;
      assert s[|s| - |t| + i] == c;
    }
  }

  lemma TrimIdempotent(s: string)
    ensures Trim(Trim(s)) == Trim(s)
  {
    TrimIdentity(Trim(s));
  }

  /** Reading back a joined list of CSV entries gives the list. */
  lemma ParseCsvJoin(xs: seq<string>)
    requires forall i :: 0 <= i < |xs| ==> CsvEntry(xs[i])
    ensures ParseCsv(Some(Join(xs, ','))) == xs
  {
    if xs != [] {
      var v := Join(xs, ',');
      JoinStartsWith(xs, ',');
      assert xs[0] != [];
      ParseCsvSteps(v);
      SplitJoin(xs, ',');
      TrimAllTrimmed(xs);
      FilterKeepsAll(xs, NonEmpty);
    }
  }

  lemma ParseCsvSteps(v: string)
    requires v != ""
    ensures ParseCsv(Some(v)) == Filter(TrimAll(Split(v, ',')), NonEmpty)
  {
  }

  lemma TrimAllTrimmed(xs: seq<string>)
    requires forall i :: 0 <= i < |xs| ==> CsvEntry(xs[i])
    ensures TrimAll(xs) == xs
  {
  }

  lemma JoinStartsWith(xs: seq<string>, sep: char)
    requires |xs| > 0
    ensures |Join(xs, sep)| >= |xs[0]|
  {
  }

  function ParseMarket(v: Option<string>): (r: Option<Market>)
    ensures r.Some? ==> v == Some(MarketName(r.value))
    ensures forall m :: v == Some(MarketName(m)) ==> r == Some(m)
  {
    if v == Some("canada") then Some(Canada)
    else if v == Some("usa") then Some(Usa)
    else if v == Some("india") then Some(India)
    else None
  }

  function ParseStockClass(v: Option<string>): (r: Option<StockClass>)
    ensures r.Some? ==> v == Some(StockClassName(r.value))
    ensures forall c :: v == Some(StockClassName(c)) ==> r == Some(c)
  {
    if v == Some("dividend") then Some(Dividend)
    else if v == Some("trade") then Some(Trade)
    else if v == Some("longTerm") then Some(LongTerm)
    else None
  }

  function ParseBucket(s: string): (r: Option<Bucket>)
    ensures r.Some? ==> s == BucketName(r.value)
    ensures forall b :: s == BucketName(b) ==> r == Some(b)
  {
    if s == "core" then Some(Core)
    else if s == "watch" then Some(Watch)
    else if s == "once" then Some(Once)
    else if s == "avoid" then Some(Avoid)
    else None
  }

  /** The entries that name a bucket, as buckets, in order; the others are dropped. */
  function ValidBuckets(entries: seq<string>): (r: seq<Bucket>)
    ensures |r| <= |entries|
  {
    if entries == [] then []
    else
      var rest := ValidBuckets(entries[1..]);
      match ParseBucket(entries[0])
      case Some(b) => [b] + rest
      case None => rest
  }

  /** A bucket is kept exactly when one of the entries names it. */
  lemma {:induction false} ValidBucketsMembers(entries: seq<string>)
    ensures forall b :: b in ValidBuckets(entries) <==> BucketName(b) in entries
  {
    if entries != [] {
      ValidBucketsMembers(entries[1..]);
      assert forall s :: s in entries <==> s == entries[0] || s in entries[1..];
    }
  }

  predicate IsBucketName(s: string) { ParseBucket(s).Some? }

  /** The kept buckets are the bucket-naming entries, in their order and with their repeats. */
  lemma {:induction false} ValidBucketsNames(entries: seq<string>)
    ensures BucketNames(ValidBuckets(entries)) == Filter(entries, IsBucketName)
  {
    if entries != [] {
      var e, tail := entries[0], entries[1..];
      ValidBucketsNames(tail);
      var rest := ValidBuckets(tail);
      var kept := Filter(tail, IsBucketName);
      match ParseBucket(e)
      case Some(b) =>
        assert ValidBuckets(entries) == [b] + rest;
        assert Filter(entries, IsBucketName) == [e] + kept;
        BucketNamesCons(b, rest);
      case None =>
        assert ValidBuckets(entries) == rest;
        assert Filter(entries, IsBucketName) == kept;
    }
  }

  lemma BucketNamesCons(b: Bucket, rest: seq<Bucket>)
    ensures BucketNames([b] + rest) == [BucketName(b)] + BucketNames(rest)
  {
  }

  predicate ValidPerTab(n: int) { n == 1 || n == 2 || n == 4 || n == 6 || n == 9 }

  predicate ValidRotate(n: int) { n == 10 || n == 20 || n == 30 || n == 40 || n == 50 }

  /** `asPerTab`: one of the allowed tab sizes, else nothing. */
  function AsPerTab(n: JsNumber): (r: Option<int>)
    ensures r.Some? <==> n.Num? && ValidPerTab(n.value)
    ensures r.Some? ==> r.value == n.value
  {
    if n.Num? && ValidPerTab(n.value) then Some(n.value) else None
  }

  /** `asRotate`: one of the allowed rotation periods, else nothing. */
  function AsRotate(n: JsNumber): (r: Option<int>)
    ensures r.Some? <==> n.Num? && ValidRotate(n.value)
    ensures r.Some? ==> r.value == n.value
  {
    if n.Num? && ValidRotate(n.value) then Some(n.value) else None
  }

  /** The market parameter when it names a market, else the default. */
  function ReadMarket(q: Query, default: Market): (r: Market)
    ensures forall m :: Get(q, "market") == Some(MarketName(m)) ==> r == m
    ensures ParseMarket(Get(q, "market")).None? ==> r == default
  {
    ParseMarket(Get(q, "market")).GetOr(default)
  }

  /** The class parameter when it names a class, else the default. */
  function ReadStockClass(q: Query, default: StockClass): (r: StockClass)
    ensures forall c :: Get(q, "class") == Some(StockClassName(c)) ==> r == c
    ensures ParseStockClass(Get(q, "class")).None? ==> r == default
  {
    ParseStockClass(Get(q, "class")).GetOr(default)
  }

  /** The valid buckets of the parameter, or the defaults when none is valid. */
  function ReadBuckets(q: Query, default: seq<Bucket>): (r: seq<Bucket>)
    ensures forall b :: b in r ==> BucketName(b) in ParseCsv(Get(q, "buckets")) || b in default
    ensures (forall b :: BucketName(b) !in ParseCsv(Get(q, "buckets"))) ==> r == default
    ensures default != [] ==> r != []
    ensures (exists b :: BucketName(b) in ParseCsv(Get(q, "buckets"))) ==>
      BucketNames(r) == Filter(ParseCsv(Get(q, "buckets")), IsBucketName)
  {
    var entries := ParseCsv(Get(q, "buckets"));
    var buckets := ValidBuckets(entries);
    ValidBucketsMembers(entries);
    ValidBucketsNames(entries);
    assert buckets != [] ==> buckets[0] in buckets;
    if |buckets| > 0 then buckets else default
  }

  /** The perTab parameter when it is an allowed size, else the default. */
  function ReadPerTab(q: Query, default: int): (r: int)
    ensures ValidPerTab(default) ==> ValidPerTab(r)
    ensures !ValidPerTab(r) ==> r == default
    ensures forall n :: NumberParam(q, "perTab") == Num(n) && ValidPerTab(n) ==> r == n
    ensures !(NumberParam(q, "perTab").Num? && ValidPerTab(NumberParam(q, "perTab").value)) ==> r == default
  {
    AsPerTab(NumberParam(q, "perTab")).GetOr(default)
  }

  /** The rotate parameter when it is an allowed period, else the default. */
  function ReadRotate(q: Query, default: int): (r: int)
    ensures ValidRotate(default) ==> ValidRotate(r)
    ensures !ValidRotate(r) ==> r == default
    ensures forall n :: NumberParam(q, "rotate") == Num(n) && ValidRotate(n) ==> r == n
    ensures !(NumberParam(q, "rotate").Num? && ValidRotate(NumberParam(q, "rotate").value)) ==> r == default
  {
    AsRotate(NumberParam(q, "rotate")).GetOr(default)
  }

  /** '1' switches rotation on; anything else leaves the default. */
  function ReadRotateOn(q: Query, default: bool): (r: bool)
    ensures r <==> Get(q, "rotateOn") == Some("1") || default
  {
    if Get(q, "rotateOn") == Some("1") then true else default
  }

  /** A non-negative number, else the default; a missing tab is `Number(null)`, that is 0. */
  function ReadTab(q: Query, default: int): (r: int)
    ensures "tab" !in q ==> r == 0
    ensures default >= 0 ==> r >= 0
    ensures forall n :: NumberParam(q, "tab") == Num(n) && n >= 0 ==> r == n
    ensures (NumberParam(q, "tab").NaN? || NumberParam(q, "tab").value < 0) ==> r == default
  {
    var tabRaw := NumberParam(q, "tab");
    if tabRaw.Num? && tabRaw.value >= 0 then tabRaw.value else default
  }

  /** `readChartWallQuery`: every field is read on its own and falls back to its default. */
  function ReadQuery(q: Query, defaults: QueryState): QueryState
  {
    QueryState(
      ReadMarket(q, defaults.market),
      ReadStockClass(q, defaults.stockClass),
      ReadBuckets(q, defaults.buckets),
      ParseCsv(Get(q, "symbols")),
      ReadPerTab(q, defaults.perTab),
      ReadRotate(q, defaults.rotateSec),
      ReadRotateOn(q, defaults.rotateOn),
      ReadTab(q, defaults.tab))
  }

  /** The names of a list of buckets. */
  function BucketNames(bs: seq<Bucket>): seq<string>
  {
    seq(|bs|, i requires 0 <= i < |bs| => BucketName(bs[i]))
  }

  /** `buildChartWallQueryString`, as the map of parameters it sets. */
  function BuildQuery(st: QueryState): (r: Query)
    ensures r.Keys == {"market", "class", "buckets", "perTab", "rotate", "rotateOn", "tab"} +
                      (if st.symbols != [] then {"symbols"} else {})
    ensures r["rotateOn"] == "1" <==> st.rotateOn
  {
    var base := map[
      "market" := MarketName(st.market),
      "class" := StockClassName(st.stockClass),
      "buckets" := Join(BucketNames(st.buckets), ',')];
    var withSymbols := if |st.symbols| > 0 then base["symbols" := Join(st.symbols, ',')] else base;
    withSymbols[
      "perTab" := IntToString(st.perTab)][
      "rotate" := IntToString(st.rotateSec)][
      "rotateOn" := if st.rotateOn then "1" else "0"][
      "tab" := IntToString(st.tab)]
  }

  /** A state that survives being written to the URL and read back. */
  predicate RoundTrips(st: QueryState, defaults: QueryState)
  {
    ValidPerTab(st.perTab) && ValidRotate(st.rotateSec) &&
    st.buckets != [] &&
    (forall i :: 0 <= i < |st.symbols| ==> CsvEntry(st.symbols[i])) &&
    st.tab >= 0 &&
    (st.rotateOn || !defaults.rotateOn)
  }

  lemma BucketNameEntry(b: Bucket)
    ensures CsvEntry(BucketName(b))
  {
    TrimIdentity(BucketName(b));
  }

  lemma {:induction false} BucketNamesValid(bs: seq<Bucket>)
    ensures ValidBuckets(BucketNames(bs)) == bs
  {
    if bs != [] {
      BucketNamesValid(bs[1..]);
      assert BucketNames(bs)[1..] == BucketNames(bs[1..]);
      assert [bs[0]] + bs[1..] == bs;
    }
  }

  lemma BucketsRoundTrip(bs: seq<Bucket>, default: seq<Bucket>)
    requires bs != []
    ensures ReadBuckets(map["buckets" := Join(BucketNames(bs), ',')], default) == bs
  {
    var names := BucketNames(bs);
    forall i | 0 <= i < |names|
      ensures CsvEntry(names[i])
    {
      BucketNameEntry(bs[i]);
    }
    ParseCsvJoin(names);
    BucketNamesValid(bs);
  }

  lemma BuildQueryValues(st: QueryState)
    ensures var q := BuildQuery(st);
      Get(q, "market") == Some(MarketName(st.market)) &&
      Get(q, "class") == Some(StockClassName(st.stockClass)) &&
      Get(q, "buckets") == Some(Join(BucketNames(st.buckets), ',')) &&
      Get(q, "symbols") == (if st.symbols != [] then Some(Join(st.symbols, ',')) else None) &&
      Get(q, "perTab") == Some(IntToString(st.perTab)) &&
      Get(q, "rotate") == Some(IntToString(st.rotateSec)) &&
      Get(q, "rotateOn") == Some(if st.rotateOn then "1" else "0") &&
      Get(q, "tab") == Some(IntToString(st.tab))
  {
  }

  lemma NumbersRoundTrip(st: QueryState, defaults: QueryState)
    requires RoundTrips(st, defaults)
    ensures var q := BuildQuery(st);
      ReadPerTab(q, defaults.perTab) == st.perTab &&
      ReadRotate(q, defaults.rotateSec) == st.rotateSec &&
      ReadRotateOn(q, defaults.rotateOn) == st.rotateOn &&
      ReadTab(q, defaults.tab) == st.tab
  {
    BuildQueryValues(st);
    ParseIntToString(st.perTab);
    ParseIntToString(st.rotateSec);
    ParseIntToString(st.tab);
  }

  lemma ListsRoundTrip(st: QueryState, defaults: QueryState)
    requires RoundTrips(st, defaults)
    ensures var q := BuildQuery(st);
      ReadBuckets(q, defaults.buckets) == st.buckets &&
      ParseCsv(Get(q, "symbols")) == st.symbols
  {
    var q := BuildQuery(st);
    BuildQueryValues(st);
    BucketsRoundTrip(st.buckets, defaults.buckets);
    assert Get(q, "buckets") == Get(map["buckets" := Join(BucketNames(st.buckets), ',')], "buckets");
    if st.symbols != [] {
      ParseCsvJoin(st.symbols);
    }
  }

  /** Reading back a written state gives the state. */
  lemma ReadBuildRoundTrip(st: QueryState, defaults: QueryState)
    requires RoundTrips(st, defaults)
    ensures ReadQuery(BuildQuery(st), defaults) == st
  {
    BuildQueryValues(st);
    NumbersRoundTrip(st, defaults);
    ListsRoundTrip(st, defaults);
  }
}

=== FILE: chimes.dfy ===
/**
 * The re-armable crossing rule that decides when the dashboard plays a
 * chime for a symbol: sell thresholds (green, cyan) ring on an upward
 * cross, buy thresholds (red, orange) on a downward cross, and an arm flag
 * stops a threshold from ringing again until the price has gone back
 * across it.
 */
module Chimes {
  import opened Wrappers
  import opened TickerTypes

  datatype ChimeKey = ChimeGreen | ChimeCyan | ChimeOrange | ChimeRed

  /** Per-symbol arm flags; a missing flag is false. */
  datatype Arms = Arms(green: bool, cyan: bool, orange: bool, red: bool)

  const Unarmed: Arms := Arms(false, false, false, false)

  /** The thresholds read from the merged snapshot; `None` when not a number. */
  datatype Levels = Levels(green: Option<real>, cyan: Option<real>, orange: Option<real>, red: Option<real>)

  function LevelsOf(t: Snapshot): Levels
  {
    Levels(t.thresholdGreen, t.thresholdCyan, t.thresholdOrange, t.thresholdRed)
  }

  predicate CrossesUp(prev: real, next: real, th: Option<real>) { th.Some? && prev < th.value && next >= th.value }
  predicate CrossesDown(prev: real, next: real, th: Option<real>) { th.Some? && prev > th.value && next <= th.value }
  predicate DropsBelow(price: real, th: Option<real>) { th.Some? && price < th.value }
  predicate RisesAbove(price: real, th: Option<real>) { th.Some? && price > th.value }

  datatype StepResult = StepResult(arms: Arms, chimes: seq<ChimeKey>)

  /** The sell side: green before cyan, then re-arm whatever the price fell below. */
  function SellSide(st: Arms, prev: real, next: real, lv: Levels): StepResult
  {
    var upGreen := CrossesUp(prev, next, lv.green) && !st.green;
    var upCyan := CrossesUp(prev, next, lv.cyan) && !st.cyan;
    var fired :=
      if upGreen then StepResult(st.(green := true, cyan := true), [ChimeGreen])
      else if upCyan then StepResult(st.(cyan := true), [ChimeCyan])
      else StepResult(st, []);
    var a1 := if DropsBelow(next, lv.green) then fired.arms.(green := false) else fired.arms;
    var a2 := if DropsBelow(next, lv.cyan) then a1.(cyan := false) else a1;
    StepResult(a2, fired.chimes)
  }

  /** The buy side: red before orange, then re-arm whatever the price rose above. */
  function BuySide(st: Arms, prev: real, next: real, lv: Levels): StepResult
  {
    var downRed := CrossesDown(prev, next, lv.red) && !st.red;
    var downOrange := CrossesDown(prev, next, lv.orange) && !st.orange;
    var fired :=
      if downRed then StepResult(st.(red := true, orange := true), [ChimeRed])
      else if downOrange then StepResult(st.(orange := true), [ChimeOrange])
      else StepResult(st, []);
    var a1 := if RisesAbove(next, lv.red) then fired.arms.(red := false) else fired.arms;
    var a2 := if RisesAbove(next, lv.orange) then a1.(orange := false) else a1;
    StepResult(a2, fired.chimes)
  }

  /** One evaluated price move from `prev` to `next`. */
  function ChimeStep(st: Arms, prev: real, next: real, lv: Levels): StepResult
  {
    var sell := SellSide(st, prev, next, lv);
    var buy := BuySide(sell.arms, prev, next, lv);
    StepResult(buy.arms, sell.chimes + buy.chimes)
  }

  /**
   * When each chime rings: green on an upward cross of an unarmed green;
   * cyan on an upward cross of an unarmed cyan when green did not ring;
   * red and orange likewise downwards.
   */
  lemma ChimeConditions(st: Arms, prev: real, next: real, lv: Levels)
    ensures var r := ChimeStep(st, prev, next, lv);
      && (ChimeGreen in r.chimes <==> CrossesUp(prev, next, lv.green) && !st.green)
      && (ChimeCyan in r.chimes <==>
            !(CrossesUp(prev, next, lv.green) && !st.green) && CrossesUp(prev, next, lv.cyan) && !st.cyan)
      && (ChimeRed in r.chimes <==> CrossesDown(prev, next, lv.red) && !st.red)
      && (ChimeOrange in r.chimes <==>
            !(CrossesDown(prev, next, lv.red) && !st.red) && CrossesDown(prev, next, lv.orange) && !st.orange)
  {
  }

  /** A sell chime needs a rise and a buy chime a fall, so one move rings at most once, whatever the thresholds. */
  lemma AtMostOneChime(st: Arms, prev: real, next: real, lv: Levels)
    ensures |ChimeStep(st, prev, next, lv).chimes| <= 1
  {
  }

  /**
   * Arms after a step: a ringing threshold is armed together with the one
   * below it on its side, and any threshold the price has gone back across
   * is re-armed (its flag cleared).
   */
  lemma ArmsAfterStep(st: Arms, prev: real, next: real, lv: Levels)
    ensures var r := ChimeStep(st, prev, next, lv);
      && (ChimeGreen in r.chimes ==> r.arms.green && (r.arms.cyan || DropsBelow(next, lv.cyan)))
      && (ChimeRed in r.chimes ==> r.arms.red && (r.arms.orange || RisesAbove(next, lv.orange)))
      && (DropsBelow(next, lv.green) ==> !r.arms.green)
      && (DropsBelow(next, lv.cyan) ==> !r.arms.cyan)
      && (RisesAbove(next, lv.red) ==> !r.arms.red)
      && (RisesAbove(next, lv.orange) ==> !r.arms.orange)
  {
  }

  /** Every armed flag agrees with the side of its threshold the price `last` is on. */
  predicate ArmConsistent(st: Arms, last: real, lv: Levels)
  {
    (st.green ==> !DropsBelow(last, lv.green)) && (st.cyan ==> !DropsBelow(last, lv.cyan)) &&
    (st.red ==> !RisesAbove(last, lv.red)) && (st.orange ==> !RisesAbove(last, lv.orange))
  }

  /** Plain edge detection: what a move from `prev` to `next` crosses, with the same precedence. */
  function IdealChimes(prev: real, next: real, lv: Levels): seq<ChimeKey>
  {
    (if CrossesUp(prev, next, lv.green) then [ChimeGreen]
     else if CrossesUp(prev, next, lv.cyan) then [ChimeCyan] else []) +
    (if CrossesDown(prev, next, lv.red) then [ChimeRed]
     else if CrossesDown(prev, next, lv.orange) then [ChimeOrange] else [])
  }

  /**
   * Every step leaves the arms consistent with the new price; from arms
   * consistent with the previous price a step rings exactly the crossings.
   */
  lemma StepIsEdgeDetection(st: Arms, prev: real, next: real, lv: Levels)
    ensures ArmConsistent(ChimeStep(st, prev, next, lv).arms, next, lv)
    ensures ArmConsistent(st, prev, lv) ==> ChimeStep(st, prev, next, lv).chimes == IdealChimes(prev, next, lv)
  {
  }

  /** The per-symbol side tables: initialized flag, last price and arm flags. */
  datatype Tracker = Tracker(initialized: bool, last: Option<real>, arms: Arms)

  const Fresh: Tracker := Tracker(false, None, Unarmed)

  datatype Observed = Observed(tracker: Tracker, chimes: seq<ChimeKey>)

  /** Whether an event with a numeric price is evaluated for chimes. */
  predicate Evaluates(tr: Tracker, sound: bool)
  {
    sound && tr.initialized && tr.last.Some?
  }

  /**
   * One event with a numeric merged price `next`: evaluated only when sound
   * is on and the symbol has been seen before; the trackers always advance.
   */
  function TrackEvent(tr: Tracker, next: real, lv: Levels, sound: bool): (r: Observed)
    ensures r.tracker.initialized && r.tracker.last == Some(next)
    ensures !Evaluates(tr, sound) ==> r.chimes == [] && r.tracker.arms == tr.arms
    ensures |r.chimes| <= 1
  {
    if Evaluates(tr, sound) then
      var s := ChimeStep(tr.arms, tr.last.value, next, lv);
      AtMostOneChime(tr.arms, tr.last.value, next, lv);
      Observed(Tracker(true, Some(next), s.arms), s.chimes)
    else
      Observed(Tracker(true, Some(next), tr.arms), [])
  }

  /** A run of numeric prices for one symbol against fixed thresholds. */
  function Feed(tr: Tracker, prices: seq<real>, lv: Levels, sound: bool): (r: Observed)
    ensures prices != [] ==> r.tracker.initialized && r.tracker.last == Some(prices[|prices| - 1])
    ensures prices == [] ==> r == Observed(tr, [])
    decreases |prices|
  {
    if prices == [] then Observed(tr, [])
    else
      var o := TrackEvent(tr, prices[0], lv, sound);
      var rest := Feed(o.tracker, prices[1..], lv, sound);
      Observed(rest.tracker, o.chimes + rest.chimes)
  }

  /** The crossings of every consecutive pair in `[prev] + prices`. */
  function IdealFeed(prev: real, prices: seq<real>, lv: Levels): seq<ChimeKey>
    decreases |prices|
  {
    if prices == [] then []
    else IdealChimes(prev, prices[0], lv) + IdealFeed(prices[0], prices[1..], lv)
  }

  /** With sound off nothing ever rings. */
  lemma {:induction false} SilentWhenSoundOff(tr: Tracker, prices: seq<real>, lv: Levels)
    ensures Feed(tr, prices, lv, false).chimes == []
    decreases |prices|
  {
    if prices != [] {
      SilentWhenSoundOff(TrackEvent(tr, prices[0], lv, false).tracker, prices[1..], lv);
    }
  }

  /** The first numeric price of a symbol never rings. */
  lemma FirstObservationSilent(next: real, lv: Levels, sound: bool)
    ensures TrackEvent(Fresh, next, lv, sound).chimes == []
  {
  }

  /** With sound on and consistent arms, a run of prices rings exactly its crossings. */
  lemma {:induction false} FeedIsEdgeDetection(tr: Tracker, prices: seq<real>, lv: Levels)
    requires tr.initialized && tr.last.Some? && ArmConsistent(tr.arms, tr.last.value, lv)
    ensures Feed(tr, prices, lv, true).chimes == IdealFeed(tr.last.value, prices, lv)
    decreases |prices|
  {
    if prices != [] {
      StepIsEdgeDetection(tr.arms, tr.last.value, prices[0], lv);
      FeedIsEdgeDetection(TrackEvent(tr, prices[0], lv, true).tracker, prices[1..], lv);
    }
  }

  /** From a fresh symbol with sound on: silence for the first price, then exactly the crossings. */
  lemma FreshFeedIsEdgeDetection(p: real, prices: seq<real>, lv: Levels)
    ensures Feed(Fresh, [p] + prices, lv, true).chimes == IdealFeed(p, prices, lv)
  {
    assert ([p] + prices)[1..] == prices;
    FeedIsEdgeDetection(Tracker(true, Some(p), Unarmed), prices, lv);
  }

  const GreenOnly: Levels := Levels(Some(11.0), None, None, None)

  /** Prices 9, 12, 9, 12 against green 11 ring green twice. */
  lemma RingsTwiceOnTwoCrossings()
    ensures Feed(Fresh, [9.0, 12.0, 9.0, 12.0], GreenOnly, true).chimes == [ChimeGreen, ChimeGreen]
  {
    FreshFeedIsEdgeDetection(9.0, [12.0, 9.0, 12.0], GreenOnly);
    assert [9.0, 12.0, 9.0, 12.0] == [9.0] + [12.0, 9.0, 12.0];
    assert [12.0, 9.0, 12.0][1..] == [9.0, 12.0];
    assert [9.0, 12.0][1..] == [12.0];
  }

  /** Prices 10, 10, 12 against green 11 ring green once. */
  lemma RingsOnceOnOneCrossing()
    ensures Feed(Fresh, [10.0, 10.0, 12.0], GreenOnly, true).chimes == [ChimeGreen]
  {
    FreshFeedIsEdgeDetection(10.0, [10.0, 12.0], GreenOnly);
    assert [10.0, 10.0, 12.0] == [10.0] + [10.0, 12.0];
    assert [10.0, 12.0][1..] == [12.0];
  }

  /**
   * Prices 10, 11, 11, 12 against green 11 ring green once: reaching the
   * level is a crossing, and sitting on it or moving further up is not.
   */
  lemma RingsOnceOnReachingLevel()
    ensures Feed(Fresh, [10.0, 11.0, 11.0, 12.0], GreenOnly, true).chimes == [ChimeGreen]
  {
    FreshFeedIsEdgeDetection(10.0, [11.0, 11.0, 12.0], GreenOnly);
    assert [10.0, 11.0, 11.0, 12.0] == [10.0] + [11.0, 11.0, 12.0];
    assert [11.0, 11.0, 12.0][1..] == [11.0, 12.0];
    assert [11.0, 12.0][1..] == [12.0];
  }

  /** The same four prices with the sound flag the handler captured at first render: no chime. */
  lemma CapturedFlagNeverRings()
    ensures Feed(Fresh, [9.0, 12.0, 9.0, 12.0], GreenOnly, false).chimes == []
  {
    SilentWhenSoundOff(Fresh, [9.0, 12.0, 9.0, 12.0], GreenOnly);
  }
}

=== FILE: dashboard.dfy ===
/**
 * The dashboard's ticker store as the page keeps it: the snapshot map, the
 * three per-symbol side tables, the sound flag, and the handlers that
 * update them in place. Played chimes are recorded in a ghost log.
 */
module Dashboard {
  import opened Wrappers
  import opened StockUI
  import opened TickerTypes
  import opened DashboardUtil
  import opened Chimes
  import opened DashboardSpec

  /** The value of `soundEnabled` in the render that subscribed the price handler. */
  const SoundAtFirstRender: bool := false

  /**
   * Select a broker for a snapshot (keeping one already selected, else the
   * default pick) and derive the position fields from it.
   */
  method ReconcileRow(t: Snapshot) returns (r: Snapshot)
    ensures r == Reconcile(t)
  {
    var selected := if t.uiSelectedBroker.Some? then t.uiSelectedBroker.value
                    else PickDefaultBroker(t, DefaultBroker);
    var derived := DerivePositionFields(t, selected);
    r := t.(uiSelectedBroker := Some(selected), avgBookCost := derived.avgBookCost,
            quantityHolding := derived.quantityHolding, totalReturn := Some(derived.totalReturn));
  }

  /** The fetched rows, each normalised, written into a fresh map in order. */
  method LoadMap(rows: seq<Snapshot>) returns (m: seq<Snapshot>)
    ensures m == LoadTickers(rows)
  {
    m := [];
    for i := 0 to |rows|
      invariant m == LoadTickers(rows[..i])
    {
      var entry := ReconcileRow(Normalize(rows[i]));
      assert rows[..i + 1][..i] == rows[..i] && rows[..i + 1][i] == rows[i];
      m := SetBySymbol(m, entry);
    }
    assert rows[..|rows|] == rows;
  }

  class TickerStore {
    /** `tickerMap`, in insertion order, keyed by symbol. */
    var tickers: seq<Snapshot>
    /** `lastPriceRef`. */
    var lastPrice: map<string, real>
    /** `initializedRef`: the symbols whose first numeric price has been seen. */
    var initialized: set<string>
    /** `chimeStateRef`. */
    var arms: map<string, Arms>
    var soundEnabled: bool
    /** Every `playChime` call, in order. */
    ghost var chimeLog: seq<ChimeKey>

    function State(): Store
      reads this
    {
      Store(tickers, lastPrice, initialized, arms)
    }

    /** One entry per symbol, each with its derived fields in step with its selected broker. */
    ghost predicate Valid()
      reads this
    {
      DistinctSymbols(tickers) && AllReconciled(tickers)
    }

    constructor()
      ensures State() == Store([], map[], {}, map[])
      ensures !soundEnabled && chimeLog == [] && Valid()
    {
      tickers := [];
      lastPrice := map[];
      initialized := {};
      arms := map[];
      soundEnabled := false;
      chimeLog := [];
    }

    /**
     * The initial fetch for a market and class: the fetched rows become the
     * new map. The side tables are kept as they are.
     */
    method Load(rows: seq<Snapshot>)
      modifies this
      ensures tickers == LoadTickers(rows) && Valid()
      ensures lastPrice == old(lastPrice) && initialized == old(initialized) && arms == old(arms)
      ensures soundEnabled == old(soundEnabled) && chimeLog == old(chimeLog)
    {
      var m := LoadMap(rows);
      tickers := m;
      assert Valid() by {
        LoadTickersValid(rows);
      }
    }

    /** The price handler, evaluating chimes when `sound` is on. */
    method ApplyPrice(u: PriceUpdate, sound: bool)
      requires Valid()
      modifies this
      ensures State() == PriceEvent(old(State()), u, sound).store
      ensures chimeLog == old(chimeLog) + PriceEvent(old(State()), u, sound).chimes
      ensures soundEnabled == old(soundEnabled) && Valid()
    {
      ghost var s0 := State();
      var found := FindSymbol(tickers, u.symbol);
      if found.None? {
        return;
      }
      var updated := ReconcileRow(PriceMerge(tickers[found.value], u));
      if updated.lastPrice.Some? {
        Track(updated.symbol, updated.lastPrice.value, LevelsOf(updated), sound);
      }
      tickers := tickers[found.value := updated];
      assert State() == PriceEvent(s0, u, sound).store;
      assert Valid() by {
        PriceEventKeepsValid(s0, u, sound);
      }
    }

    /**
     * The side-table half of the price handler for a numeric merged price:
     * the crossing rule runs when sound is on and the symbol has a previous
     * price from an earlier event; the symbol is then marked seen at `nextPrice`.
     */
    method Track(sym: string, nextPrice: real, lv: Levels, sound: bool)
      modifies this
      ensures var tr := TrackerOf(old(State()), sym);
        var o := TrackEvent(tr, nextPrice, lv, sound);
        initialized == old(initialized) + {sym} && lastPrice == old(lastPrice)[sym := nextPrice] &&
        arms == (if Evaluates(tr, sound) then old(arms)[sym := o.tracker.arms] else old(arms)) &&
        chimeLog == old(chimeLog) + o.chimes
      ensures tickers == old(tickers) && soundEnabled == old(soundEnabled)
    {
      ghost var tr := TrackerOf(State(), sym);
      var isInitialized := sym in initialized;
      if sound && isInitialized && sym in lastPrice {
        var prevPrice := lastPrice[sym];
        var st := if sym in arms then arms[sym] else Unarmed;
        assert Evaluates(tr, sound) && tr.last == Some(prevPrice) && tr.arms == st;
        st := RingSell(st, prevPrice, nextPrice, lv);
        st := RingBuy(st, prevPrice, nextPrice, lv);
        arms := arms[sym := st];
      }
      initialized := initialized + {sym};
      lastPrice := lastPrice[sym := nextPrice];
    }

    /** The sell half of the crossing rule on the arm flags `st`. */
    method RingSell(st: Arms, prevPrice: real, nextPrice: real, lv: Levels) returns (st': Arms)
      modifies this
      ensures st' == SellSide(st, prevPrice, nextPrice, lv).arms
      ensures chimeLog == old(chimeLog) + SellSide(st, prevPrice, nextPrice, lv).chimes
      ensures State() == old(State()) && soundEnabled == old(soundEnabled)
    {
      st' := st;
      // green takes precedence over cyan
      var crossedUpGreen := CrossesUp(prevPrice, nextPrice, lv.green) && !st'.green;
      var crossedUpCyan := CrossesUp(prevPrice, nextPrice, lv.cyan) && !st'.cyan;
      if crossedUpGreen {
        chimeLog := chimeLog + [ChimeGreen];
        st' := st'.(green := true, cyan := true);
      } else if crossedUpCyan {
        chimeLog := chimeLog + [ChimeCyan];
        st' := st'.(cyan := true);
      }
      // re-arm what the price has fallen back below
      if DropsBelow(nextPrice, lv.green) { st' := st'.(green := false); }
      if DropsBelow(nextPrice, lv.cyan) { st' := st'.(cyan := false); }
    }

    /** The buy half of the crossing rule on the arm flags `st`. */
    method RingBuy(st: Arms, prevPrice: real, nextPrice: real, lv: Levels) returns (st': Arms)
      modifies this
      ensures st' == BuySide(st, prevPrice, nextPrice, lv).arms
      ensures chimeLog == old(chimeLog) + BuySide(st, prevPrice, nextPrice, lv).chimes
      ensures State() == old(State()) && soundEnabled == old(soundEnabled)
    {
      st' := st;
      // red takes precedence over orange
      var crossedDownRed := CrossesDown(prevPrice, nextPrice, lv.red) && !st'.red;
      var crossedDownOrange := CrossesDown(prevPrice, nextPrice, lv.orange) && !st'.orange;
      if crossedDownRed {
        chimeLog := chimeLog + [ChimeRed];
        st' := st'.(red := true, orange := true);
      } else if crossedDownOrange {
        chimeLog := chimeLog + [ChimeOrange];
        st' := st'.(orange := true);
      }
      // re-arm what the price has recovered back above
      if RisesAbove(nextPrice, lv.red) { st' := st'.(red := false); }
      if RisesAbove(nextPrice, lv.orange) { st' := st'.(orange := false); }
    }

    /**
     * `onPriceUpdate` as subscribed: the handler closes over the sound flag
     * of the first render, so it never plays a chime.
     */
    method OnPriceUpdateAsWritten(u: PriceUpdate)
      requires Valid()
      modifies this
      ensures State() == PriceEvent(old(State()), u, SoundAtFirstRender).store
      ensures chimeLog == old(chimeLog)
      ensures soundEnabled == old(soundEnabled) && Valid()
    {
      ApplyPrice(u, SoundAtFirstRender);
    }

    /** `onPriceUpdate` reading the current sound flag. */
    method OnPriceUpdate(u: PriceUpdate)
      requires Valid()
      modifies this
      ensures State() == PriceEvent(old(State()), u, old(soundEnabled)).store
      ensures chimeLog == old(chimeLog) + PriceEvent(old(State()), u, old(soundEnabled)).chimes
      ensures soundEnabled == old(soundEnabled) && Valid()
    {
      ApplyPrice(u, soundEnabled);
    }

    /** `onTrade`: patch one broker's position and recompute the derived fields. */
    method OnTrade(m: TradeMsg)
      requires Valid()
      modifies this
      ensures tickers == TradeEvent(old(tickers), m) && Valid()
      ensures lastPrice == old(lastPrice) && initialized == old(initialized) && arms == old(arms)
      ensures soundEnabled == old(soundEnabled) && chimeLog == old(chimeLog)
    {
      TradeKeepsValid(tickers, m);
      var found := FindSymbol(tickers, m.symbol);
      if found.None? {
        return;
      }
      var existing := tickers[found.value];
      var broker := m.patch.broker;
      var prevPos := existing.positionsByBroker;
      var prevSnap := Lookup(prevPos, broker).GetOr(EmptyPosition);
      var nextSnap := ApplyPatch(prevSnap, m.patch);
      var updated := existing.(positionsByBroker := Put(prevPos, broker, nextSnap));
      var selected := SelectedBroker(updated);
      var derived := DerivePositionFields(updated, selected);
      updated := updated.(uiSelectedBroker := Some(selected), avgBookCost := derived.avgBookCost,
                          quantityHolding := derived.quantityHolding, totalReturn := Some(derived.totalReturn));
      tickers := tickers[found.value := updated];
    }

    /** `onSelectBroker`: make `broker` the selection and derive from it. */
    method OnSelectBroker(sym: string, broker: BrokerId)
      requires Valid()
      modifies this
      ensures tickers == SelectEvent(old(tickers), sym, broker) && Valid()
      ensures lastPrice == old(lastPrice) && initialized == old(initialized) && arms == old(arms)
      ensures soundEnabled == old(soundEnabled) && chimeLog == old(chimeLog)
    {
      SelectKeepsValid(tickers, sym, broker);
      var found := FindSymbol(tickers, sym);
      if found.None? {
        return;
      }
      var existing := tickers[found.value];
      var derived := DerivePositionFields(existing, broker);
      var updated := existing.(uiSelectedBroker := Some(broker), avgBookCost := derived.avgBookCost,
                               quantityHolding := derived.quantityHolding, totalReturn := Some(derived.totalReturn));
      tickers := tickers[found.value := updated];
    }

    /**
     * `toggleSound`: turning off always succeeds; turning on needs the audio
     * unlock to succeed and then plays a cyan confirmation chime.
     */
    method ToggleSound(unlocked: bool)
      modifies this
      ensures old(soundEnabled) ==> !soundEnabled && chimeLog == old(chimeLog)
      ensures !old(soundEnabled) && unlocked ==> soundEnabled && chimeLog == old(chimeLog) + [ChimeCyan]
      ensures !old(soundEnabled) && !unlocked ==> !soundEnabled && chimeLog == old(chimeLog)
      ensures State() == old(State())
    {
      if soundEnabled {
        soundEnabled := false;
        return;
      }
      if unlocked {
        soundEnabled := true;
        chimeLog := chimeLog + [ChimeCyan];
      }
    }

    /**
     * The optimistic half of `onChangeThreshold`: write the value into the
     * first snapshot with that id and return the value it replaced.
     */
    method ApplyOptimistic(id: string, key: ThresholdKey, value: real) returns (previous: Option<real>)
      requires Valid()
      modifies this
      ensures previous == ThresholdById(old(tickers), id, key)
      ensures tickers == SetThresholdById(old(tickers), id, key, Some(value)) && Valid()
      ensures lastPrice == old(lastPrice) && initialized == old(initialized) && arms == old(arms)
      ensures soundEnabled == old(soundEnabled) && chimeLog == old(chimeLog)
    {
      previous := None;
      var i := 0;
      while i < |tickers|
        invariant 0 <= i <= |tickers| && tickers == old(tickers)
        invariant forall j :: 0 <= j < i ==> tickers[j].id != id
      {
        if tickers[i].id == id {
          FindIdAt(tickers, id, i);
          SetThresholdKeepsValid(tickers, id, key, Some(value));
          previous := Threshold(tickers[i], key);
          tickers := tickers[i := WithThreshold(tickers[i], key, Some(value))];
          return;
        }
        i := i + 1;
      }
    }

    /** The rollback half: put `previous` back into the first snapshot with that id. */
    method Rollback(id: string, key: ThresholdKey, previous: Option<real>)
      requires Valid()
      modifies this
      ensures tickers == SetThresholdById(old(tickers), id, key, previous) && Valid()
      ensures lastPrice == old(lastPrice) && initialized == old(initialized) && arms == old(arms)
      ensures soundEnabled == old(soundEnabled) && chimeLog == old(chimeLog)
    {
      var i := 0;
      while i < |tickers|
        invariant 0 <= i <= |tickers| && tickers == old(tickers)
        invariant forall j :: 0 <= j < i ==> tickers[j].id != id
      {
        if tickers[i].id == id {
          FindIdAt(tickers, id, i);
          SetThresholdKeepsValid(tickers, id, key, previous);
          tickers := tickers[i := WithThreshold(tickers[i], key, previous)];
          return;
        }
        i := i + 1;
      }
    }
  }

  /** A failed save right after the optimistic write leaves the store as it was: the map, the refs, the sound flag and the chime log. */
  method SaveFailsRightAway(store: TickerStore, id: string, key: ThresholdKey, value: real)
    requires store.Valid()
    modifies store
    ensures store.tickers == old(store.tickers) && store.Valid()
    ensures store.lastPrice == old(store.lastPrice) && store.initialized == old(store.initialized)
    ensures store.arms == old(store.arms) && store.soundEnabled == old(store.soundEnabled)
    ensures store.chimeLog == old(store.chimeLog)
  {
    var previous := store.ApplyOptimistic(id, key, value);
    store.Rollback(id, key, previous);
    RollbackRestores(old(store.tickers), id, key, value);
  }
}

=== FILE: dashboard_store.dfy ===
/**
 * The dashboard's ticker state: pure definitions of what each event does
 * to the snapshot map and the per-symbol side tables, and the projections
 * the page renders from them.
 */
module DashboardSpec {
  import opened Wrappers
  import opened StockUI
  import opened TickerTypes
  import opened DashboardUtil
  import opened TickerSorting
  import opened Sequences
  import opened Chimes
  import TickerFilter

  /** `toIso`: a missing or empty timestamp becomes null; any other is kept. */
  function ToIso(v: Option<string>): (r: Option<string>)
    ensures r.None? <==> v.None? || v.value == []
    ensures r.Some? ==> r == v
  {
    if v.None? || v.value == [] then None else v
  }

  /** The selected broker: the snapshot's own choice, else the default pick. */
  function SelectedBroker(t: Snapshot): BrokerId
  {
    if t.uiSelectedBroker.Some? then t.uiSelectedBroker.value else PickDefaultBroker(t, DefaultBroker)
  }

  /** The derived fields agree with the selected broker's position. */
  predicate Reconciled(t: Snapshot)
  {
    t.uiSelectedBroker.Some? &&
    var d := DerivePositionFields(t, t.uiSelectedBroker.value);
    t.avgBookCost == d.avgBookCost && t.quantityHolding == d.quantityHolding && t.totalReturn == Some(d.totalReturn)
  }

  /** `a` and `b` differ at most in the selection and the three derived fields. */
  predicate SameExceptDerived(a: Snapshot, b: Snapshot)
  {
    a.(uiSelectedBroker := b.uiSelectedBroker, avgBookCost := b.avgBookCost,
       quantityHolding := b.quantityHolding, totalReturn := b.totalReturn) == b
  }

  /**
   * Fix the selection (keeping one already made) and recompute the derived
   * fields from it.
   */
  function Reconcile(t: Snapshot): (r: Snapshot)
    ensures Reconciled(r) && SameExceptDerived(t, r)
    ensures t.uiSelectedBroker.Some? ==> r.uiSelectedBroker == t.uiSelectedBroker
    ensures t.uiSelectedBroker.None? ==> r.uiSelectedBroker == Some(PickDefaultBroker(t, DefaultBroker))
  {
    var selected := SelectedBroker(t);
    var d := DerivePositionFields(t, selected);
    var r := t.(uiSelectedBroker := Some(selected), avgBookCost := d.avgBookCost,
                quantityHolding := d.quantityHolding, totalReturn := Some(d.totalReturn));
    DeriveIsLocal(t, r, selected);
    r
  }

  /** A reconciled snapshot is left as it is. */
  lemma ReconcileIdempotent(t: Snapshot)
    requires Reconciled(t)
    ensures Reconcile(t) == t
  {
  }

  /** Normalisation of one fetched row. */
  function Normalize(raw: Snapshot): Snapshot
  {
    raw.(updateDatetime := ToIso(raw.updateDatetime), tradeDatetime := ToIso(raw.tradeDatetime))
  }

  /** The partial merge of a price event into an existing snapshot. */
  function PriceMerge(e: Snapshot, u: PriceUpdate): Snapshot
  {
    e.(lastPrice := u.last.OrElse(e.lastPrice), bidPrice := u.bid.OrElse(e.bidPrice),
       askPrice := u.ask.OrElse(e.askPrice), volume := u.volume.OrElse(e.volume),
       updateDatetime := ToIso(u.tradeDatetime), tradeDatetime := ToIso(u.tradeDatetime),
       symbolId := u.symbolId.OrElse(e.symbolId))
  }

  /**
   * Each price field takes the event's value when it has one and keeps the
   * old one otherwise; both timestamps always come from the event; the
   * identity, positions and thresholds are untouched.
   */
  lemma PriceMergeFields(e: Snapshot, u: PriceUpdate)
    ensures var r := PriceMerge(e, u);
      && r.lastPrice == (if u.last.Some? then u.last else e.lastPrice)
      && r.bidPrice == (if u.bid.Some? then u.bid else e.bidPrice)
      && r.askPrice == (if u.ask.Some? then u.ask else e.askPrice)
      && r.volume == (if u.volume.Some? then u.volume else e.volume)
      && r.symbolId == (if u.symbolId.Some? then u.symbolId else e.symbolId)
      && r.updateDatetime == ToIso(u.tradeDatetime) && r.tradeDatetime == ToIso(u.tradeDatetime)
      && r.(lastPrice := e.lastPrice, bidPrice := e.bidPrice, askPrice := e.askPrice, volume := e.volume,
            symbolId := e.symbolId, updateDatetime := e.updateDatetime, tradeDatetime := e.tradeDatetime) == e
  {
  }

  /** One field of a trade patch: `undefined` keeps, `null` clears, a number sets. */
  function PatchField(current: Option<real>, pv: PatchValue): (r: Option<real>)
    ensures pv.Undefined? ==> r == current
    ensures pv.Null? ==> r.None?
    ensures pv.Value? ==> r == Some(pv.v)
  {
    match pv
    case Undefined => current
    case Null => None
    case Value(v) => Some(v)
  }

  function ApplyPatch(pos: BrokerPosition, p: TradePatch): BrokerPosition
  {
    BrokerPosition(PatchField(pos.avgBookCost, p.avgBookCost), PatchField(pos.quantityHolding, p.quantityHolding))
  }

  /**
   * A trade event applied to an existing snapshot: only the patched broker's
   * position, the selection (when there was none) and the derived fields change.
   */
  function TradeUpdate(e: Snapshot, p: TradePatch): (r: Snapshot)
    ensures Reconciled(r)
    ensures SameExceptDerived(e.(positionsByBroker := r.positionsByBroker), r)
    ensures Lookup(r.positionsByBroker, p.broker) ==
              Some(ApplyPatch(Lookup(e.positionsByBroker, p.broker).GetOr(EmptyPosition), p))
    ensures forall b :: b != p.broker ==> Lookup(r.positionsByBroker, b) == Lookup(e.positionsByBroker, b)
    ensures Brokers(r.positionsByBroker) ==
              if p.broker in Brokers(e.positionsByBroker) then Brokers(e.positionsByBroker)
              else Brokers(e.positionsByBroker) + [p.broker]
    ensures e.uiSelectedBroker.Some? ==> r.uiSelectedBroker == e.uiSelectedBroker
    ensures e.uiSelectedBroker.None? ==>
              r.uiSelectedBroker == Some(PickDefaultBroker(e.(positionsByBroker := r.positionsByBroker), DefaultBroker))
  {
    var prevSnap := Lookup(e.positionsByBroker, p.broker).GetOr(EmptyPosition);
    var positions := Put(e.positionsByBroker, p.broker, ApplyPatch(prevSnap, p));
    PutLookup(e.positionsByBroker, p.broker, ApplyPatch(prevSnap, p));
    PutBrokers(e.positionsByBroker, p.broker, ApplyPatch(prevSnap, p));
    Reconcile(e.(positionsByBroker := positions))
  }

  /** Broker reselection on an existing snapshot. */
  function SelectBroker(e: Snapshot, broker: BrokerId): (r: Snapshot)
    ensures Reconciled(r) && r.uiSelectedBroker == Some(broker)
    ensures SameExceptDerived(e, r)
  {
    var d := DerivePositionFields(e, broker);
    var r := e.(uiSelectedBroker := Some(broker), avgBookCost := d.avgBookCost,
                quantityHolding := d.quantityHolding, totalReturn := Some(d.totalReturn));
    DeriveIsLocal(e, r, broker);
    r
  }

  /** The position of the entry for `sym` in the insertion-ordered map. */
  function FindSymbol(ts: seq<Snapshot>, sym: string): (r: Option<nat>)
    ensures r.Some? ==> r.value < |ts| && ts[r.value].symbol == sym
    ensures r.None? <==> forall i :: 0 <= i < |ts| ==> ts[i].symbol != sym
  {
    if ts == [] then None
    else if ts[0].symbol == sym then Some(0)
    else
      match FindSymbol(ts[1..], sym)
      case None => None
      case Some(i) => Some(i + 1)
  }

  /** The map has one entry per symbol. */
  predicate DistinctSymbols(ts: seq<Snapshot>)
  {
    forall i, j :: 0 <= i < j < |ts| ==> ts[i].symbol != ts[j].symbol
  }

  predicate AllReconciled(ts: seq<Snapshot>)
  {
    forall i :: 0 <= i < |ts| ==> Reconciled(ts[i])
  }

  /** `map.set(t.symbol, t)`: replace in place, or append a new key. */
  function SetBySymbol(ts: seq<Snapshot>, t: Snapshot): (r: seq<Snapshot>)
    ensures |r| == |ts| || |r| == |ts| + 1
    ensures DistinctSymbols(ts) ==> DistinctSymbols(r)
    ensures AllReconciled(ts) && Reconciled(t) ==> AllReconciled(r)
    ensures FindSymbol(r, t.symbol).Some? && r[FindSymbol(r, t.symbol).value] == t
    ensures forall s :: s != t.symbol ==> FindSymbol(r, s) == FindSymbol(ts, s)
    ensures forall i :: 0 <= i < |ts| && ts[i].symbol != t.symbol ==> ts[i] == r[i]
  {
    match FindSymbol(ts, t.symbol)
    case Some(i) =>
      var r := ts[i := t];
      FindAfterWrite(ts, i, t);
      r
    case None =>
      var r := ts + [t];
      FindAfterAppend(ts, t);
      r
  }

  lemma {:induction false} FindAfterWrite(ts: seq<Snapshot>, i: nat, t: Snapshot)
    requires i < |ts| && ts[i].symbol == t.symbol
    ensures forall s :: FindSymbol(ts[i := t], s) == FindSymbol(ts, s)
  {
    if ts != [] && i > 0 {
      FindAfterWrite(ts[1..], i - 1, t);
      assert ts[i := t][1..] == ts[1..][i - 1 := t];
    }
  }

  lemma {:induction false} FindAfterAppend(ts: seq<Snapshot>, t: Snapshot)
    requires FindSymbol(ts, t.symbol).None?
    ensures FindSymbol(ts + [t], t.symbol) == Some(|ts|)
    ensures forall s :: s != t.symbol ==> FindSymbol(ts + [t], s) == FindSymbol(ts, s)
  {
    if ts != [] {
      FindAfterAppend(ts[1..], t);
      assert (ts + [t])[1..] == ts[1..] + [t];
    }
  }

  /** The index of the last row carrying `sym`, if any. */
  function LastRowOf(rows: seq<Snapshot>, sym: string): (r: Option<nat>)
    ensures r.None? <==> forall i :: 0 <= i < |rows| ==> rows[i].symbol != sym
    ensures r.Some? ==>
      r.value < |rows| && rows[r.value].symbol == sym &&
      forall j :: r.value < j < |rows| ==> rows[j].symbol != sym
    decreases |rows|
  {
    if rows == [] then None
    else if rows[|rows| - 1].symbol == sym then Some(|rows| - 1)
    else
      var prefix := rows[..|rows| - 1];
      var r := LastRowOf(prefix, sym);
      assert forall i :: 0 <= i < |prefix| ==> prefix[i] == rows[i];
      r
  }

  /**
   * `r` holds exactly the symbols of `rows`, each with the reconciled,
   * normalised copy of the last row carrying it.
   */
  ghost predicate HoldsLastRows(rows: seq<Snapshot>, r: seq<Snapshot>)
  {
    (forall sym :: FindSymbol(r, sym).None? <==> LastRowOf(rows, sym).None?) &&
    forall sym :: LastRowOf(rows, sym).Some? ==>
      FindSymbol(r, sym).Some? && r[FindSymbol(r, sym).value] == Reconcile(Normalize(rows[LastRowOf(rows, sym).value]))
  }

  /** The snapshot map built by the initial fetch, row by row. */
  function LoadTickers(rows: seq<Snapshot>): (r: seq<Snapshot>)
    ensures |r| <= |rows|
    decreases |rows|
  {
    if rows == [] then []
    else SetBySymbol(LoadTickers(rows[..|rows| - 1]), Reconcile(Normalize(rows[|rows| - 1])))
  }

  /** The last row of each symbol wins: the loaded map holds exactly the rows' symbols, each with its last row. */
  lemma {:induction false} LoadTickersLastRows(rows: seq<Snapshot>)
    ensures HoldsLastRows(rows, LoadTickers(rows))
    decreases |rows|
  {
    if rows != [] {
      var prefix := rows[..|rows| - 1];
      LoadTickersLastRows(prefix);
      LoadStep(rows, LoadTickers(prefix), LoadTickers(rows));
    }
  }

  /** Setting the last row on the map of the other rows gives the map of all of them. */
  lemma LoadStep(rows: seq<Snapshot>, r0: seq<Snapshot>, r: seq<Snapshot>)
    requires rows != [] && HoldsLastRows(rows[..|rows| - 1], r0)
    requires r == SetBySymbol(r0, Reconcile(Normalize(rows[|rows| - 1])))
    ensures HoldsLastRows(rows, r)
  {
    var prefix := rows[..|rows| - 1];
    var t := Reconcile(Normalize(rows[|rows| - 1]));
    assert t.symbol == rows[|rows| - 1].symbol;
    forall sym
      ensures FindSymbol(r, sym).None? <==> LastRowOf(rows, sym).None?
      ensures LastRowOf(rows, sym).Some? ==>
        FindSymbol(r, sym).Some? && r[FindSymbol(r, sym).value] == Reconcile(Normalize(rows[LastRowOf(rows, sym).value]))
    {
      if sym == t.symbol {
        assert LastRowOf(rows, sym) == Some(|rows| - 1);
      } else {
        assert LastRowOf(rows, sym) == LastRowOf(prefix, sym);
        assert FindSymbol(r, sym) == FindSymbol(r0, sym);
        if LastRowOf(prefix, sym).Some? {
          var k := FindSymbol(r0, sym).value;
          assert r0[k].symbol == sym;
          assert r[k] == r0[k];
          assert rows[LastRowOf(prefix, sym).value] == prefix[LastRowOf(prefix, sym).value];
        }
      }
    }
  }

  /** The loaded map has one reconciled entry per symbol, and every row's symbol is in it. */
  lemma {:induction false} LoadTickersValid(rows: seq<Snapshot>)
    ensures var r := LoadTickers(rows);
      DistinctSymbols(r) && AllReconciled(r) &&
      forall i :: 0 <= i < |rows| ==> FindSymbol(r, rows[i].symbol).Some?
    decreases |rows|
  {
    if rows != [] {
      var prefix := rows[..|rows| - 1];
      LoadTickersValid(prefix);
      var r0 := LoadTickers(prefix);
      var t := Reconcile(Normalize(rows[|rows| - 1]));
      assert t.symbol == rows[|rows| - 1].symbol;
      var r := SetBySymbol(r0, t);
      assert r == LoadTickers(rows);
      forall i | 0 <= i < |rows| ensures FindSymbol(r, rows[i].symbol).Some? {
        if i < |rows| - 1 && rows[i].symbol != t.symbol {
          assert rows[i] == prefix[i];
          assert FindSymbol(r, rows[i].symbol) == FindSymbol(r0, rows[i].symbol);
        }
      }
    }
  }

  /** A row that no later row shares its symbol with is the one the map keeps for that symbol. */
  lemma LoadLastRowWins(rows: seq<Snapshot>, j: nat)
    requires j < |rows| && forall k :: j < k < |rows| ==> rows[k].symbol != rows[j].symbol
    ensures var r := LoadTickers(rows);
      FindSymbol(r, rows[j].symbol).Some? &&
      r[FindSymbol(r, rows[j].symbol).value] == Reconcile(Normalize(rows[j]))
  {
    LoadTickersLastRows(rows);
    var last := LastRowOf(rows, rows[j].symbol);
    assert last.Some?;
    assert last.value == j;
  }

  /** The snapshot map and the three per-symbol side tables. */
  datatype Store = Store(
    tickers: seq<Snapshot>,
    lastPrice: map<string, real>,
    initialized: set<string>,
    arms: map<string, Arms>)

  /** The side tables of one symbol; missing entries read as "never seen" and unarmed. */
  function TrackerOf(s: Store, sym: string): Tracker
  {
    Tracker(sym in s.initialized,
            if sym in s.lastPrice then Some(s.lastPrice[sym]) else None,
            if sym in s.arms then s.arms[sym] else Unarmed)
  }

  datatype Outcome = Outcome(store: Store, chimes: seq<ChimeKey>)

  /** What a price event does to the store and which chimes it plays. */
  function PriceEvent(s: Store, u: PriceUpdate, sound: bool): Outcome
  {
    match FindSymbol(s.tickers, u.symbol)
    case None => Outcome(s, [])
    case Some(i) =>
      var updated := Reconcile(PriceMerge(s.tickers[i], u));
      var tickers := s.tickers[i := updated];
      if updated.lastPrice.None? then Outcome(s.(tickers := tickers), [])
      else
        var sym := updated.symbol;
        var next := updated.lastPrice.value;
        var tr := TrackerOf(s, sym);
        var o := TrackEvent(tr, next, LevelsOf(updated), sound);
        var arms := if Evaluates(tr, sound) then s.arms[sym := o.tracker.arms] else s.arms;
        Outcome(Store(tickers, s.lastPrice[sym := next], s.initialized + {sym}, arms), o.chimes)
  }

  /** A price event for a symbol not in the map changes nothing and plays nothing. */
  lemma PriceEventUnknownSymbol(s: Store, u: PriceUpdate, sound: bool)
    requires FindSymbol(s.tickers, u.symbol).None?
    ensures PriceEvent(s, u, sound) == Outcome(s, [])
  {
  }

  /**
   * A price event replaces only its own symbol's snapshot, by the merged and
   * reconciled one, and keeps an existing broker selection.
   */
  lemma PriceEventSnapshot(s: Store, u: PriceUpdate, sound: bool)
    requires FindSymbol(s.tickers, u.symbol).Some?
    ensures var i := FindSymbol(s.tickers, u.symbol).value;
      var r := PriceEvent(s, u, sound).store;
      && r.tickers == s.tickers[i := Reconcile(PriceMerge(s.tickers[i], u))]
      && Reconciled(r.tickers[i])
      && (s.tickers[i].uiSelectedBroker.Some? ==> r.tickers[i].uiSelectedBroker == s.tickers[i].uiSelectedBroker)
  {
  }

  /**
   * The side tables of the event's symbol advance by one tracked event
   * whenever the merged price is numeric, and are untouched otherwise;
   * other symbols' tables never change.
   */
  lemma PriceEventTrackers(s: Store, u: PriceUpdate, sound: bool, other: string)
    requires other != u.symbol
    ensures TrackerOf(PriceEvent(s, u, sound).store, other) == TrackerOf(s, other)
    ensures var fi := FindSymbol(s.tickers, u.symbol);
      var o := PriceEvent(s, u, sound);
      fi.Some? && PriceMerge(s.tickers[fi.value], u).lastPrice.Some? ==>
        var next := PriceMerge(s.tickers[fi.value], u).lastPrice.value;
        var levels := LevelsOf(s.tickers[fi.value]);
        TrackerOf(o.store, u.symbol) == TrackEvent(TrackerOf(s, u.symbol), next, levels, sound).tracker &&
        o.chimes == TrackEvent(TrackerOf(s, u.symbol), next, levels, sound).chimes
    ensures var fi := FindSymbol(s.tickers, u.symbol);
      fi.None? || PriceMerge(s.tickers[fi.value], u).lastPrice.None? ==>
        TrackerOf(PriceEvent(s, u, sound).store, u.symbol) == TrackerOf(s, u.symbol) &&
        PriceEvent(s, u, sound).chimes == []
  {
  }

  /** What a trade event does to the snapshot map. */
  function TradeEvent(ts: seq<Snapshot>, m: TradeMsg): (r: seq<Snapshot>)
    ensures |r| == |ts|
    ensures FindSymbol(ts, m.symbol).None? ==> r == ts
    ensures FindSymbol(ts, m.symbol).Some? ==>
              var i := FindSymbol(ts, m.symbol).value;
              r == ts[i := TradeUpdate(ts[i], m.patch)]
  {
    match FindSymbol(ts, m.symbol)
    case None => ts
    case Some(i) => ts[i := TradeUpdate(ts[i], m.patch)]
  }

  /** What broker reselection does to the snapshot map. */
  function SelectEvent(ts: seq<Snapshot>, sym: string, broker: BrokerId): (r: seq<Snapshot>)
    ensures |r| == |ts|
    ensures FindSymbol(ts, sym).None? ==> r == ts
    ensures FindSymbol(ts, sym).Some? ==>
              var i := FindSymbol(ts, sym).value;
              r == ts[i := SelectBroker(ts[i], broker)]
  {
    match FindSymbol(ts, sym)
    case None => ts
    case Some(i) => ts[i := SelectBroker(ts[i], broker)]
  }

  /** Replacing a snapshot by a reconciled one with the same symbol keeps the map valid. */
  lemma WriteKeepsValid(ts: seq<Snapshot>, i: nat, t: Snapshot)
    requires i < |ts| && ts[i].symbol == t.symbol && Reconciled(t)
    requires DistinctSymbols(ts) && AllReconciled(ts)
    ensures DistinctSymbols(ts[i := t]) && AllReconciled(ts[i := t])
  {
  }

  /** Price events keep one entry per symbol, all reconciled. */
  lemma PriceEventKeepsValid(s: Store, u: PriceUpdate, sound: bool)
    requires DistinctSymbols(s.tickers) && AllReconciled(s.tickers)
    ensures DistinctSymbols(PriceEvent(s, u, sound).store.tickers) && AllReconciled(PriceEvent(s, u, sound).store.tickers)
  {
    match FindSymbol(s.tickers, u.symbol)
    case None =>
    case Some(i) => WriteKeepsValid(s.tickers, i, Reconcile(PriceMerge(s.tickers[i], u)));
  }

  /** Trade events keep one entry per symbol, all reconciled. */
  lemma TradeKeepsValid(ts: seq<Snapshot>, m: TradeMsg)
    requires DistinctSymbols(ts) && AllReconciled(ts)
    ensures DistinctSymbols(TradeEvent(ts, m)) && AllReconciled(TradeEvent(ts, m))
  {
    match FindSymbol(ts, m.symbol)
    case None =>
    case Some(i) => WriteKeepsValid(ts, i, TradeUpdate(ts[i], m.patch));
  }

  /** Broker-selection events keep one entry per symbol, all reconciled. */
  lemma SelectKeepsValid(ts: seq<Snapshot>, sym: string, broker: BrokerId)
    requires DistinctSymbols(ts) && AllReconciled(ts)
    ensures DistinctSymbols(SelectEvent(ts, sym, broker)) && AllReconciled(SelectEvent(ts, sym, broker))
  {
    match FindSymbol(ts, sym)
    case None =>
    case Some(i) => WriteKeepsValid(ts, i, SelectBroker(ts[i], broker));
  }

  /** The first snapshot, in map order, whose id is `id`. */
  function FindId(ts: seq<Snapshot>, id: string): (r: Option<nat>)
    ensures r.Some? ==> r.value < |ts| && ts[r.value].id == id &&
                        forall j :: 0 <= j < r.value ==> ts[j].id != id
    ensures r.None? <==> forall j :: 0 <= j < |ts| ==> ts[j].id != id
  {
    if ts == [] then None
    else if ts[0].id == id then Some(0)
    else
      match FindId(ts[1..], id)
      case None => None
      case Some(i) => Some(i + 1)
  }

  /** Write threshold `key` of the first snapshot with id `id`. */
  function SetThresholdById(ts: seq<Snapshot>, id: string, key: ThresholdKey, v: Option<real>): (r: seq<Snapshot>)
    ensures |r| == |ts|
    ensures forall j :: 0 <= j < |ts| && Some(j) != FindId(ts, id) ==> r[j] == ts[j]
    ensures FindId(ts, id).Some? ==> r[FindId(ts, id).value] == WithThreshold(ts[FindId(ts, id).value], key, v)
  {
    match FindId(ts, id)
    case None => ts
    case Some(i) => ts[i := WithThreshold(ts[i], key, v)]
  }

  /** The first index with the id is the one a left-to-right scan stops at. */
  lemma FindIdAt(ts: seq<Snapshot>, id: string, i: nat)
    requires i < |ts| && ts[i].id == id
    requires forall j :: 0 <= j < i ==> ts[j].id != id
    ensures FindId(ts, id) == Some(i)
  {
  }

  /** Threshold writes keep the map valid: thresholds are not among the derivation's inputs. */
  lemma SetThresholdKeepsValid(ts: seq<Snapshot>, id: string, key: ThresholdKey, v: Option<real>)
    requires DistinctSymbols(ts) && AllReconciled(ts)
    ensures DistinctSymbols(SetThresholdById(ts, id, key, v)) && AllReconciled(SetThresholdById(ts, id, key, v))
  {
    match FindId(ts, id)
    case None =>
    case Some(i) =>
      var t := ts[i];
      var w := WithThreshold(t, key, v);
      assert w.symbol == t.symbol && w.positionsByBroker == t.positionsByBroker && w.lastPrice == t.lastPrice;
      DeriveIsLocal(t, w, t.uiSelectedBroker.value);
      WriteKeepsValid(ts, i, w);
  }

  /** The value `previous` captures: the key's value on the first match, or nothing. */
  function ThresholdById(ts: seq<Snapshot>, id: string, key: ThresholdKey): Option<real>
  {
    match FindId(ts, id)
    case None => None
    case Some(i) => Threshold(ts[i], key)
  }

  /** Rolling back right after the optimistic write restores the map exactly. */
  lemma RollbackRestores(ts: seq<Snapshot>, id: string, key: ThresholdKey, v: real)
    ensures SetThresholdById(SetThresholdById(ts, id, key, Some(v)), id, key, ThresholdById(ts, id, key)) == ts
  {
    var written := SetThresholdById(ts, id, key, Some(v));
    match FindId(ts, id)
    case None =>
    case Some(i) =>
      assert FindId(written, id) == Some(i) by {
        assert forall j :: 0 <= j < |written| ==> written[j].id == ts[j].id;
      }
      var t := ts[i];
      var back := WithThreshold(WithThreshold(t, key, Some(v)), key, Threshold(t, key));
      assert back == t by {
        forall k ensures Threshold(back, k) == Threshold(t, k) {}
        assert Threshold(back, ThresholdGreen) == t.thresholdGreen;
        assert Threshold(back, ThresholdCyan) == t.thresholdCyan;
        assert Threshold(back, ThresholdOrange) == t.thresholdOrange;
        assert Threshold(back, ThresholdRed) == t.thresholdRed;
      }
      assert written[i := back] == ts;
  }

  /**
   * A rollback after other events only resets the one key: every other
   * field of every snapshot keeps what those events made of it.
   */
  lemma RollbackTouchesOnlyTheKey(ts: seq<Snapshot>, id: string, key: ThresholdKey, previous: Option<real>)
    ensures var r := SetThresholdById(ts, id, key, previous);
      forall j :: 0 <= j < |ts| ==>
        (forall k :: k != key ==> Threshold(r[j], k) == Threshold(ts[j], k)) &&
        WithThreshold(r[j], key, Threshold(ts[j], key)) == ts[j]
  {
    var r := SetThresholdById(ts, id, key, previous);
    forall j | 0 <= j < |ts|
      ensures WithThreshold(r[j], key, Threshold(ts[j], key)) == ts[j]
    {
      var back := WithThreshold(r[j], key, Threshold(ts[j], key));
      assert Threshold(back, ThresholdGreen) == ts[j].thresholdGreen;
      assert Threshold(back, ThresholdCyan) == ts[j].thresholdCyan;
      assert Threshold(back, ThresholdOrange) == ts[j].thresholdOrange;
      assert Threshold(back, ThresholdRed) == ts[j].thresholdRed;
    }
  }

  /** The dashboard's filter state. */
  datatype DashboardFilters = DashboardFilters(
    market: TickerFilter.MarketChoice,
    stockClass: TickerFilter.ClassChoice,
    symbols: seq<string>,
    sortBy: SortBy)

  /** `onFiltersChange`: a new market or class clears the symbol allow-list. */
  function FiltersChange(current: DashboardFilters, next: DashboardFilters): (r: DashboardFilters)
    ensures next.market != current.market || next.stockClass != current.stockClass ==> r == next.(symbols := [])
    ensures next.market == current.market && next.stockClass == current.stockClass ==> r == next
  {
    if next.market != current.market || next.stockClass != current.stockClass then next.(symbols := []) else next
  }

  /** `toggleSilenced`: flip one ticker's flag. */
  function ToggleSilenced(silenced: map<string, bool>, id: string): (r: map<string, bool>)
    ensures IsSilenced(r, id) == !IsSilenced(silenced, id)
    ensures forall other :: other != id ==> IsSilenced(r, other) == IsSilenced(silenced, other)
  {
    silenced[id := !IsSilenced(silenced, id)]
  }

  /** Toggling twice restores every flag. */
  lemma ToggleTwice(silenced: map<string, bool>, id: string, x: string)
    ensures IsSilenced(ToggleSilenced(ToggleSilenced(silenced, id), id), x) == IsSilenced(silenced, x)
  {
  }

  /**
   * `visibleTickers`: the tickers the filter keeps, sorted by the chosen
   * mode. `keep` is the filter's verdict on one ticker.
   */
  function VisibleTickers(ts: seq<Snapshot>, keep: Snapshot -> bool, sortBy: SortBy, silenced: map<string, bool>): (r: seq<Snapshot>)
    ensures SortedBy(r, Comparator(sortBy, silenced))
    ensures multiset(r) == multiset(Filter(ts, keep))
    ensures forall i :: 0 <= i < |r| ==> keep(r[i]) && r[i] in ts
    ensures forall t :: t in ts && keep(t) ==> t in r
  {
    var kept := Filter(ts, keep);
    var r := Sort(kept, Comparator(sortBy, silenced));
    SortByModeSorted(kept, sortBy, silenced);
    SortFilterMembers(ts, keep, Comparator(sortBy, silenced));
    r
  }

  /** Whether a ticker shows in the favorable panel. */
  predicate FavorableIn(silenced: map<string, bool>, t: Snapshot)
  {
    IsFavorable(t, IsSilenced(silenced, t.id))
  }

  /** The favorable tickers of the list, in list order. */
  function FavorablePool(ts: seq<Snapshot>, silenced: map<string, bool>): (r: seq<Snapshot>)
    ensures forall i :: 0 <= i < |r| ==> FavorableIn(silenced, r[i]) && r[i] in ts
    ensures forall t :: t in ts && FavorableIn(silenced, t) ==> t in r
    ensures forall t :: t in ts ==> multiset(r)[t] == if FavorableIn(silenced, t) then multiset(ts)[t] else 0
  {
    Filter(ts, t => FavorableIn(silenced, t))
  }

  /**
   * The favorable panel: the favorable tickers sorted in favorability order
   * and cut to the first 20.
   */
  function FavorableTickers(ts: seq<Snapshot>, silenced: map<string, bool>): (r: seq<Snapshot>)
    ensures var n := |FavorablePool(ts, silenced)|; |r| == if n <= 20 then n else 20
    ensures r == Sort(FavorablePool(ts, silenced), Comparator(Favorability, silenced))[..|r|]
    ensures multiset(r) <= multiset(FavorablePool(ts, silenced))
    ensures forall i :: 0 <= i < |r| ==> FavorableIn(silenced, r[i]) && r[i] in ts
    ensures SortedBy(r, Comparator(Favorability, silenced))
    ensures |FavorablePool(ts, silenced)| <= 20 ==> multiset(r) == multiset(FavorablePool(ts, silenced))
  {
    var fav := FavorablePool(ts, silenced);
    var r := Take(Sort(fav, Comparator(Favorability, silenced)), 20);
    TopFavorable(ts, silenced, fav, r);
    r
  }

  lemma TopFavorable(ts: seq<Snapshot>, silenced: map<string, bool>, fav: seq<Snapshot>, r: seq<Snapshot>)
    requires fav == FavorablePool(ts, silenced)
    requires r == Take(Sort(fav, Comparator(Favorability, silenced)), 20)
    ensures multiset(r) <= multiset(fav)
    ensures forall i :: 0 <= i < |r| ==> FavorableIn(silenced, r[i]) && r[i] in ts
    ensures SortedBy(r, Comparator(Favorability, silenced))
  {
    var sorted := Sort(fav, Comparator(Favorability, silenced));
    SortByModeSorted(fav, Favorability, silenced);
    TakeSorted(sorted, 20, Comparator(Favorability, silenced));
    forall i | 0 <= i < |r|
      ensures FavorableIn(silenced, r[i]) && r[i] in ts
    {
      assert r[i] in multiset(sorted);
      assert r[i] in fav;
    }
  }
}

=== FILE: dashboard_util.dfy ===
/** Broker auto-selection and the position fields derived from the selected broker. */
module DashboardUtil {
  import opened Wrappers
  import opened TickerTypes

  /** The broker preferred when it holds shares, and chosen when nobody does. */
  const DefaultBroker: BrokerId := "wealthsimple"

  /** `getBrokerQty`: the quantity held at `b`, counting a missing position or quantity as 0. */
  function GetBrokerQty(t: Snapshot, b: BrokerId): (q: real)
    ensures Lookup(t.positionsByBroker, b).None? ==> q == 0.0
    ensures Lookup(t.positionsByBroker, b).Some? && Lookup(t.positionsByBroker, b).value.quantityHolding.None? ==> q == 0.0
    ensures Lookup(t.positionsByBroker, b).Some? && Lookup(t.positionsByBroker, b).value.quantityHolding.Some? ==>
              q == Lookup(t.positionsByBroker, b).value.quantityHolding.value
  {
    match Lookup(t.positionsByBroker, b)
    case None => 0.0
    case Some(pos) => pos.quantityHolding.GetOr(0.0)
  }

  /** No broker of `keys` holds shares. */
  predicate NoneHolding(t: Snapshot, keys: seq<BrokerId>)
  {
    forall j :: 0 <= j < |keys| ==> GetBrokerQty(t, keys[j]) <= 0.0
  }

  /** `keys[i]` is the first broker of `keys` holding shares. */
  predicate FirstHoldingAt(t: Snapshot, keys: seq<BrokerId>, i: int)
  {
    0 <= i < |keys| && GetBrokerQty(t, keys[i]) > 0.0 && NoneHolding(t, keys[..i])
  }

  /** Skipping a first broker that holds nothing shifts the first holder by one. */
  lemma SkipEmptyBroker(t: Snapshot, keys: seq<BrokerId>, i: int)
    requires keys != [] && GetBrokerQty(t, keys[0]) <= 0.0
    ensures NoneHolding(t, keys) <==> NoneHolding(t, keys[1..])
    ensures FirstHoldingAt(t, keys[1..], i) ==> FirstHoldingAt(t, keys, i + 1)
  {
    if NoneHolding(t, keys[1..]) {
      forall j | 0 < j < |keys|
        ensures GetBrokerQty(t, keys[j]) <= 0.0
      {
        assert keys[j] == keys[1..][j - 1];
      }
    }
    if FirstHoldingAt(t, keys[1..], i) {
      assert keys[..i + 1] == [keys[0]] + keys[1..][..i];
    }
  }

  /** The first broker of `keys` holding shares, scanning in key order. */
  function FirstHolding(t: Snapshot, keys: seq<BrokerId>): (r: Option<BrokerId>)
    ensures r.None? <==> NoneHolding(t, keys)
    ensures r.Some? ==> exists i :: FirstHoldingAt(t, keys, i) && keys[i] == r.value
  {
    if keys == [] then None
    else if GetBrokerQty(t, keys[0]) > 0.0 then
      assert FirstHoldingAt(t, keys, 0);
      Some(keys[0])
    else
      var r := FirstHolding(t, keys[1..]);
      if r.None? then
        SkipEmptyBroker(t, keys, 0);
        r
      else
        var i :| FirstHoldingAt(t, keys[1..], i) && keys[1..][i] == r.value;
        SkipEmptyBroker(t, keys, i);
        r
  }

  /**
   * `pickDefaultBroker`: the fallback if it holds shares, else the first
   * broker in key order holding shares, else the fallback anyway.
   */
  function PickDefaultBroker(t: Snapshot, fallback: BrokerId): (b: BrokerId)
    ensures GetBrokerQty(t, fallback) > 0.0 ==> b == fallback
    ensures GetBrokerQty(t, fallback) <= 0.0 && NoneHolding(t, Brokers(t.positionsByBroker)) ==> b == fallback
    ensures GetBrokerQty(t, fallback) <= 0.0 && !NoneHolding(t, Brokers(t.positionsByBroker)) ==>
              exists i :: FirstHoldingAt(t, Brokers(t.positionsByBroker), i) && t.positionsByBroker[i].broker == b
  {
    if GetBrokerQty(t, fallback) > 0.0 then fallback
    else
      var keys := Brokers(t.positionsByBroker);
      match FirstHolding(t, keys)
      case Some(b) => b
      case None => fallback
  }

  /** The three fields mirrored from the selected broker's position. */
  datatype Derived = Derived(avgBookCost: Option<real>, quantityHolding: Option<real>, totalReturn: real)

  /** The unrealised return of `qty` shares bought at `avg`, valued at `last`. */
  function UnrealisedReturn(last: real, avg: real, qty: real): real
  {
    last * qty - avg * qty
  }

  /** When the return is computed: cost and a positive quantity known, and a positive last price. */
  predicate ReturnDefined(avg: Option<real>, qty: Option<real>, last: Option<real>) {
    avg.Some? && qty.Some? && qty.value > 0.0 && last.Some? && last.value > 0.0
  }

  /** The derived fields, from the selected broker's position (if any) and the last price. */
  function DeriveFrom(snap: Option<BrokerPosition>, lastPrice: Option<real>): (d: Derived)
    ensures snap.None? ==> d == Derived(None, None, 0.0)
    ensures snap.Some? ==> d.avgBookCost == snap.value.avgBookCost && d.quantityHolding == snap.value.quantityHolding
    ensures ReturnDefined(d.avgBookCost, d.quantityHolding, lastPrice) ==>
              d.totalReturn == UnrealisedReturn(lastPrice.value, d.avgBookCost.value, d.quantityHolding.value)
    ensures !ReturnDefined(d.avgBookCost, d.quantityHolding, lastPrice) ==> d.totalReturn == 0.0
  {
    var avg := if snap.Some? then snap.value.avgBookCost else None;
    var qty := if snap.Some? then snap.value.quantityHolding else None;
    var last := lastPrice.GetOr(0.0);
    var totalReturn :=
      if avg.Some? && qty.Some? && qty.value > 0.0 && last > 0.0
      then UnrealisedReturn(last, avg.value, qty.value)
      else 0.0;
    Derived(avg, qty, totalReturn)
  }

  /**
   * `derivePositionFields`: the selected broker's cost and quantity (null
   * when absent), and the unrealised return when it is meaningful, 0 otherwise.
   */
  function DerivePositionFields(t: Snapshot, broker: BrokerId): (d: Derived)
    ensures Lookup(t.positionsByBroker, broker).None? ==> d == Derived(None, None, 0.0)
    ensures Lookup(t.positionsByBroker, broker).Some? ==>
              d.avgBookCost == Lookup(t.positionsByBroker, broker).value.avgBookCost &&
              d.quantityHolding == Lookup(t.positionsByBroker, broker).value.quantityHolding
    ensures ReturnDefined(d.avgBookCost, d.quantityHolding, t.lastPrice) ==>
              d.totalReturn == UnrealisedReturn(t.lastPrice.value, d.avgBookCost.value, d.quantityHolding.value)
    ensures !ReturnDefined(d.avgBookCost, d.quantityHolding, t.lastPrice) ==> d.totalReturn == 0.0
  {
    DeriveFrom(Lookup(t.positionsByBroker, broker), t.lastPrice)
  }

  /** The derived fields depend on nothing but the selected broker's position and the last price. */
  lemma DeriveIsLocal(t1: Snapshot, t2: Snapshot, broker: BrokerId)
    requires Lookup(t1.positionsByBroker, broker) == Lookup(t2.positionsByBroker, broker)
    requires t1.lastPrice == t2.lastPrice
    ensures DerivePositionFields(t1, broker) == DerivePositionFields(t2, broker)
  {
    assert DerivePositionFields(t1, broker) == DeriveFrom(Lookup(t1.positionsByBroker, broker), t1.lastPrice);
  }
}

=== FILE: favorability.dfy ===
/** The placeholder favourability score, which looks only at the bucket. */
module Favorability {
  import opened Wrappers
  import opened TickerTypes
  import opened TickerSorting

  /** 100 for core, 70 for watch, 40 for once, 0 otherwise. */
  function FavorabilityScore(t: Snapshot): (score: int)
    ensures score in {0, 40, 70, 100}
    ensures score == 0 <==> BucketRank(t.bucket) >= 3
    ensures BucketRank(t.bucket) <= 2 ==> score == 100 - 30 * BucketRank(t.bucket)
  {
    if t.bucket == Some("core") then 100
    else if t.bucket == Some("watch") then 70
    else if t.bucket == Some("once") then 40
    else 0
  }

  /** A better (lower) bucket rank never scores lower. */
  lemma ScoreAntitoneInBucketRank(a: Snapshot, b: Snapshot)
    requires BucketRank(a.bucket) <= BucketRank(b.bucket)
    ensures FavorabilityScore(a) >= FavorabilityScore(b)
  {
  }

  /** Two tickers in the same bucket score the same, whatever else differs. */
  lemma ScoreDependsOnlyOnBucket(a: Snapshot, b: Snapshot)
    requires a.bucket == b.bucket
    ensures FavorabilityScore(a) == FavorabilityScore(b)
  {
  }
}

=== FILE: filter.dfy ===
/**
 * `applyFilters`: keep the tickers matching a market, a stock class and a
 * free-text search over "symbol name".
 */
module TickerFilter {
  import opened Strings
  import opened Sequences
  import opened TickerTypes

  /** The ticker shape `applyFilters` reads. */
  datatype FilterTicker = FilterTicker(id: string, symbol: string, name: string, market: Market, stockClass: StockClass)

  datatype MarketChoice = AllMarkets | OnlyMarket(market: Market)
  datatype ClassChoice = AllClasses | OnlyClass(stockClass: StockClass)

  /** The sort modes this filter record carries; `applyFilters` ignores them. */
  datatype FilterSortBy = Category | MostTraded | Gainers | CloseToThresholds

  datatype StockFilters = StockFilters(market: MarketChoice, stockClass: ClassChoice, sortBy: FilterSortBy, search: string)

  /** `defaultStockFilters`. */
  const DefaultStockFilters: StockFilters := StockFilters(AllMarkets, AllClasses, Category, "")

  /** The text a search is matched against. */
  function Haystack(t: FilterTicker): string
  {
    ToLower(t.symbol + " " + t.name)
  }

  /** The per-ticker verdict of the filter callback. */
  predicate Keep(f: StockFilters, search: string, t: FilterTicker)
  {
    if f.market.OnlyMarket? && t.market != f.market.market then false
    else if f.stockClass.OnlyClass? && t.stockClass != f.stockClass.stockClass then false
    else if search != [] then Contains(Haystack(t), search)
    else true
  }

  predicate MarketMatches(f: StockFilters, t: FilterTicker)
  {
    f.market == AllMarkets || f.market == OnlyMarket(t.market)
  }

  predicate ClassMatches(f: StockFilters, t: FilterTicker)
  {
    f.stockClass == AllClasses || f.stockClass == OnlyClass(t.stockClass)
  }

  /** A blank search matches everything; otherwise a substring test on the trimmed, lower-cased text. */
  ghost predicate SearchMatches(f: StockFilters, t: FilterTicker)
  {
    AllWhitespace(f.search) || exists i :: OccursAt(Haystack(t), ToLower(Trim(f.search)), i)
  }

  /** The filter keeps exactly the tickers matching all three criteria. */
  lemma KeepIffMatches(f: StockFilters, t: FilterTicker)
    ensures Keep(f, ToLower(Trim(f.search)), t) <==> MarketMatches(f, t) && ClassMatches(f, t) && SearchMatches(f, t)
  {
    var search := ToLower(Trim(f.search));
    assert search == [] <==> AllWhitespace(f.search) by {
      assert |search| == |Trim(f.search)|;
    }
    if search != [] {
      assert Contains(Haystack(t), search) <==> exists i :: OccursAt(Haystack(t), search, i);
    }
  }

  function ApplyFilters(tickers: seq<FilterTicker>, f: StockFilters): (r: seq<FilterTicker>)
    ensures forall i :: 0 <= i < |r| ==> MarketMatches(f, r[i]) && ClassMatches(f, r[i]) && SearchMatches(f, r[i])
    ensures forall t :: t in tickers && MarketMatches(f, t) && ClassMatches(f, t) && SearchMatches(f, t) ==> t in r
    ensures multiset(r) <= multiset(tickers)
    ensures forall t :: t in tickers ==>
      multiset(r)[t] == if MarketMatches(f, t) && ClassMatches(f, t) && SearchMatches(f, t) then multiset(tickers)[t] else 0
  {
    var search := ToLower(Trim(f.search));
    var r := Filter(tickers, t => Keep(f, search, t));
    forall t ensures Keep(f, search, t) <==> MarketMatches(f, t) && ClassMatches(f, t) && SearchMatches(f, t) {
      KeepIffMatches(f, t);
    }
    r
  }

  /** The output keeps the input's order. */
  lemma ApplyFiltersSubsequence(tickers: seq<FilterTicker>, f: StockFilters)
    ensures IsSubsequence(ApplyFilters(tickers, f), tickers)
  {
    FilterIsSubsequence(tickers, t => Keep(f, ToLower(Trim(f.search)), t));
  }

  /** Filtering again with the same filters changes nothing. */
  lemma ApplyFiltersIdempotent(tickers: seq<FilterTicker>, f: StockFilters)
    ensures ApplyFilters(ApplyFilters(tickers, f), f) == ApplyFilters(tickers, f)
  {
    FilterIdempotent(tickers, t => Keep(f, ToLower(Trim(f.search)), t));
  }

  /** With every criterion off the filter is the identity. */
  lemma DefaultFiltersKeepAll(tickers: seq<FilterTicker>)
    ensures ApplyFilters(tickers, DefaultStockFilters) == tickers
  {
    var p := (t: FilterTicker) => Keep(DefaultStockFilters, ToLower(Trim(DefaultStockFilters.search)), t);
    assert forall t :: p(t);
    FilterKeepsAll(tickers, p);
  }
}

=== FILE: sequences.dfy ===
/**
 * Generic sequence operations standing for `Array.prototype.filter` and the
 * stable `Array.prototype.sort` (a comparator returns a negative number when
 * its first argument goes first).
 */
module Sequences {

  /** `r` is `s` with some elements dropped and the order kept. */
  ghost predicate IsSubsequence<T>(r: seq<T>, s: seq<T>)
  {
    if r == [] then true
    else if s == [] then false
    else (r[0] == s[0] && IsSubsequence(r[1..], s[1..])) || IsSubsequence(r, s[1..])
  }

  /** `s.filter(p)`. */
  function Filter<T>(s: seq<T>, p: T -> bool): (r: seq<T>)
    ensures |r| <= |s|
    ensures forall i :: 0 <= i < |r| ==> p(r[i]) && r[i] in s
    ensures multiset(r) <= multiset(s)
    ensures forall x :: x in s && p(x) ==> x in r
    ensures forall x :: x in s ==> multiset(r)[x] == if p(x) then multiset(s)[x] else 0
  {
    if s == [] then []
    else
      assert s == [s[0]] + s[1..];
      if p(s[0]) then [s[0]] + Filter(s[1..], p) else Filter(s[1..], p)
  }

  /** Every element kept by `p` has a property that all of the input's `p`-elements have. */
  lemma {:induction false} FilterKeepsProperty<T>(s: seq<T>, p: T -> bool, q: T -> bool)
    requires forall i :: 0 <= i < |s| && p(s[i]) ==> q(s[i])
    ensures forall i :: 0 <= i < |Filter(s, p)| ==> q(Filter(s, p)[i])
  {
    if s != [] {
      FilterKeepsProperty(s[1..], p, q);
    }
  }

  /** Filtering keeps the relative order of what it keeps. */
  lemma {:induction false} FilterIsSubsequence<T>(s: seq<T>, p: T -> bool)
    ensures IsSubsequence(Filter(s, p), s)
  {
    if s != [] {
      FilterIsSubsequence(s[1..], p);
      var r := Filter(s, p);
      if p(s[0]) {
        assert r[0] == s[0] && r[1..] == Filter(s[1..], p);
      } else if r != [] {
        SubsequenceStep(r, s);
      }
    }
  }

  lemma SubsequenceStep<T>(r: seq<T>, s: seq<T>)
    requires r != [] && s != [] && IsSubsequence(r, s[1..])
    ensures IsSubsequence(r, s)
  {
  }

  /** Filtering a sequence whose every element passes changes nothing. */
  lemma {:induction false} FilterKeepsAll<T>(s: seq<T>, p: T -> bool)
    requires forall i :: 0 <= i < |s| ==> p(s[i])
    ensures Filter(s, p) == s
  {
    if s != [] {
      FilterKeepsAll(s[1..], p);
      assert s == [s[0]] + s[1..];
    }
  }

  /** Filtering twice by the same predicate is filtering once. */
  lemma {:induction false} FilterIdempotent<T>(s: seq<T>, p: T -> bool)
    ensures Filter(Filter(s, p), p) == Filter(s, p)
  {
    if s != [] {
      FilterIdempotent(s[1..], p);
      if p(s[0]) {
        assert ([s[0]] + Filter(s[1..], p))[1..] == Filter(s[1..], p);
      }
    }
  }

  /** Place `x` before the first element it does not sort after. */
  function Insert<T>(x: T, s: seq<T>, cmp: (T, T) -> int): (r: seq<T>)
    ensures multiset(r) == multiset(s) + multiset{x}
    ensures |r| == |s| + 1
  {
    if s == [] || cmp(x, s[0]) <= 0 then [x] + s
    else
      assert s == [s[0]] + s[1..];
      [s[0]] + Insert(x, s[1..], cmp)
  }

  /** `s.slice().sort(cmp)`, stable: equal elements keep their input order. */
  function Sort<T>(s: seq<T>, cmp: (T, T) -> int): (r: seq<T>)
    ensures multiset(r) == multiset(s)
    ensures |r| == |s|
  {
    if s == [] then []
    else
      assert s == [s[0]] + s[1..];
      Insert(s[0], Sort(s[1..], cmp), cmp)
  }

  /** A comparator that never says "after" both ways round. */
  ghost predicate Antisymmetric<T(!new)>(cmp: (T, T) -> int)
  {
    forall x, y :: cmp(x, y) > 0 ==> cmp(y, x) < 0
  }

  /** Every element sorts no later than its successor. */
  ghost predicate SortedBy<T>(s: seq<T>, cmp: (T, T) -> int)
  {
    forall i :: 0 <= i < |s| - 1 ==> cmp(s[i], s[i + 1]) <= 0
  }

  lemma {:induction false} InsertSorted<T(!new)>(x: T, s: seq<T>, cmp: (T, T) -> int)
    requires Antisymmetric(cmp) && SortedBy(s, cmp)
    ensures SortedBy(Insert(x, s, cmp), cmp)
    ensures Insert(x, s, cmp)[0] == x || (s != [] && Insert(x, s, cmp)[0] == s[0])
  {
    if s != [] && cmp(x, s[0]) > 0 {
      InsertSorted(x, s[1..], cmp);
      var rest := Insert(x, s[1..], cmp);
      assert rest[0] == x || rest[0] == s[1];
      assert Insert(x, s, cmp) == [s[0]] + rest;
    }
  }

  /** With an antisymmetric comparator the sort's output is in order. */
  lemma {:induction false} SortSorted<T(!new)>(s: seq<T>, cmp: (T, T) -> int)
    requires Antisymmetric(cmp)
    ensures SortedBy(Sort(s, cmp), cmp)
  {
    if s != [] {
      SortSorted(s[1..], cmp);
      InsertSorted(s[0], Sort(s[1..], cmp), cmp);
    }
  }

  /** Sorting the filtered elements keeps exactly the elements the predicate accepts. */
  lemma SortFilterMembers<T>(s: seq<T>, p: T -> bool, cmp: (T, T) -> int)
    ensures var r := Sort(Filter(s, p), cmp);
      && (forall i :: 0 <= i < |r| ==> p(r[i]) && r[i] in s)
      && (forall x :: x in s && p(x) ==> x in r)
  {
    var f := Filter(s, p);
    var r := Sort(f, cmp);
    forall i | 0 <= i < |r| ensures p(r[i]) && r[i] in s {
      assert r[i] in multiset(r);
      assert r[i] in multiset(s);
      var j :| 0 <= j < |f| && f[j] == r[i];
    }
    forall x | x in s && p(x) ensures x in r {
      assert x in multiset(f);
      assert x in multiset(r);
    }
  }

  /** A prefix of a sorted list is sorted and drawn from it. */
  lemma TakeSorted<T>(s: seq<T>, n: nat, cmp: (T, T) -> int)
    requires SortedBy(s, cmp)
    ensures SortedBy(Take(s, n), cmp)
    ensures multiset(Take(s, n)) <= multiset(s)
    ensures forall i :: 0 <= i < |Take(s, n)| ==> Take(s, n)[i] in s
  {
    var r := Take(s, n);
    assert s == r + s[|r|..];
  }

  /** `s.slice(0, n)`. */
  function Take<T>(s: seq<T>, n: nat): (r: seq<T>)
    ensures |r| == if |s| <= n then |s| else n
    ensures r == s[..|r|]
    ensures |s| <= n ==> r == s
  {
    if |s| <= n then s else s[..n]
  }
}

=== FILE: stock_ui.dfy ===
/** The four alert-threshold keys, their colours and the side their labels are drawn on. */
module StockUI {

  datatype ThresholdKey = ThresholdGreen | ThresholdCyan | ThresholdOrange | ThresholdRed

  /** The property name each key stands for. */
  function KeyName(k: ThresholdKey): string
  {
    match k
    case ThresholdGreen => "thresholdGreen"
    case ThresholdCyan => "thresholdCyan"
    case ThresholdOrange => "thresholdOrange"
    case ThresholdRed => "thresholdRed"
  }

  /** Position of a key on the price ladder, from the top (green) down to red. */
  function LadderIndex(k: ThresholdKey): (i: nat)
    ensures i < 4
  {
    match k
    case ThresholdGreen => 0
    case ThresholdCyan => 1
    case ThresholdOrange => 2
    case ThresholdRed => 3
  }

  /** The keys in ladder order. */
  const LadderKeys: seq<ThresholdKey> := [ThresholdGreen, ThresholdCyan, ThresholdOrange, ThresholdRed]

  /** `THRESHOLD_COLORS`. */
  const ThresholdColors: map<ThresholdKey, string> := map[
    ThresholdGreen := "#2e7d32",
    ThresholdCyan := "#00acc1",
    ThresholdOrange := "#fb8c00",
    ThresholdRed := "#e53935"
  ]

  /** `getThresholdColor`: total over the keys, and no two keys share a colour. */
  function GetThresholdColor(k: ThresholdKey): (c: string)
    ensures k in ThresholdColors && c == ThresholdColors[k]
    ensures forall other :: other != k ==> other in ThresholdColors && ThresholdColors[other] != c
  {
    assert ThresholdColors.Keys == {ThresholdGreen, ThresholdCyan, ThresholdOrange, ThresholdRed};
    assert k.ThresholdGreen? || k.ThresholdCyan? || k.ThresholdOrange? || k.ThresholdRed?;
    ThresholdColors[k]
  }

  /** `isThresholdKey`: true exactly for the property names of the four keys. */
  function IsThresholdKey(s: string): (b: bool)
    ensures b <==> exists k :: KeyName(k) == s
  {
    assert KeyName(ThresholdGreen) == "thresholdGreen" && KeyName(ThresholdCyan) == "thresholdCyan";
    assert KeyName(ThresholdOrange) == "thresholdOrange" && KeyName(ThresholdRed) == "thresholdRed";
    s == "thresholdGreen" || s == "thresholdCyan" || s == "thresholdOrange" || s == "thresholdRed"
  }

  datatype Side = Left | Right

  /** `labelSide`: labels alternate sides going down the ladder. */
  function LabelSide(k: ThresholdKey): (side: Side)
    ensures side == Left <==> LadderIndex(k) % 2 == 0
  {
    match k
    case ThresholdGreen => Left
    case ThresholdOrange => Left
    case ThresholdCyan => Right
    case ThresholdRed => Right
  }

  /** Neighbouring keys on the ladder never put their labels on the same side. */
  lemma {:induction false} NeighboursAlternate(i: nat)
    requires i + 1 < |LadderKeys|
    ensures LabelSide(LadderKeys[i]) != LabelSide(LadderKeys[i + 1])
  {
    assert LadderIndex(LadderKeys[i]) == i && LadderIndex(LadderKeys[i + 1]) == i + 1;
  }
}

=== FILE: strings.dfy ===
/**
 * String helpers shared by the model: the JavaScript notion of white space
 * (the class `\s` of regular expressions and the set `String.prototype.trim`
 * removes), trimming, ASCII lower-casing, substring search, `split`/`join` on a
 * single separator character, decimal rendering of integers (`String(n)`) and
 * the integer subset of `Number(string)`.
 */
module Strings {

  /** JavaScript WhiteSpace and LineTerminator code points. */
  predicate IsWhitespace(c: char) {
    c == '\t' || c == '\n' || c == '\U{000B}' || c == '\U{000C}' || c == '\r' || c == ' ' ||
    c == '\U{00A0}' || c == '\U{1680}' || ('\U{2000}' <= c <= '\U{200A}') ||
    c == '\U{2028}' || c == '\U{2029}' || c == '\U{202F}' || c == '\U{205F}' ||
    c == '\U{3000}' || c == '\U{FEFF}'
  }

  predicate AllWhitespace(s: string) {
    forall i :: 0 <= i < |s| ==> IsWhitespace(s[i])
  }

  /** White space before `k` does not change whether the whole string is white space. */
  lemma WhitespacePrefix(s: string, k: nat)
    requires k <= |s| && AllWhitespace(s[..k])
    ensures AllWhitespace(s) <==> AllWhitespace(s[k..])
  {
    if AllWhitespace(s[k..]) {
      forall i | 0 <= i < |s| ensures IsWhitespace(s[i]) {
        if i < k { assert s[i] == s[..k][i]; } else { assert s[i] == s[k..][i - k]; }
      }
    }
  }

  /** White space from `k` on does not change whether the whole string is white space. */
  lemma WhitespaceSuffix(s: string, k: nat)
    requires k <= |s| && AllWhitespace(s[k..])
    ensures AllWhitespace(s) <==> AllWhitespace(s[..k])
  {
    if AllWhitespace(s[..k]) {
      forall i | 0 <= i < |s| ensures IsWhitespace(s[i]) {
        if i < k { assert s[i] == s[..k][i]; } else { assert s[i] == s[k..][i - k]; }
      }
    }
  }

  function TrimStart(s: string): (r: string)
    ensures |r| <= |s| && r == s[|s| - |r|..]
    ensures r == [] || !IsWhitespace(r[0])
    ensures AllWhitespace(s[..|s| - |r|])
  {
    if s != [] && IsWhitespace(s[0]) then
      var t := s[1..];
      var r := TrimStart(t);
      var k := |s| - |r|;
      var w := t[..k - 1];
      assert t[k - 1..] == s[k..];
      assert AllWhitespace(w);
      forall i | 0 <= i < k ensures IsWhitespace(s[..k][i]) {
        if i > 0 { assert s[..k][i] == w[i - 1]; }
      }
      r
    else s
  }

  function TrimEnd(s: string): (r: string)
    ensures |r| <= |s| && r == s[..|r|]
    ensures r == [] || !IsWhitespace(r[|r| - 1])
    ensures AllWhitespace(s[|r|..])
  {
    if s != [] && IsWhitespace(s[|s| - 1]) then
      var p := s[..|s| - 1];
      var r := TrimEnd(p);
      assert p[..|r|] == s[..|r|];
      forall j | 0 <= j < |s| - |r| ensures IsWhitespace(s[|r|..][j]) {
        if j < |p| - |r| { assert s[|r|..][j] == p[|r|..][j]; }
      }
      r
    else s
  }

  /** `s.trim()`: drops white space at both ends and nothing else. */
  function Trim(s: string): (r: string)
    ensures r == [] || (!IsWhitespace(r[0]) && !IsWhitespace(r[|r| - 1]))
    ensures r == [] <==> AllWhitespace(s)
    ensures r == TrimEnd(TrimStart(s))
  {
    var t := TrimStart(s);
    var r := TrimEnd(t);
    WhitespacePrefix(s, |s| - |t|);
    WhitespaceSuffix(t, |r|);
    assert r == [] ==> t[|r|..] == t;
    assert r != [] ==> r[0] == t[0];
    r
  }

  /** `trim` removes white space at the two ends and keeps the middle of `s` as it is. */
  lemma TrimDropsOnlyEnds(s: string)
    ensures exists a, b ::
      0 <= a <= b <= |s| && Trim(s) == s[a..b] && AllWhitespace(s[..a]) && AllWhitespace(s[b..])
  {
    var t := TrimStart(s);
    var r := TrimEnd(t);
    var a := |s| - |t|;
    var b := a + |r|;
    assert r == s[a..b];
    assert s[b..] == t[|r|..];
  }

  /** A string without white space at its ends is its own trim. */
  lemma TrimIdentity(s: string)
    requires s == [] || (!IsWhitespace(s[0]) && !IsWhitespace(s[|s| - 1]))
    ensures Trim(s) == s
  {
  }

  function LowerChar(c: char): (r: char)
    ensures 'A' <= c <= 'Z' ==> r as int == c as int + 32
    ensures !('A' <= c <= 'Z') ==> r == c
  {
    if 'A' <= c <= 'Z' then (c as int + 32) as char else c
  }

  /** `s.toLowerCase()` restricted to the ASCII letters. */
  function ToLower(s: string): (r: string)
    ensures |r| == |s|
    ensures forall i :: 0 <= i < |s| ==> r[i] == LowerChar(s[i])
  {
    if s == [] then [] else [LowerChar(s[0])] + ToLower(s[1..])
  }

  predicate IsPrefix(p: string, s: string) {
    |p| <= |s| && s[..|p|] == p
  }

  /** `needle` occurs in `hay` starting at index `i`. */
  predicate OccursAt(hay: string, needle: string, i: int) {
    0 <= i && i + |needle| <= |hay| && hay[i..i + |needle|] == needle
  }

  /** `hay.includes(needle)`. */
  function Contains(hay: string, needle: string): (b: bool)
    ensures b <==> exists i :: OccursAt(hay, needle, i)
  {
    if IsPrefix(needle, hay) then
      assert OccursAt(hay, needle, 0);
      true
    else if hay == [] then
      false
    else
      var b := Contains(hay[1..], needle);
      ShiftOccurrence(hay, needle);
      b
  }

  lemma ShiftOccurrence(hay: string, needle: string)
    requires hay != [] && !IsPrefix(needle, hay)
    ensures (exists i :: OccursAt(hay, needle, i)) <==> (exists j :: OccursAt(hay[1..], needle, j))
  {
    if exists i :: OccursAt(hay, needle, i) {
      var i :| OccursAt(hay, needle, i);
      assert i != 0;
      assert forall m :: 0 <= m < |needle| ==> needle[m] == hay[1..][i - 1 + m];
      assert OccursAt(hay[1..], needle, i - 1);
    }
    if exists j :: OccursAt(hay[1..], needle, j) {
      var j :| OccursAt(hay[1..], needle, j);
      assert hay[j + 1..j + 1 + |needle|] == hay[1..][j..j + |needle|];
      assert OccursAt(hay, needle, j + 1);
    }
  }

  /** `s.split(sep)` for a one-character separator: never empty. */
  function Split(s: string, sep: char): (r: seq<string>)
    ensures |r| >= 1
    ensures forall i :: 0 <= i < |r| ==> sep !in r[i]
  {
    if s == [] then [""]
    else
      var rest := Split(s[1..], sep);
      if s[0] == sep then [""] + rest else [[s[0]] + rest[0]] + rest[1..]
  }

  /** `xs.join(sep)` for a one-character separator. */
  function Join(xs: seq<string>, sep: char): string
  {
    if |xs| == 0 then "" else if |xs| == 1 then xs[0] else xs[0] + [sep] + Join(xs[1..], sep)
  }

  lemma {:induction false} SplitNoSep(a: string, sep: char)
    requires sep !in a
    ensures Split(a, sep) == [a]
  {
    if a != [] {
      SplitNoSep(a[1..], sep);
      assert [a[0]] + a[1..] == a;
    }
  }

  lemma {:induction false} SplitAfterSep(a: string, b: string, sep: char)
    requires sep !in a
    ensures Split(a + [sep] + b, sep) == [a] + Split(b, sep)
  {
    if a == [] {
      assert a + [sep] + b == [sep] + b;
      assert ([sep] + b)[1..] == b;
    } else {
      SplitAfterSep(a[1..], b, sep);
      assert (a + [sep] + b)[1..] == a[1..] + [sep] + b;
      assert [a[0]] + a[1..] == a;
    }
  }

  /** Splitting a joined list gives it back when no element holds the separator. */
  lemma {:induction false} SplitJoin(xs: seq<string>, sep: char)
    requires |xs| >= 1
    requires forall i :: 0 <= i < |xs| ==> sep !in xs[i]
    ensures Split(Join(xs, sep), sep) == xs
  {
    if |xs| == 1 {
      SplitNoSep(xs[0], sep);
    } else {
      SplitJoin(xs[1..], sep);
      SplitAfterSep(xs[0], Join(xs[1..], sep), sep);
      assert [xs[0]] + xs[1..] == xs;
    }
  }

  predicate IsDigit(c: char) { '0' <= c <= '9' }

  predicate AllDigits(s: string) { forall i :: 0 <= i < |s| ==> IsDigit(s[i]) }

  function DigitChar(d: nat): (c: char)
    requires d < 10
    ensures IsDigit(c) && c as int - '0' as int == d
  {
    ('0' as int + d) as char
  }

  /** The value of a string of decimal digits (the most significant first). */
  function DigitsValue(s: string): nat
    requires AllDigits(s)
  {
    if s == [] then 0 else DigitsValue(s[..|s| - 1]) * 10 + (s[|s| - 1] as int - '0' as int)
  }

  /** `String(n)` for a natural number: its decimal digits, without leading zeros. */
  function NatToString(n: nat): (s: string)
    ensures |s| >= 1 && AllDigits(s)
  {
    if n < 10 then [DigitChar(n)] else NatToString(n / 10) + [DigitChar(n % 10)]
  }

  /** `String(i)` for an integer. */
  function IntToString(i: int): string
  {
    if i < 0 then "-" + NatToString(-i) else NatToString(i)
  }

  lemma {:induction false} DigitsOfNat(n: nat)
    ensures DigitsValue(NatToString(n)) == n
  {
    var s := NatToString(n);
    if n >= 10 {
      DigitsOfNat(n / 10);
      assert s[..|s| - 1] == NatToString(n / 10);
    }
  }

  /** The outcome of JavaScript's `Number(x)` on a query-string value. */
  datatype JsNumber = Num(value: int) | NaN

  /**
   * `Number(s)` on the strings a query parameter can hold: surrounding white
   * space is ignored, a blank string is 0, an optionally signed run of
   * decimal digits is its integer value, anything else is NaN.
   */
  function ParseNumber(s: string): JsNumber
  {
    ParseTrimmed(Trim(s))
  }

  /** `Number` on a string without surrounding white space. */
  function ParseTrimmed(t: string): JsNumber
  {
    if t == [] then Num(0)
    else if AllDigits(t) then Num(DigitsValue(t))
    else if (t[0] == '-' || t[0] == '+') && |t| > 1 && AllDigits(t[1..]) then
      var v: int := DigitsValue(t[1..]);
      Num(if t[0] == '-' then -v else v)
    else NaN
  }

  lemma ParseNatToString(i: int)
    requires i >= 0
    ensures ParseNumber(IntToString(i)) == Num(i)
  {
    var d := NatToString(i);
    assert IntToString(i) == d;
    DigitsOfNat(i);
    TrimIdentity(d);
  }

  /** `Number` reads a minus sign followed by digits as the negated digit value. */
  lemma ParseSignedDigits(t: string)
    requires |t| > 1 && t[0] == '-' && AllDigits(t[1..])
    ensures ParseTrimmed(t) == Num(-(DigitsValue(t[1..]) as int))
  {
    assert !AllDigits(t) by { assert !IsDigit(t[0]); }
  }

  lemma ParseNegativeDigits(d: string)
    requires |d| >= 1 && AllDigits(d)
    ensures ParseNumber("-" + d) == Num(-(DigitsValue(d) as int))
  {
    var s := "-" + d;
    assert s[1..] == d;
    assert !IsWhitespace(s[|s| - 1]) by { assert s[|s| - 1] == d[|d| - 1]; }
    TrimIdentity(s);
    ParseSignedDigits(s);
  }

  lemma ParseNegativeToString(i: int)
    requires i < 0
    ensures ParseNumber(IntToString(i)) == Num(i)
  {
    var n: nat := -i;
    var d := NatToString(n);
    assert IntToString(i) == "-" + d;
    DigitsOfNat(n);
    ParseNegativeDigits(d);
  }

  /** Reading back what `String(i)` wrote gives `i`. */
  lemma ParseIntToString(i: int)
    ensures ParseNumber(IntToString(i)) == Num(i)
  {
    if i < 0 {
      ParseNegativeToString(i);
    } else {
      ParseNatToString(i);
    }
  }
}

=== FILE: threshold_validation.dfy ===
/**
 * Validation of a set of alert thresholds: each must be a finite, non-zero,
 * positive number, and together they must stand on the price ladder
 * green > cyan > orange > red >= 0.01.
 */
module ThresholdValidation {
  import opened Wrappers
  import opened StockUI

  /**
   * A partial set of thresholds. A key is present exactly when the source
   * record holds a finite number for it; missing, null and non-finite
   * values are all absent.
   */
  type Thresholds = map<ThresholdKey, real>

  datatype ValidationResult = ValidationResult(ok: bool, errors: map<ThresholdKey, string>)

  /** The red floor, `MIN_RED`. */
  const MinRed: real := 0.01

  /** The floor message; `MIN_RED.toFixed(2)` renders as "0.01". */
  const RedFloorMessage: string := "Must be greater than 0.01"

  function Get(t: Thresholds, k: ThresholdKey): Option<real>
  {
    if k in t then Some(t[k]) else None
  }

  /** All four thresholds are finite numbers. */
  predicate AllFinite(t: Thresholds)
  {
    ThresholdGreen in t && ThresholdCyan in t && ThresholdOrange in t && ThresholdRed in t
  }

  /** The per-value rule: finite, then non-zero, then positive. */
  function BaseError(v: Option<real>): (e: Option<string>)
    ensures e.None? <==> v.Some? && v.value > 0.0
  {
    if v.None? then Some("Required")
    else if v.value == 0.0 then Some("Must not be 0")
    else if v.value < 0.0 then Some("Must be positive")
    else None
  }

  /**
   * The message reported for one key. A base-rule failure wins over an
   * ordering failure; between ordering failures the comparison with the
   * higher neighbour wins; the red floor, checked whenever all four are
   * finite, overrides every other message on red.
   */
  function ErrorFor(t: Thresholds, k: ThresholdKey): Option<string>
  {
    var base := BaseError(Get(t, k));
    if !AllFinite(t) then base
    else
      var g, c, o, r := t[ThresholdGreen], t[ThresholdCyan], t[ThresholdOrange], t[ThresholdRed];
      match k
      case ThresholdGreen =>
        base.OrElse(if g <= c then Some("Must be greater than Cyan") else None)
      case ThresholdCyan =>
        base.OrElse(
          if g <= c then Some("Must be less than Green")
          else if c <= o then Some("Must be greater than Orange")
          else None)
      case ThresholdOrange =>
        base.OrElse(
          if c <= o then Some("Must be less than Cyan")
          else if o <= r then Some("Must be greater than Red")
          else None)
      case ThresholdRed =>
        if r < MinRed then Some(RedFloorMessage)
        else base.OrElse(if o <= r then Some("Must be less than Orange") else None)
  }

  /** The error record: one entry per key that has a message. */
  function ThresholdErrors(t: Thresholds): map<ThresholdKey, string>
  {
    map k | k in LadderKeys && ErrorFor(t, k).Some? :: ErrorFor(t, k).value
  }

  /** The base-rule errors of the keys in `keys`. */
  function BaseErrors(t: Thresholds, keys: seq<ThresholdKey>): map<ThresholdKey, string>
  {
    map k | k in keys && BaseError(Get(t, k)).Some? :: BaseError(Get(t, k)).value
  }

  /** `errors[k] = errors[k] ?? message`. */
  function SetIfAbsent(errors: map<ThresholdKey, string>, k: ThresholdKey, message: string): (r: map<ThresholdKey, string>)
    ensures k in r && r[k] == (if k in errors then errors[k] else message)
    ensures forall j :: j != k ==> (j in r) == (j in errors) && (j in r ==> r[j] == errors[j])
  {
    if k in errors then errors else errors[k := message]
  }

  /** Adding one key to the scan adds its base-rule error, if it has one. */
  lemma BaseErrorsStep(t: Thresholds, keys: seq<ThresholdKey>, k: ThresholdKey)
    ensures BaseError(Get(t, k)).None? ==> BaseErrors(t, keys + [k]) == BaseErrors(t, keys)
    ensures BaseError(Get(t, k)).Some? ==>
              BaseErrors(t, keys + [k]) == BaseErrors(t, keys)[k := BaseError(Get(t, k)).value]
  {
    var before, after := BaseErrors(t, keys), BaseErrors(t, keys + [k]);
    forall j | j != k
      ensures (j in after) == (j in before) && (j in after ==> after[j] == before[j])
    {
      assert (j in keys + [k]) == (j in keys);
    }
  }

  /** Scanning every ladder key reports each key's base-rule error. */
  lemma BaseErrorsAll(t: Thresholds)
    ensures forall k :: (k in BaseErrors(t, LadderKeys)) == BaseError(Get(t, k)).Some?
    ensures forall k :: k in BaseErrors(t, LadderKeys) ==> BaseErrors(t, LadderKeys)[k] == BaseError(Get(t, k)).value
  {
    forall k ensures k in LadderKeys {
      assert k.ThresholdGreen? || k.ThresholdCyan? || k.ThresholdOrange? || k.ThresholdRed?;
    }
  }

  /** The loop applying the base rules to each key in ladder order. */
  method BaseRules(t: Thresholds) returns (errors: map<ThresholdKey, string>)
    ensures forall k :: (k in errors) == BaseError(Get(t, k)).Some?
    ensures forall k :: k in errors ==> errors[k] == BaseError(Get(t, k)).value
  {
    errors := map[];
    var keys := LadderKeys;
    for i := 0 to |keys|
      invariant errors == BaseErrors(t, keys[..i])
    {
      var k := keys[i];
      assert keys[..i + 1] == keys[..i] + [k];
      BaseErrorsStep(t, keys[..i], k);
      if k !in t {
        errors := errors[k := "Required"];
        continue;
      }
      var v := t[k];
      if v == 0.0 {
        errors := errors[k := "Must not be 0"];
        continue;
      }
      if v < 0.0 {
        errors := errors[k := "Must be positive"];
        continue;
      }
    }
    assert keys[..|keys|] == LadderKeys;
    BaseErrorsAll(t);
  }

  /** `validateThresholds`: the base rules, then the ordering rules. */
  method ValidateThresholds(t: Thresholds) returns (result: ValidationResult)
    ensures result.errors == ThresholdErrors(t)
    ensures result.ok <==> result.errors == map[]
  {
    var errors := BaseRules(t);
    if AllFinite(t) {
      errors := OrderingRules(t, errors);
    } else {
      forall k ensures Settled(errors, t, k) {
      }
    }
    SameErrors(errors, t);
    result := ValidationResult(|errors| == 0, errors);
  }

  /** The ordering rules and the red floor, applied over the base-rule errors of four finite values. */
  method OrderingRules(t: Thresholds, base: map<ThresholdKey, string>) returns (errors: map<ThresholdKey, string>)
    requires AllFinite(t)
    requires forall k :: (k in base) == BaseError(Get(t, k)).Some?
    requires forall k :: k in base ==> base[k] == BaseError(Get(t, k)).value
    ensures forall k :: Settled(errors, t, k)
  {
    errors := base;
    var g, c, o, r := t[ThresholdGreen], t[ThresholdCyan], t[ThresholdOrange], t[ThresholdRed];
    if !(g > c) {
      errors := SetIfAbsent(errors, ThresholdGreen, "Must be greater than Cyan");
      errors := SetIfAbsent(errors, ThresholdCyan, "Must be less than Green");
    }
    assert Settled(errors, t, ThresholdGreen);
    if !(c > o) {
      errors := SetIfAbsent(errors, ThresholdCyan, "Must be greater than Orange");
      errors := SetIfAbsent(errors, ThresholdOrange, "Must be less than Cyan");
    }
    assert Settled(errors, t, ThresholdGreen) && Settled(errors, t, ThresholdCyan);
    if !(o > r) {
      errors := SetIfAbsent(errors, ThresholdOrange, "Must be greater than Red");
      errors := SetIfAbsent(errors, ThresholdRed, "Must be less than Orange");
    }
    assert Settled(errors, t, ThresholdGreen) && Settled(errors, t, ThresholdCyan) && Settled(errors, t, ThresholdOrange);
    if !(r >= MinRed) {
      errors := errors[ThresholdRed := RedFloorMessage];
    }
    assert Settled(errors, t, ThresholdRed);
    forall k ensures Settled(errors, t, k) {
      assert k.ThresholdGreen? || k.ThresholdCyan? || k.ThresholdOrange? || k.ThresholdRed?;
    }
  }

  /** The record holds exactly the reported message for `k`. */
  predicate Settled(errors: map<ThresholdKey, string>, t: Thresholds, k: ThresholdKey)
  {
    (k in errors) == ErrorFor(t, k).Some? && (k in errors ==> errors[k] == ErrorFor(t, k).value)
  }

  /** Two error records agreeing on each key are the same record. */
  lemma SameErrors(errors: map<ThresholdKey, string>, t: Thresholds)
    requires forall k :: Settled(errors, t, k)
    ensures errors == ThresholdErrors(t)
  {
    var spec := ThresholdErrors(t);
    forall k ensures (k in errors) == (k in spec) && (k in errors ==> errors[k] == spec[k]) {
      assert k in LadderKeys by {
        assert k.ThresholdGreen? || k.ThresholdCyan? || k.ThresholdOrange? || k.ThresholdRed?;
      }
      assert Settled(errors, t, k);
    }
  }

  /**
   * The thresholds pass exactly when all four are finite and stand in
   * strict ladder order with red at or above the floor.
   */
  lemma ValidIffOrdered(t: Thresholds)
    ensures ThresholdErrors(t) == map[] <==>
      AllFinite(t) &&
      t[ThresholdGreen] > t[ThresholdCyan] > t[ThresholdOrange] > t[ThresholdRed] >= MinRed
  {
    var errs := ThresholdErrors(t);
    if errs == map[] {
      assert ThresholdGreen !in errs && ThresholdCyan !in errs;
      assert ThresholdOrange !in errs && ThresholdRed !in errs;
    } else {
      var k :| k in errs;
      assert ErrorFor(t, k).Some?;
    }
  }

  /** Below the floor, red reports the floor message whatever else is wrong with it. */
  lemma RedFloorOverrides(t: Thresholds)
    requires AllFinite(t) && t[ThresholdRed] < MinRed
    ensures ThresholdRed in ThresholdErrors(t) && ThresholdErrors(t)[ThresholdRed] == RedFloorMessage
  {
  }

  /** When some threshold is not finite only the base rules report. */
  lemma NonFiniteReportsBaseOnly(t: Thresholds, k: ThresholdKey)
    requires !AllFinite(t)
    ensures (k in ThresholdErrors(t)) == BaseError(Get(t, k)).Some?
    ensures k in ThresholdErrors(t) ==> ThresholdErrors(t)[k] == BaseError(Get(t, k)).value
  {
    assert k in LadderKeys by {
      assert k.ThresholdGreen? || k.ThresholdCyan? || k.ThresholdOrange? || k.ThresholdRed?;
    }
  }

  /** The candidate set produced by editing one key of `current`. */
  function Edited(current: Thresholds, key: ThresholdKey, next: Option<real>): (t: Thresholds)
    ensures forall k :: k != key ==> Get(t, k) == Get(current, k)
    ensures Get(t, key) == next
  {
    if next.Some? then current[key := next.value] else current - {key}
  }

  /** `validateThresholdEdit`: validate `current` with one key replaced. */
  method ValidateThresholdEdit(current: Thresholds, key: ThresholdKey, next: Option<real>)
    returns (result: ValidationResult)
    ensures result.errors == ThresholdErrors(Edited(current, key, next))
    ensures result.ok <==> result.errors == map[]
  {
    result := ValidateThresholds(Edited(current, key, next));
  }

  /** Validating an edit never depends on the value being replaced. */
  lemma EditIgnoresReplacedValue(a: Thresholds, b: Thresholds, key: ThresholdKey, next: Option<real>)
    requires forall k :: k != key ==> Get(a, k) == Get(b, k)
    ensures ThresholdErrors(Edited(a, key, next)) == ThresholdErrors(Edited(b, key, next))
  {
    var ta, tb := Edited(a, key, next), Edited(b, key, next);
    assert forall k :: Get(ta, k) == Get(tb, k);
    assert ta == tb by {
      forall k ensures (k in ta) == (k in tb) && (k in ta ==> ta[k] == tb[k]) {
        assert Get(ta, k) == Get(tb, k);
      }
    }
  }
}

=== FILE: ticker_sorting.dfy ===
/**
 * Ranking of tickers on the dashboard: bucket rank, the favourability
 * state ladder derived from a snapshot's price, holding and thresholds,
 * and the comparator used by every sort mode.
 */
module TickerSorting {
  import opened Wrappers
  import opened TickerTypes
  import opened Sequences

  /** Rank of a bucket name, in the order core, watch, once, avoid; unknown or missing buckets sort last. */
  function BucketRank(bucket: Option<string>): (r: int)
    ensures r == 99 || 0 <= r <= 3
    ensures r == 99 <==> bucket !in {Some("core"), Some("watch"), Some("once"), Some("avoid")}
    ensures 0 <= r <= 3 ==> bucket == Some(["core", "watch", "once", "avoid"][r])
  {
    match bucket
    case Some("core") => 0
    case Some("watch") => 1
    case Some("once") => 2
    case Some("avoid") => 3
    case _ => 99
  }

  /** Each named bucket ranks below every unknown one, and no two named buckets share a rank. */
  lemma BucketRankOfBuckets(b: Bucket, c: Bucket)
    ensures 0 <= BucketRank(Some(BucketName(b))) <= 3
    ensures BucketRank(Some(BucketName(b))) == BucketRank(Some(BucketName(c))) ==> b == c
  {
  }

  /** Favourability states; NONE is `FavNone`. */
  datatype FavState = HoldGreen | HoldCyan | Q0Red | HoldRed | HoldOrange | Q0Orange | FavNone

  /** Lower is higher priority. */
  function FavRank(s: FavState): (r: int)
    ensures s != FavNone <==> r <= 5
    ensures 0 <= r
    ensures s == HoldGreen ==> r == 0
    ensures s == HoldCyan ==> r == 1
    ensures s == Q0Red ==> r == 2
    ensures s == HoldRed ==> r == 3
    ensures s == HoldOrange ==> r == 4
    ensures s == Q0Orange ==> r == 5
    ensures s == FavNone ==> r == 99
  {
    match s
    case HoldGreen => 0
    case HoldCyan => 1
    case Q0Red => 2
    case HoldRed => 3
    case HoldOrange => 4
    case Q0Orange => 5
    case FavNone => 99
  }

  /**
   * The precedence ladder: held in the green zone first, then held cyan,
   * quantity-0 red, held red, held orange, quantity-0 orange; every
   * non-favorable ticker ranks 99, after all of them.
   */
  lemma FavRankLadder()
    ensures FavRank(HoldGreen) == 0 && FavRank(HoldCyan) == 1 && FavRank(Q0Red) == 2
    ensures FavRank(HoldRed) == 3 && FavRank(HoldOrange) == 4 && FavRank(Q0Orange) == 5
    ensures FavRank(FavNone) == 99
    ensures forall s :: FavRank(s) < FavRank(FavNone) <==> s != FavNone
  {
  }

  /** Distinct states have distinct ranks. */
  lemma FavRankInjective(s: FavState, u: FavState)
    requires FavRank(s) == FavRank(u)
    ensures s == u
  {
  }

  /** The quantity held, 0 when missing. */
  function Qty(t: Snapshot): real { t.quantityHolding.GetOr(0.0) }

  /** The last price, 0 when missing. */
  function Last(t: Snapshot): real { t.lastPrice.GetOr(0.0) }

  predicate Above(last: real, th: Option<real>) { th.Some? && last >= th.value }
  predicate Below(last: real, th: Option<real>) { th.Some? && last <= th.value }

  /**
   * The condition under which a ticker is in state `s`, ignoring the
   * precedence between states: holding tickers are favourable at or above
   * green or cyan (sell zone) and at or below red or orange (buy more);
   * tickers not held only in the buy zone; a silenced ticker never shows
   * a buy-zone state.
   */
  predicate StateCondition(s: FavState, t: Snapshot, silencedBuy: bool)
  {
    match s
    case HoldGreen => Qty(t) > 0.0 && Above(Last(t), t.thresholdGreen)
    case HoldCyan => Qty(t) > 0.0 && Above(Last(t), t.thresholdCyan)
    case Q0Red => Qty(t) <= 0.0 && Below(Last(t), t.thresholdRed) && !silencedBuy
    case HoldRed => Qty(t) > 0.0 && Below(Last(t), t.thresholdRed) && !silencedBuy
    case HoldOrange => Qty(t) > 0.0 && Below(Last(t), t.thresholdOrange) && !silencedBuy
    case Q0Orange => Qty(t) <= 0.0 && Below(Last(t), t.thresholdOrange) && !silencedBuy
    case FavNone => false
  }

  /**
   * The state of a ticker: the highest-priority state whose condition
   * holds, and NONE when none does.
   */
  function GetFavState(t: Snapshot, silencedBuy: bool): (r: FavState)
    ensures r != FavNone ==> StateCondition(r, t, silencedBuy)
    ensures forall s :: StateCondition(s, t, silencedBuy) ==> FavRank(r) <= FavRank(s)
  {
    var qty := Qty(t);
    var last := Last(t);
    if qty > 0.0 then
      if Above(last, t.thresholdGreen) then HoldGreen
      else if Above(last, t.thresholdCyan) then HoldCyan
      else if Below(last, t.thresholdRed) then (if silencedBuy then FavNone else HoldRed)
      else if Below(last, t.thresholdOrange) then (if silencedBuy then FavNone else HoldOrange)
      else FavNone
    else if Below(last, t.thresholdRed) then (if silencedBuy then FavNone else Q0Red)
    else if Below(last, t.thresholdOrange) then (if silencedBuy then FavNone else Q0Orange)
    else FavNone
  }

  /** Whether the ticker is in any favourable state. */
  function IsFavorable(t: Snapshot, silencedBuy: bool): (b: bool)
    ensures b <==> exists s :: StateCondition(s, t, silencedBuy)
  {
    var s := GetFavState(t, silencedBuy);
    assert StateCondition(s, t, silencedBuy) ==> FavRank(s) <= 5;
    s != FavNone
  }

  /**
   * Silencing only mutes the buy zone: a sell-zone state survives it and
   * every other state becomes NONE.
   */
  lemma SilenceMutesOnlyBuyZone(t: Snapshot)
    ensures GetFavState(t, true) ==
      (if GetFavState(t, false) in {HoldGreen, HoldCyan} then GetFavState(t, false) else FavNone)
  {
  }

  /** A ticker that is not held is never in a sell-zone state. */
  lemma NotHeldNeverSellZone(t: Snapshot, silencedBuy: bool)
    requires Qty(t) <= 0.0
    ensures GetFavState(t, silencedBuy) in {Q0Red, Q0Orange, FavNone}
  {
  }

  /** `a.localeCompare(b)`, taken as code-point lexicographic order. */
  function LocaleCompare(a: string, b: string): (r: int)
    ensures -1 <= r <= 1
    ensures r == 0 <==> a == b
  {
    if a == [] && b == [] then 0
    else if a == [] then -1
    else if b == [] then 1
    else if a[0] < b[0] then -1
    else if a[0] > b[0] then 1
    else
      var r := LocaleCompare(a[1..], b[1..]);
      assert r == 0 ==> a == [a[0]] + a[1..] == [b[0]] + b[1..] == b;
      assert a == b ==> a[1..] == b[1..];
      r
  }

  /** Swapping the arguments negates the comparison. */
  lemma {:induction false} LocaleCompareAntisymmetric(a: string, b: string)
    ensures LocaleCompare(b, a) == -LocaleCompare(a, b)
  {
    if a != [] && b != [] && a[0] == b[0] {
      LocaleCompareAntisymmetric(a[1..], b[1..]);
    }
  }

  datatype SortBy = Az | Za | ByBucket | Favorability

  /** Whether `id` is marked silenced (`!!silenced[id]`). */
  predicate IsSilenced(silenced: map<string, bool>, id: string)
  {
    id in silenced && silenced[id]
  }

  function Sign(x: int): int { if x < 0 then -1 else if x > 0 then 1 else 0 }

  /** Compare rank lists position by position; `tie` decides equal lists. */
  function LexCompare(ra: seq<int>, rb: seq<int>, tie: int): (r: int)
    requires |ra| == |rb|
  {
    if ra == [] then tie
    else if ra[0] < rb[0] then -1
    else if ra[0] > rb[0] then 1
    else LexCompare(ra[1..], rb[1..], tie)
  }

  lemma {:induction false} LexCompareAntisymmetric(ra: seq<int>, rb: seq<int>, tie: int)
    requires |ra| == |rb|
    ensures Sign(LexCompare(rb, ra, -tie)) == -Sign(LexCompare(ra, rb, tie))
  {
    if ra != [] && ra[0] == rb[0] {
      LexCompareAntisymmetric(ra[1..], rb[1..], tie);
    }
  }

  /**
   * The ranks a sort mode orders by before the symbol: none for A-Z and
   * Z-A, the bucket rank for "bucket", and the favourability rank then the
   * bucket rank for "favorability".
   */
  function SortKey(t: Snapshot, sortBy: SortBy, silenced: map<string, bool>): (k: seq<int>)
    ensures |k| == match sortBy case Az => 0 case Za => 0 case ByBucket => 1 case Favorability => 2
  {
    match sortBy
    case Az => []
    case Za => []
    case ByBucket => [BucketRank(t.bucket)]
    case Favorability => [FavRank(GetFavState(t, IsSilenced(silenced, t.id))), BucketRank(t.bucket)]
  }

  /** The symbol comparison that breaks ties: reversed only for Z-A. */
  function SymbolOrder(a: Snapshot, b: Snapshot, sortBy: SortBy): int
  {
    if sortBy == Za then LocaleCompare(b.symbol, a.symbol) else LocaleCompare(a.symbol, b.symbol)
  }

  /**
   * The comparator of every sort mode. Its sign is the lexicographic order
   * of the sort key, with the symbol breaking ties; under "favorability"
   * every favourable ticker therefore precedes every NONE ticker.
   */
  function CompareBySort(a: Snapshot, b: Snapshot, sortBy: SortBy, silenced: map<string, bool>): (r: int)
    ensures Sign(r) == Sign(LexCompare(SortKey(a, sortBy, silenced), SortKey(b, sortBy, silenced), SymbolOrder(a, b, sortBy)))
  {
    match sortBy
    case Az => LocaleCompare(a.symbol, b.symbol)
    case Za => LocaleCompare(b.symbol, a.symbol)
    case ByBucket =>
      var d := BucketRank(a.bucket) - BucketRank(b.bucket);
      if d != 0 then d else LocaleCompare(a.symbol, b.symbol)
    case Favorability =>
      var aState := GetFavState(a, IsSilenced(silenced, a.id));
      var bState := GetFavState(b, IsSilenced(silenced, b.id));
      var aFav := aState != FavNone;
      var bFav := bState != FavNone;
      if aFav != bFav then (if aFav then -1 else 1)
      else
        var pr := FavRank(aState) - FavRank(bState);
        if pr != 0 then pr
        else
          var ka := SortKey(a, sortBy, silenced);
          var kb := SortKey(b, sortBy, silenced);
          assert ka[1..] == [BucketRank(a.bucket)] && kb[1..] == [BucketRank(b.bucket)];
          var br := BucketRank(a.bucket) - BucketRank(b.bucket);
          if br != 0 then br
          else
            var tie := LocaleCompare(a.symbol, b.symbol);
            assert ka[1..][1..] == [] && kb[1..][1..] == [];
            assert LexCompare(ka[1..], kb[1..], tie) == tie;
            assert LexCompare(ka, kb, tie) == tie;
            LocaleCompare(a.symbol, b.symbol)
  }

  /** Swapping the two tickers flips the sign of every comparator. */
  lemma CompareBySortAntisymmetric(a: Snapshot, b: Snapshot, sortBy: SortBy, silenced: map<string, bool>)
    ensures Sign(CompareBySort(b, a, sortBy, silenced)) == -Sign(CompareBySort(a, b, sortBy, silenced))
  {
    LocaleCompareAntisymmetric(a.symbol, b.symbol);
    LexCompareAntisymmetric(SortKey(a, sortBy, silenced), SortKey(b, sortBy, silenced), SymbolOrder(a, b, sortBy));
  }

  /** The comparator of a sort mode, as passed to `Array.prototype.sort`. */
  function Comparator(sortBy: SortBy, silenced: map<string, bool>): (Snapshot, Snapshot) -> int
  {
    (x: Snapshot, y: Snapshot) => CompareBySort(x, y, sortBy, silenced)
  }

  lemma ComparatorAntisymmetric(sortBy: SortBy, silenced: map<string, bool>)
    ensures Antisymmetric(Comparator(sortBy, silenced))
  {
    forall x: Snapshot, y: Snapshot | Comparator(sortBy, silenced)(x, y) > 0
      ensures Comparator(sortBy, silenced)(y, x) < 0
    {
      CompareBySortAntisymmetric(x, y, sortBy, silenced);
    }
  }

  /** Under "favorability" a favourable ticker sorts before a NONE one. */
  lemma FavorableFirst(a: Snapshot, b: Snapshot, silenced: map<string, bool>)
    requires IsFavorable(a, IsSilenced(silenced, a.id))
    requires !IsFavorable(b, IsSilenced(silenced, b.id))
    ensures CompareBySort(a, b, Favorability, silenced) < 0
  {
  }

  /** Z-A is A-Z with the arguments swapped. */
  lemma ZaReversesAz(a: Snapshot, b: Snapshot, silenced: map<string, bool>)
    ensures CompareBySort(a, b, Za, silenced) == CompareBySort(b, a, Az, silenced)
  {
  }

  /** Sorting tickers by a mode yields them in that mode's order. */
  lemma SortByModeSorted(ts: seq<Snapshot>, sortBy: SortBy, silenced: map<string, bool>)
    ensures SortedBy(Sort(ts, Comparator(sortBy, silenced)), Comparator(sortBy, silenced))
    ensures multiset(Sort(ts, Comparator(sortBy, silenced))) == multiset(ts)
  {
    ComparatorAntisymmetric(sortBy, silenced);
    SortSorted(ts, Comparator(sortBy, silenced));
  }
}

=== FILE: ticker_types.dfy ===
/**
 * The records the stock pages exchange: ticker snapshots with their
 * per-broker positions, the live price event and the trade patch event.
 * Numeric fields are `Option<real>`: `None` is `null` or absent (JSON carries
 * no NaN or Infinity, so every present number is finite).
 */
module TickerTypes {
  import opened Wrappers
  import opened StockUI

  type BrokerId = string

  datatype Market = Canada | Usa | India
  datatype StockClass = Dividend | Trade | LongTerm
  datatype Bucket = Core | Watch | Once | Avoid

  function MarketName(m: Market): string
  {
    match m
    case Canada => "canada"
    case Usa => "usa"
    case India => "india"
  }

  function StockClassName(c: StockClass): string
  {
    match c
    case Dividend => "dividend"
    case Trade => "trade"
    case LongTerm => "longTerm"
  }

  function BucketName(b: Bucket): string
  {
    match b
    case Core => "core"
    case Watch => "watch"
    case Once => "once"
    case Avoid => "avoid"
  }

  /** A position held at one broker. */
  datatype BrokerPosition = BrokerPosition(avgBookCost: Option<real>, quantityHolding: Option<real>)

  const EmptyPosition := BrokerPosition(None, None)

  /** One key of `positionsByBroker`; the sequence keeps the object's key order. */
  datatype Entry = Entry(broker: BrokerId, position: BrokerPosition)

  type Positions = seq<Entry>

  /** `Object.keys(positionsByBroker)`. */
  function Brokers(p: Positions): (ks: seq<BrokerId>)
    ensures |ks| == |p| && forall i :: 0 <= i < |p| ==> ks[i] == p[i].broker
  {
    if p == [] then [] else [p[0].broker] + Brokers(p[1..])
  }

  /** `positionsByBroker[b]`. */
  function Lookup(p: Positions, b: BrokerId): (r: Option<BrokerPosition>)
    ensures r.Some? <==> b in Brokers(p)
    ensures r.Some? ==> exists i :: 0 <= i < |p| && p[i] == Entry(b, r.value)
  {
    if p == [] then None
    else if p[0].broker == b then Some(p[0].position)
    else
      assert Brokers(p) == [p[0].broker] + Brokers(p[1..]);
      var r := Lookup(p[1..], b);
      assert r.Some? ==> exists i :: 1 <= i < |p| && p[i] == Entry(b, r.value) by {
        if r.Some? {
          var i :| 0 <= i < |p[1..]| && p[1..][i] == Entry(b, r.value);
          assert p[i + 1] == Entry(b, r.value);
        }
      }
      r
  }

  /**
   * `{ ...p, [b]: pos }`: an existing key keeps its place and takes the new
   * value, a new key goes last; every other key keeps its value.
   */
  function Put(p: Positions, b: BrokerId, pos: BrokerPosition): (r: Positions)
    ensures |r| == |p| || |r| == |p| + 1
  {
    if p == [] then [Entry(b, pos)]
    else if p[0].broker == b then [Entry(b, pos)] + p[1..]
    else [p[0]] + Put(p[1..], b, pos)
  }

  /** After `Put`, `b` maps to the new position and every other key to what it had. */
  lemma {:induction false} PutLookup(p: Positions, b: BrokerId, pos: BrokerPosition)
    ensures Lookup(Put(p, b, pos), b) == Some(pos)
    ensures forall other :: other != b ==> Lookup(Put(p, b, pos), other) == Lookup(p, other)
  {
    if p != [] && p[0].broker != b {
      PutLookup(p[1..], b, pos);
      assert Put(p, b, pos)[1..] == Put(p[1..], b, pos);
    }
  }

  /** `Put` keeps the key order, appending `b` only when it was not a key. */
  lemma {:induction false} PutBrokers(p: Positions, b: BrokerId, pos: BrokerPosition)
    ensures b in Brokers(p) ==> Brokers(Put(p, b, pos)) == Brokers(p)
    ensures b !in Brokers(p) ==> Brokers(Put(p, b, pos)) == Brokers(p) + [b]
  {
    if p != [] && p[0].broker != b {
      PutBrokers(p[1..], b, pos);
      assert Brokers(p) == [p[0].broker] + Brokers(p[1..]);
      assert Brokers(Put(p, b, pos)) == [p[0].broker] + Brokers(Put(p[1..], b, pos));
    }
  }

  /** A ticker snapshot as the dashboard holds it (`TickerLatestDTO`). */
  datatype Snapshot = Snapshot(
    id: string,
    symbol: string,
    companyName: string,
    bucket: Option<string>,
    lastPrice: Option<real>,
    bidPrice: Option<real>,
    askPrice: Option<real>,
    volume: Option<real>,
    updateDatetime: Option<string>,
    tradeDatetime: Option<string>,
    symbolId: Option<int>,
    positionsByBroker: Positions,
    uiSelectedBroker: Option<BrokerId>,
    avgBookCost: Option<real>,
    quantityHolding: Option<real>,
    totalReturn: Option<real>,
    thresholdGreen: Option<real>,
    thresholdCyan: Option<real>,
    thresholdOrange: Option<real>,
    thresholdRed: Option<real>)

  /** `t[key]` for a threshold key. */
  function Threshold(t: Snapshot, k: ThresholdKey): Option<real>
  {
    match k
    case ThresholdGreen => t.thresholdGreen
    case ThresholdCyan => t.thresholdCyan
    case ThresholdOrange => t.thresholdOrange
    case ThresholdRed => t.thresholdRed
  }

  /** `{ ...t, [key]: v }` for a threshold key: that field alone changes. */
  function WithThreshold(t: Snapshot, k: ThresholdKey, v: Option<real>): (r: Snapshot)
    ensures Threshold(r, k) == v
    ensures forall other :: other != k ==> Threshold(r, other) == Threshold(t, other)
    ensures r.(thresholdGreen := t.thresholdGreen, thresholdCyan := t.thresholdCyan,
               thresholdOrange := t.thresholdOrange, thresholdRed := t.thresholdRed) == t
  {
    match k
    case ThresholdGreen => t.(thresholdGreen := v)
    case ThresholdCyan => t.(thresholdCyan := v)
    case ThresholdOrange => t.(thresholdOrange := v)
    case ThresholdRed => t.(thresholdRed := v)
  }

  /** A live price event (`PriceUpdateDTO`); absent fields are `None`. */
  datatype PriceUpdate = PriceUpdate(
    symbol: string,
    symbolId: Option<int>,
    last: Option<real>,
    bid: Option<real>,
    ask: Option<real>,
    volume: Option<real>,
    tradeDatetime: Option<string>)

  /** A patch field: `undefined` (leave alone), `null`, or a number. */
  datatype PatchValue = Undefined | Null | Value(v: real)

  datatype TradePatch = TradePatch(broker: BrokerId, avgBookCost: PatchValue, quantityHolding: PatchValue)

  /** A trade event (`TradeWsMsg`). */
  datatype TradeMsg = TradeMsg(symbol: string, patch: TradePatch)
}

=== FILE: time_ago.dfy ===
/**
 * `formatTimeAgo`: how long ago a millisecond timestamp was, in the largest
 * whole unit up to days. The current time is a parameter.
 */
module TimeAgo {
  import opened Strings

  /** Whole seconds elapsed, `Math.max(0, Math.floor((now - updatedAt) / 1000))`. */
  function ElapsedSeconds(updatedAt: int, now: int): (sec: nat)
    ensures now - updatedAt < 1000 ==> sec == 0
    ensures now - updatedAt >= 0 ==> sec * 1000 <= now - updatedAt < (sec + 1) * 1000
  {
    // `/` on int floors for a positive divisor, like `Math.floor`
    var s := (now - updatedAt) / 1000;
    if s < 0 then 0 else s
  }

  datatype Unit = JustNow | Seconds | Minutes | Hours | Days

  function UnitRank(u: Unit): nat
  {
    match u
    case JustNow => 0
    case Seconds => 1
    case Minutes => 2
    case Hours => 3
    case Days => 4
  }

  /** The unit a number of elapsed seconds is shown in. */
  function UnitOf(sec: nat): (u: Unit)
    ensures u == JustNow <==> sec < 10
    ensures u == Seconds <==> 10 <= sec < 60
    ensures u == Minutes <==> 60 <= sec < 3600
    ensures u == Hours <==> 3600 <= sec < 86400
    ensures u == Days <==> 86400 <= sec
  {
    if sec < 10 then JustNow
    else if sec < 60 then Seconds
    else
      var min := sec / 60;
      if min < 60 then Minutes
      else
        var hr := min / 60;
        if hr < 24 then Hours else Days
  }

  /** `formatTimeAgo(updatedAt)` at time `now`. */
  function FormatTimeAgo(updatedAt: int, now: int): (r: string)
    ensures var sec := ElapsedSeconds(updatedAt, now);
      (sec < 10 ==> r == "just now") &&
      (10 <= sec < 60 ==> r == NatToString(sec) + "s ago") &&
      (60 <= sec < 3600 ==> r == NatToString(sec / 60) + "m ago") &&
      (3600 <= sec < 86400 ==> r == NatToString(sec / 3600) + "h ago") &&
      (86400 <= sec ==> r == NatToString(sec / 86400) + "d ago")
  {
    var sec := ElapsedSeconds(updatedAt, now);
    if sec < 10 then "just now"
    else if sec < 60 then NatToString(sec) + "s ago"
    else
      var min := sec / 60;
      if min < 60 then NatToString(min) + "m ago"
      else
        var hr := min / 60;
        if hr < 24 then NatToString(hr) + "h ago"
        else NatToString(hr / 24) + "d ago"
  }

  /** A timestamp in the future reads as "just now". */
  lemma FutureIsJustNow(updatedAt: int, now: int)
    requires now < updatedAt
    ensures FormatTimeAgo(updatedAt, now) == "just now"
  {
  }

  /** Time only moves a reading to the same or a coarser unit. */
  lemma UnitMonotone(updatedAt: int, now1: int, now2: int)
    requires now1 <= now2
    ensures UnitRank(UnitOf(ElapsedSeconds(updatedAt, now1))) <= UnitRank(UnitOf(ElapsedSeconds(updatedAt, now2)))
  {
    var s1 := ElapsedSeconds(updatedAt, now1);
    var s2 := ElapsedSeconds(updatedAt, now2);
    assert s1 <= s2 by {
      if now1 - updatedAt >= 0 {
        assert s1 * 1000 <= now2 - updatedAt < (s2 + 1) * 1000;
      }
    }
  }
}

=== FILE: trade.dfy ===
/** The trade form's position preview and its submit guard. */
module TradePreview {
  import opened Wrappers

  datatype TradeType = Buy | Sell

  /** The previewed position after the trade; `profit` only for sells. */
  datatype Preview = Preview(nextQty: real, nextAvg: real, profit: Option<real>)

  function Min(a: real, b: real): real { if a <= b then a else b }
  function Max(a: real, b: real): real { if a >= b then a else b }

  /**
   * `calcPreview`. A buy pools the cost of the shares held and bought into
   * a new average; a sell books profit against the current average and
   * keeps that average while shares remain.
   */
  function CalcPreview(tradeType: TradeType, currentQty: real, currentAvg: real, rate: real, qty: real): (p: Preview)
    ensures qty <= 0.0 || rate <= 0.0 ==> p == Preview(currentQty, currentAvg, None)
    ensures qty > 0.0 && rate > 0.0 && tradeType == Buy ==>
              p.nextQty == currentQty + qty && p.profit.None? &&
              (p.nextQty == 0.0 ==> p.nextAvg == 0.0) &&
              (p.nextQty != 0.0 ==> p.nextAvg * p.nextQty == currentAvg * currentQty + rate * qty)
    ensures qty > 0.0 && rate > 0.0 && tradeType == Sell ==>
              p.nextQty == Max(0.0, currentQty - qty) && p.nextQty >= 0.0 &&
              p.profit == Some((rate - currentAvg) * qty) &&
              p.nextAvg == (if currentQty - qty > 0.0 then currentAvg else 0.0)
  {
    if qty <= 0.0 || rate <= 0.0 then Preview(currentQty, currentAvg, None)
    else if tradeType == Buy then
      var nextQty := currentQty + qty;
      var nextAvg := if nextQty == 0.0 then 0.0 else (currentAvg * currentQty + rate * qty) / nextQty;
      Preview(nextQty, nextAvg, None)
    else
      var nextQty := currentQty - qty;
      var profit := rate * qty - currentAvg * qty;
      var nextAvg := if nextQty <= 0.0 then 0.0 else currentAvg;
      Preview(Max(0.0, nextQty), nextAvg, Some(profit))
  }

  lemma MulNonNegative(x: real, y: real)
    requires x >= 0.0 && y >= 0.0
    ensures x * y >= 0.0
  {
  }

  /** Buying into a non-negative holding moves the average only within the two prices. */
  lemma BuyAverageBetween(currentQty: real, currentAvg: real, rate: real, qty: real)
    requires currentQty >= 0.0 && qty > 0.0 && rate > 0.0
    ensures var p := CalcPreview(Buy, currentQty, currentAvg, rate, qty);
      Min(currentAvg, rate) <= p.nextAvg <= Max(currentAvg, rate)
  {
    var n := currentQty + qty;
    var total := currentAvg * currentQty + rate * qty;
    var lo, hi := Min(currentAvg, rate), Max(currentAvg, rate);
    MulNonNegative(currentAvg - lo, currentQty);
    MulNonNegative(rate - lo, qty);
    MulNonNegative(hi - currentAvg, currentQty);
    MulNonNegative(hi - rate, qty);
    assert total - lo * n == (currentAvg - lo) * currentQty + (rate - lo) * qty;
    assert hi * n - total == (hi - currentAvg) * currentQty + (hi - rate) * qty;
    DivNonNegative(total - lo * n, n);
    DivNonNegative(hi * n - total, n);
    assert (total - lo * n) / n == total / n - lo;
    assert (hi * n - total) / n == hi - total / n;
  }

  lemma DivNonNegative(x: real, n: real)
    requires x >= 0.0 && n > 0.0
    ensures x / n >= 0.0
  {
  }

  /** The `canSubmit` rule. */
  predicate CanSubmit(tickerId: string, rate: real, quantity: real, tradeType: TradeType, currentQty: real)
  {
    if tickerId == [] then false
    else if !(rate > 0.0) then false
    else if !(quantity > 0.0) then false
    else if tradeType == Sell && quantity > currentQty then false
    else true
  }

  /**
   * A trade the form accepts is never the preview's no-op case, and an
   * accepted sell leaves exactly `currentQty - quantity` shares, so the
   * preview's clamp at zero never applies to it.
   */
  lemma AcceptedTradePreview(tickerId: string, rate: real, quantity: real, tradeType: TradeType,
                             currentQty: real, currentAvg: real)
    requires CanSubmit(tickerId, rate, quantity, tradeType, currentQty)
    ensures var p := CalcPreview(tradeType, currentQty, currentAvg, rate, quantity);
      && (tradeType == Buy ==> p.nextQty == currentQty + quantity)
      && (tradeType == Sell ==> p.nextQty == currentQty - quantity && p.profit.Some?)
  {
  }

  /** The form refuses a missing ticker, a non-positive rate or quantity, and an oversized sell. */
  lemma RefusedTrades(tickerId: string, rate: real, quantity: real, tradeType: TradeType, currentQty: real)
    ensures tickerId == [] ==> !CanSubmit(tickerId, rate, quantity, tradeType, currentQty)
    ensures rate <= 0.0 || quantity <= 0.0 ==> !CanSubmit(tickerId, rate, quantity, tradeType, currentQty)
    ensures tradeType == Sell && quantity > currentQty ==> !CanSubmit(tickerId, rate, quantity, tradeType, currentQty)
  {
  }
}

=== FILE: validation.dfy ===
/**
 * `validateEmail`, written out by hand: the string must match
 * `^[^\s@]+@[^\s@]+\.[^\s@]+$`.
 */
module EmailValidation {
  import opened Wrappers
  import opened Strings

  /** The class `[^\s@]`. */
  predicate EmailChar(c: char)
  {
    !IsWhitespace(c) && c != '@'
  }

  predicate AllEmailChars(s: string)
  {
    forall i :: 0 <= i < |s| ==> EmailChar(s[i])
  }

  /**
   * The regular expression, read literally: a non-empty run, '@', a non-empty
   * run, '.', a non-empty run, every run drawn from `[^\s@]`.
   */
  ghost predicate MatchesPattern(s: string)
  {
    exists i, j :: 0 < i && i + 1 < j < |s| - 1 && s[i] == '@' && s[j] == '.' &&
      AllEmailChars(s[..i]) && AllEmailChars(s[i + 1..j]) && AllEmailChars(s[j + 1..])
  }

  /** The index of the first occurrence of `c`. */
  function IndexOf(s: string, c: char): (r: Option<nat>)
    ensures r.None? ==> c !in s
    ensures r.Some? ==> r.value < |s| && s[r.value] == c && c !in s[..r.value]
  {
    if s == [] then None
    else if s[0] == c then Some(0)
    else
      match IndexOf(s[1..], c)
      case None => None
      case Some(k) =>
        assert s[..k + 1] == [s[0]] + s[1..][..k];
        Some(k + 1)
  }

  /** The user part before the first '@', the domain after it with a dot neither first nor last. */
  function ValidateEmail(s: string): bool
  {
    match IndexOf(s, '@')
    case None => false
    case Some(at) =>
      var domain := s[at + 1..];
      at > 0 && AllEmailChars(s[..at]) && AllEmailChars(domain) &&
      |domain| >= 3 && '.' in domain[1..|domain| - 1]
  }

  /** The hand-written check accepts exactly the strings the regular expression matches. */
  lemma ValidateEmailIsPattern(s: string)
    ensures ValidateEmail(s) <==> MatchesPattern(s)
  {
    if ValidateEmail(s) {
      AcceptedMatches(s);
    }
    if MatchesPattern(s) {
      var i, j :| 0 < i && i + 1 < j < |s| - 1 && s[i] == '@' && s[j] == '.' &&
        AllEmailChars(s[..i]) && AllEmailChars(s[i + 1..j]) && AllEmailChars(s[j + 1..]);
      MatchedAccepted(s, i, j);
    }
  }

  lemma AcceptedMatches(s: string)
    requires ValidateEmail(s)
    ensures MatchesPattern(s)
  {
    var at := IndexOf(s, '@').value;
    var domain := s[at + 1..];
    var inner := domain[1..|domain| - 1];
    var k :| 0 <= k < |inner| && inner[k] == '.';
    var j := at + 2 + k;
    assert s[j] == '.';
    assert s[at + 1..j] == domain[..k + 1];
    assert s[j + 1..] == domain[k + 2..];
    var host := domain[..k + 1];
    var top := domain[k + 2..];
    forall m | 0 <= m < |host|
      ensures EmailChar(host[m])
    {
      assert host[m] == domain[m];
    }
    forall m | 0 <= m < |top|
      ensures EmailChar(top[m])
    {
      assert top[m] == domain[k + 2 + m];
    }
    assert 0 < at && at + 1 < j < |s| - 1 && s[at] == '@' && s[j] == '.' &&
      AllEmailChars(s[..at]) && AllEmailChars(s[at + 1..j]) && AllEmailChars(s[j + 1..]);
  }

  lemma MatchedAccepted(s: string, i: int, j: int)
    requires 0 < i && i + 1 < j < |s| - 1 && s[i] == '@' && s[j] == '.'
    requires AllEmailChars(s[..i]) && AllEmailChars(s[i + 1..j]) && AllEmailChars(s[j + 1..])
    ensures ValidateEmail(s)
  {
    var r := IndexOf(s, '@');
    assert r.Some? by {
      assert s[i] in s;
    }
    forall m | 0 <= m < i
      ensures s[m] != '@'
    {
      assert s[..i][m] == s[m];
    }
    assert r.value == i;
    var domain := s[i + 1..];
    forall m | 0 <= m < |domain|
      ensures EmailChar(domain[m])
    {
      if i + 1 + m < j {
        assert domain[m] == s[i + 1..j][m];
      } else if i + 1 + m > j {
        assert domain[m] == s[j + 1..][m - (j - i)];
      }
    }
    assert domain[1..|domain| - 1][j - i - 2] == '.';
  }

  /** An accepted address has no white space and exactly one '@', with something before it. */
  lemma AcceptedShape(s: string)
    requires ValidateEmail(s)
    ensures forall k :: 0 <= k < |s| ==> !IsWhitespace(s[k])
    ensures exists at :: 0 < at < |s| && s[at] == '@' && forall k :: 0 <= k < |s| && s[k] == '@' ==> k == at
  {
    var at := IndexOf(s, '@').value;
    forall k | 0 <= k < |s|
      ensures !IsWhitespace(s[k]) && (s[k] == '@' ==> k == at)
    {
      if k < at {
        assert s[k] == s[..at][k];
      } else if k > at {
        assert s[k] == s[at + 1..][k - at - 1];
      }
    }
  }

  /** A plain address is accepted. */
  lemma AcceptsExample()
    ensures ValidateEmail("a@b.c")
  {
    var s := "a@b.c";
    assert IndexOf(s, '@') == Some(1);
    assert s[..1] == "a" && s[2..] == "b.c";
    assert AllEmailChars("a");
    assert AllEmailChars("b.c") by {
      assert EmailChar('b') && EmailChar('.') && EmailChar('c');
    }
    assert "b.c"[1..2] == ".";
  }

  /** A domain without a dot is refused. */
  lemma RejectsNoDot()
    ensures !ValidateEmail("a@b")
  {
    assert IndexOf("a@b", '@') == Some(1);
  }

  /** A dot right after the '@' is refused. */
  lemma RejectsLeadingDot()
    ensures !ValidateEmail("a@.c")
  {
    assert IndexOf("a@.c", '@') == Some(1);
    assert "a@.c"[2..] == ".c";
  }

  /** A dot at the very end is refused. */
  lemma RejectsTrailingDot()
    ensures !ValidateEmail("a@b.")
  {
    assert IndexOf("a@b.", '@') == Some(1);
    assert "a@b."[2..] == "b.";
  }

  /** White space before the '@' is refused. */
  lemma RejectsSpace()
    ensures !ValidateEmail("a b@c.d")
  {
    assert IndexOf("a b@c.d", '@') == Some(3);
    assert "a b@c.d"[..3][1] == ' ';
  }
}

=== FILE: wrappers.dfy ===
/** Option, the stand-in for the source's `null` / `undefined` values. */
module Wrappers {

  datatype Option<+T> = None | Some(value: T) {

    /** `x ?? d`: the value when present, otherwise the default. */
    function GetOr(default: T): T {
      match this
      case Some(v) => v
      case None => default
    }

    /** `a ?? b` on two optional values. */
    function OrElse(other: Option<T>): Option<T> {
      if Some? then this else other
    }
  }
}
